=== FILE: README.md ===
# digitalhealthevidence — a Dafny model of the search core

digitalhealthevidence is a small web front end to PubMed for literature on digital
health. Its server, `index.js`, does four things this project models and proves
properties of:

- `processSearch` reads an esearch reply. It takes the result count and the history
  handle (query key and web environment) from the first `<Count>`, `<QueryKey>` and
  `<WebEnv>` elements, after every newline is removed.
- `processSummary` cuts an efetch reply into its `<PubmedArticle>` blocks. Each block
  becomes a summary of seven named fields: title, authors (`Last, Initials` joined with
  `; `), journal, publication date, date added to PubMed, abstract and DOI link. The two
  dates are built from optional day, month and year tokens, with numeric months mapped
  through a table of month abbreviations.
- The `/search/` handler checks its parameters in order: query, then sort presence, then
  sort name through `getSort`. It reads the page offset, searches PubMed for the base
  query narrowed by the user's query, and computes the paging window and the link to the
  next page of ten. It then fetches the records at the offset through the search's handle.
- The home page shows the count of the base query rounded down to a whole thousand.

All of this is regular-expression scraping. The module `Regex` models the fragment of
JavaScript regular expressions that index.js uses. A pattern is a sequence of literals and
`.` runs, lazy or greedy. The module gives the engine's backtracking matcher (`MatchAt`),
`exec`/`match` (`SearchFrom`), the global iteration of `matchAll` (`MatchAll`, and the
loop `MatchAllIter`) and `replace` with the `g` flag (`ReplaceAll`). It proves them
against a declarative meaning of a match (`Fits`) and against the order in which the
engine tries candidates (`TriedFirst`). Every field lemma of the other modules rests on
those proofs.

Modules, in dependency order:

- `Wrappers`: `Option`.
- `Regex`: the engine.
- `Scrape`: newline stripping, the `<T>(.+?)</T>` extraction, `join`.
- `Numbers`: digit strings, `parseFloat` on leading digits, JavaScript's printing of
  whole numbers.
- `Dates`: the month table and the date format.
- `SearchReply`: `processSearch` and the home-page count.
- `Summary`: `processSummary`.
- `SearchPage`: `getSort`, the search term, the page offset, paging and the handler.

Behaviour of index.js that the model keeps as written:

- A request without a `query` parameter is refused with status 400 at index.js:104. The
  `else` branch at index.js:131-135, which would give an empty result, cannot be reached:
  every value Express gives a present parameter passes the test at index.js:121. A
  string does, and so does an array or object, which is truthy.
- A numeric month outside 1..12 prints as `undefined`, because `months[n - 1]` does not
  exist. It is not passed through.
- The author regex (index.js:46) pairs a `<LastName>` with the next `<Initials>` wherever
  it is. An author without initials is therefore joined with the following author's
  initials, not reported with an empty part.
- A date without a year keeps the space written after its month or day.
- A summary with no DOI still has the link `http://doi.org/`, not an empty value.
- The next-page link (index.js:122) puts the query into the address without URL
  encoding. A query holding `&` therefore does not read back from its own link: the
  query parameter ends at that `&` (`SearchPage.NextLinkAmpersand`).

## Model

| member | source | states |
|---|---|---|
| Regex.MatchAt | index.js:35-37 | a match the backtracking matcher returns at p fits the pattern there |
| Regex.MatchAtFirst | index.js:35-37 | whenever any match exists at p, the matcher finds one, and it is the one the engine tries first (lazy runs shortest first, greedy runs longest first) |
| Regex.TriedFirstAntisymmetric | index.js:35-37 | two matches at one place that each come no later than the other in the engine's order are the same match |
| Regex.MatchAtTriedFirst | index.js:35-37 | the matcher's result comes no later than every other match at p |
| Regex.FirstIsMatchAt | index.js:35-37 | conversely, a match that comes no later than every other match at p is exactly the matcher's result |
| Regex.SearchFrom | index.js:35-37 | `exec` from lastIndex p: a match found starts at or after p and fits there |
| Regex.SearchFromFirst | index.js:35-37 | leftmost first: for any match at q ≥ p the search succeeds, and its match starts before q, or at q and comes no later in the engine's order |
| Regex.SearchFromNone | index.js:35-37 | the search fails exactly when the pattern fits nowhere from p on |
| Regex.FitsOrdered | index.js:46 | the piece ends of a match are increasing and lie inside the text |
| Regex.FitsPiece | index.js:46 | piece i of a match covers the text from where piece i - 1 ended to where piece i ends |
| Regex.CaptureFits | index.js:46 | a capture around a literal holds the literal; around a `.` run, at least its minimum of characters and no line terminator |
| Regex.ElementFits | index.js:46 | a literal, a `(.+?)` group and a literal in a row: the group is non-empty and the three stand together in the text |
| Regex.AnchoredAdvances | index.js:43 | a match of a pattern that starts with a non-empty literal is non-empty, so a global iteration always moves on |
| Regex.MatchAllMatches | index.js:43-44 | `matchAll` with the g flag: every match fits, is non-empty, lies after the start, and the matches come left to right without overlapping |
| Regex.MatchAll | index.js:43 | the matches of a global iteration from lastIndex p, each search continuing at the previous match's end (its properties are the lemmas below) |
| Regex.MatchAllStep | index.js:43-44 | one step of the iteration: no match ends it; otherwise the next match is followed by the matches after its end |
| Regex.MatchAllNone | index.js:46 | the global match list is empty exactly when the pattern fits nowhere |
| Regex.MatchAllCovers | index.js:43 | no match is skipped: any place the pattern fits lies inside one of the matches found |
| Regex.MatchAllIter | index.js:43-44 | the iterator run to its end, each search continuing from the last match's end, yields exactly the global match list |
| Regex.ReplaceAll | index.js:58 | `replace` with the g flag: the text between matches kept, each match replaced by rep (its properties are the lemmas below) |
| Regex.LiteralFound | index.js:58 | an occurrence of a literal is found by a search started at or before it |
| Regex.ReplaceLiteralRemovesAll | index.js:58 | replacing every occurrence of a literal by text that shares no character with it leaves no occurrence |
| Regex.FitsFromPieces | index.js:46 | a match is assembled piece by piece: each piece fitting where the previous one ended gives a match |
| Regex.DominatesTriedFirst | index.js:46 | a match that ends every lazy run no later, and every greedy run no earlier, than another comes first in the engine's order |
| Regex.DominantIsMatchAt | index.js:58 | a match at p that comes first in that sense against every match at p is what the engine returns there |
| Regex.LaterNotTriedFirst | index.js:46 | a match that agrees with another up to a lazy run and ends that run later is not tried first |
| Regex.SearchFromSkips | index.js:58 | a search for a pattern that starts with a literal passes over places where that literal does not occur |
| Regex.SearchFromAbsent | index.js:58 | the search and the global iteration find nothing when the leading literal occurs nowhere from p on |
| Regex.MatchAllSkips | index.js:46 | a global iteration from two places with the same next match goes on identically |
| Regex.SearchFromMatchAt | index.js:46 | a match found by the search is the one the engine returns at its start |
| Regex.MatchAllMatchAt | index.js:46 | each match of a global iteration is the one the engine returns at its start |
| Scrape.StripNewlines | index.js:34 | `split("\n").join("")`: the result holds exactly the characters of the input other than newlines, each as often as in the input |
| Scrape.StripNewlinesKeeps | index.js:34 | text without newlines is unchanged |
| Scrape.StripNewlinesAppend | index.js:34 | stripping distributes over concatenation, so order is kept |
| Scrape.FitsBetween | index.js:35-37 | a match of `open(.+?)close` is an enclosure: open, a non-empty text without line terminators, close |
| Scrape.EnclosesFits | index.js:35-37 | conversely, every enclosure is a match of the regex |
| Scrape.FirstBetweenSome | index.js:35-37 | a captured value is the first enclosure: leftmost, then shortest |
| Scrape.FirstBetweenNone | index.js:35-37 | the match fails exactly when nothing is enclosed |
| Scrape.EnclosedText | index.js:35-37 | the enclosed value is the text right after the opening tag |
| Scrape.FirstEnclosureFound | index.js:35-37 | the first enclosure is what the match captures |
| Scrape.BetweenCovered | index.js:43 | the global `open.+?close` iteration misses no enclosure |
| Scrape.BetweenMoved | index.js:43 | `open(.+?)close` still fits when its group is ended at an earlier closing tag |
| Scrape.BetweenCloseAt | index.js:43 | so the lazy group of the engine's match holds no closing tag at any inner position |
| Scrape.BetweenShortest | index.js:43 | the engine's `open(.+?)close` match at a place runs to the first closing tag after the opening one |
| Scrape.BetweenBlock | index.js:43 | each match of the global `open(.+?)close` is open, a non-empty body and close, and that body runs to the first closing tag |
| Scrape.FirstBetween | index.js:35-37 | `s.match(/open(.+?)close/)`: a captured value is non-empty and holds no line terminator |
| Scrape.FieldText | index.js:35-37 | the capture with fallback "": "" exactly when the regex does not match, and never a line terminator |
| Scrape.FieldTextSpec | index.js:36-37 | a field with fallback "" is "" exactly when nothing is enclosed, and otherwise it is the first enclosure |
| Scrape.FirstBetweenFinds | index.js:35-37 | in a text with no earlier opening tag, the value between the first tags is captured |
| Scrape.Join | index.js:46 | `join`: "" for no elements, the element itself for one, and otherwise a text that starts with the first element |
| Scrape.JoinAppend | index.js:46 | joining one more element appends the separator and that element |
| Numbers.LeadingDigits | index.js:50 | the longest prefix made of digits |
| Numbers.ParseLeading | index.js:50 | `parseFloat` on a token gives NaN exactly when the token does not start with a digit |
| Numbers.ParseLeadingToken | index.js:50 | a token made of a digit string d followed by a non-digit, or by nothing, reads as the value of d ("5th" gives 5) |
| Numbers.LeadingDigitsOfDigits | index.js:50 | a digit string is read in full, as its value |
| Numbers.NatToDecimal | index.js:122 | `String(n)`: a canonical digit string, with no leading zero |
| Numbers.IntToDecimal | index.js:122 | `String(n)` for either sign: canonical digits, with a minus sign for a negative n |
| Numbers.DecimalValue | index.js:122 | printing then reading gives the number back |
| Numbers.DecimalOfValue | index.js:50 | reading then printing a canonical digit string gives the string back |
| Dates.DayText | index.js:50-51 | a publication day prints as the canonical value of its leading digits, or `NaN` |
| Dates.MonthText | index.js:51 | a month read as n in 1..12 prints as the n-th abbreviation, another number as `undefined`, a non-number as itself |
| Dates.MonthNamesKept | index.js:51 | a month already written as an abbreviation passes through |
| Dates.MonthNumberOrName | index.js:51 | month n and the n-th abbreviation print the same |
| Dates.MonthNumber | index.js:14 | the position of an abbreviation in the table, counted from 1, or none |
| Dates.MonthTextNumber | index.js:14 | the table is one-to-one: a printed numeric month gives its number back |
| Dates.FormatDate | index.js:51 | the date line: day and a space, month as printed and a space, then the year, each only when present |
| Dates.FormatDateEmpty | index.js:51 | a date is "" exactly when it has no day, no month and no year |
| Dates.FormatDateTrailingSpace | index.js:51 | a date without a year ends with a space |
| Dates.FormatDateSegments | index.js:51 | the date is the day segment, then the month segment, then the year segment, each written as it would be alone; so the first present part leads |
| Dates.FormatDateFull | index.js:48-51 | day 5, month 3, year 2021 print as "5 Mar 2021" |
| Dates.PubDayDropsZero | index.js:50-51 | a publication day "05" prints as "5" |
| Dates.PubMedDayKeepsZero | index.js:55-56 | a day added to PubMed is not parsed and keeps its zero |
| Dates.DayNotANumber | index.js:50 | a publication day that does not start with a digit prints as "NaN" |
| Dates.FormatDatePartial | index.js:51 | month "12" or "Dec" with year 2020 prints as "Dec 2020"; nothing at all prints as "" |
| SearchReply.CountOf | index.js:35 | the count is 0 without a `<Count>` element, and the value of its text when that is a digit string |
| SearchReply.ProcessSearch | index.js:33-39 | the count, query key and web environment, each read from its first element in the reply with newlines removed |
| SearchReply.ProcessSearchNoCount | index.js:35 | a reply without a count element has count 0 |
| SearchReply.ProcessSearchCount | index.js:35 | a first count element holding digits gives their value |
| SearchReply.ProcessSearchQueryKey | index.js:36 | the query key is "" exactly when no `<QueryKey>` element holds text, and otherwise the first one |
| SearchReply.ProcessSearchWebEnv | index.js:37 | the same for the web environment |
| SearchReply.ReplyHasNoNewline | index.js:34 | a reply built from a count and two tokens has no newline |
| SearchReply.ReplyCountField | index.js:35 | the count element of such a reply captures the printed count |
| SearchReply.ReplyQueryKeyField | index.js:36 | its query key element captures the query key |
| SearchReply.ReplyWebEnvField | index.js:37 | its web environment element captures the web environment |
| SearchReply.ProcessSearchRoundTrip | index.js:33-39 | reading a reply built from a count, a query key and a web environment gives all three back |
| SearchReply.RoundDownToThousand | index.js:90 | the result is a multiple of 1000, at most the count, and less than 1000 below it |
| SearchReply.HomeCount | index.js:88-90 | the home-page count is a multiple of 1000 within 1000 below the reply's count |
| Summary.DatePattern | index.js:48-56 | a date pattern starts with a non-empty literal exactly when its opening text is non-empty |
| Summary.Articles | index.js:43 | one block per match of the article regex |
| Summary.ArticleShape | index.js:43 | each block is an opening tag, a non-empty body and a closing tag, standing in the newline-stripped reply where its match starts; the body ends at the first `</PubmedArticle>` after the opening tag, so one block never spans two articles |
| Summary.ArticlesOrdered | index.js:43-44 | blocks come in document order and do not overlap |
| Summary.ArticlesCover | index.js:43 | every enclosed article lies inside one of the blocks |
| Summary.NoArticles | index.js:43 | there are no blocks exactly when the reply encloses no article |
| Summary.AuthorNames | index.js:46 | one author entry per match of the author regex |
| Summary.DatePart | index.js:48-56 | a date token that is found is non-empty; which text it is, is stated by DatePartOf and the date round trips |
| Summary.DatePartFound | index.js:48-56 | a date token is missing exactly when its pattern fits nowhere in the block |
| Summary.Summarize | index.js:60 | seven fields with the names Title, Authors, Journal, Publication Date, Date Added to PubMed, Abstract and Link, in that order; the link starts with `http://doi.org/` |
| Summary.TitleField | index.js:45 | the title is "" exactly when the block has no `<ArticleTitle>` element, and otherwise the first one's text |
| Summary.JournalField | index.js:47 | the journal is "" exactly when the block has no `<Title>` element, and otherwise the first one's text |
| Summary.LinkField | index.js:59-60 | the link is the bare resolver address exactly when the block has no DOI, and otherwise the address followed by the first DOI |
| Summary.AuthorMatch | index.js:46 | an author match holds a non-empty last name and initials, whose elements stand in the block, the last name first |
| Summary.PairFirstCloseAt | index.js:46 | in a match of `a(.+?)b.*?c(.+?)d`, no b starts strictly inside the first group |
| Summary.PairFirstClose | index.js:46 | the first group of `a(.+?)b.*?c(.+?)d` runs to the first b after a |
| Summary.PairFirstMoved | index.js:46 | the pattern also fits with its first group ended at an earlier b, which is what makes that earlier b the engine's choice |
| Summary.PairSecondMoved | index.js:46 | the pattern also fits with its second element moved to a complete `c(.+?)d` inside the middle run |
| Summary.PairFirstSecondAt | index.js:46 | no complete `c(.+?)d` element starts in the middle run at a given place |
| Summary.PairFirstSecond | index.js:46 | the second element of a match is the first complete `c(.+?)d` after the first element |
| Summary.PairSecondCloseAt | index.js:46 | no d starts strictly inside the second group |
| Summary.PairSecondClose | index.js:46 | the second group runs to the first d after c |
| Summary.PairMatchShape | index.js:46 | a match of the pair pattern: both groups non-empty, the first running to the first b, the second element the first complete one after the first, running to the first d |
| Summary.AuthorNameShape | index.js:46 | author entry i is `last, initials` for the i-th `<LastName>` element the global search meets, last running to the first `</LastName>`, and for the first complete `<Initials>` element after it, initials running to the first `</Initials>`; entries come in document order without overlapping |
| Summary.AuthorsText | index.js:46 | the authors line: the entries joined with "; " |
| Summary.AuthorsTextEmpty | index.js:46 | the authors line is "" exactly when there are no author entries |
| Summary.AuthorsField | index.js:46 | the authors field is "" exactly when the author regex fits nowhere in the block |
| Summary.PublicationDate | index.js:48-51 | the publication date: the day through `parseFloat`, the month through the table, the year as written, from `<PubDate>` |
| Summary.PubMedDate | index.js:53-56 | the date added: the same from the `pubmed` history entry, the day taken as written |
| Summary.AbstractText | index.js:58 | the abstract: the greedy abstract match with its opening tags removed and each closing tag made a space, or "" without a match |
| Summary.Extract | index.js:45-60 | how each field's value is read from a block |
| Summary.PublicationDateField | index.js:48-51 | the publication date is "" exactly when the block has no day, month or year in `<PubDate>` |
| Summary.PubMedDateField | index.js:53-56 | the date added is "" exactly when the block has no day, month or year in its `pubmed` history entry |
| Summary.AbstractHasNoClose | index.js:58 | the abstract holds no `</AbstractText>`: each one became a space |
| Summary.AbstractMissing | index.js:58 | without an abstract element the abstract is "" |
| Summary.AbstractField | index.js:58 | the abstract field has no closing tag, and is "" when the block has no abstract element |
| Summary.PairFits | index.js:46 | the pair pattern fits `a + x + b + c + y + d` where it stands, its groups taking x and y |
| Summary.PairDominates | index.js:46 | with x and y tokens and b and d tags, every other fit there ends each lazy run no earlier |
| Summary.PairMatch | index.js:46 | so the search from that place matches exactly that text and captures x and y |
| Summary.PairsHead | index.js:46 | over the elements of a list of authors, the first match captures the first author and the iteration goes on after its elements |
| Summary.PairsFrom | index.js:46 | from where such elements begin, with no further opening tag after them, the global iteration captures each author in turn, one match per author |
| Summary.PairsRoundTrip | index.js:46 | the same for a block with any text before and after the elements that holds no opening tag |
| Summary.AuthorsRoundTrip | index.js:46 | author round trip: a block whose authors are written as `<LastName>` and `<Initials>` elements holding tokens gives the line of `last, initials` entries joined with "; " |
| Summary.GreedyElementPieces | index.js:58 | in a fit of `a.*g.+c`, the opening a comes first, g stands where the first run ends, and c after a non-empty second run |
| Summary.ElementOnlyFit | index.js:58 | over an element a + g + t + c with t free of markup and of g, and no later c, the only fit of `a.*g.+c` is that element |
| Summary.GreedyElementFits | index.js:58 | `a.*g.+c` fits the element a + g + t + c with its first run empty |
| Summary.ElementMatchAt | index.js:58 | so the engine's greedy match at that place is exactly the element |
| Summary.ElementFound | index.js:58 | with no earlier opening tag and no later closing tag, the search for `a.*g.+c` returns exactly the element |
| Summary.OpenTagRemoved | index.js:58 | removing `a.*?g` from the element leaves t followed by the closing tag |
| Summary.CloseTagSpaced | index.js:58 | replacing the closing tag after t by a space gives t + " " |
| Summary.AbstractRoundTrip | index.js:58 | a block holding one `<AbstractText>` element with a markup-free text t gives the abstract t + " " |
| Summary.TagFree | index.js:48-56 | a tag starts nowhere inside an occurrence of a tag that differs from it in its second or third character |
| Summary.TokenFree | index.js:48-56 | a tag starts nowhere inside an occurrence of a markup-free token |
| Summary.ElementFree | index.js:48-56 | a tag different from both tags of an element `<n>t</n>` starts nowhere inside that element |
| Summary.DateClosesApart | index.js:48-56 | the day, month and year tags in that order, with `</PubDate>` or `</PubMedPubDate>` closing, meet the conditions below |
| Summary.YmdClosesApart | index.js:48-56 | the same for the year, month and day order |
| Summary.DateFits | index.js:48-56 | `open.*?<u>(.+?)</u>.*?close` fits `open + x + <u> + v + </u> + y + close` where it stands, with v as its group |
| Summary.DateDominates | index.js:48-56 | when no `<u>` starts inside x and no closing text inside y, every other fit there ends each lazy run no earlier |
| Summary.DatePartOf | index.js:48-56 | so, with no opening text before it, the date token of unit u is exactly v |
| Summary.LaterUnitsFree | index.js:48-56 | after the first of three elements, no closing text starts before the block's end |
| Summary.OuterUnitsFree | index.js:48-56 | the first element holds no opening tag of the second, and the third no closing text |
| Summary.EarlierUnitsFree | index.js:48-56 | the first two elements hold no opening tag of the third |
| Summary.FirstUnitOf | index.js:48-56 | in a date block of three elements, the token of the first element's unit is the text of that element |
| Summary.SecondUnitOf | index.js:48-56 | the same for the second element |
| Summary.ThirdUnitOf | index.js:48-56 | the same for the third element |
| Summary.PublicationDateRoundTrip | index.js:48-51 | publication date round trip: `<PubDate>` with day d, month m and year y gives the date of the parsed day, the month through the table, and y |
| Summary.PubMedDateRoundTrip | index.js:53-56 | the same for the `pubmed` history entry, with the day kept as written |
| Summary.PublicationDateRoundTripYmd | index.js:48-51 | the publication date round trip for elements written year, month, day, as PubMed writes them |
| Summary.PubMedDateRoundTripYmd | index.js:53-56 | the same for the `pubmed` history entry written year, month, day |
| Summary.ProcessSummary | index.js:41-63 | one summary per article block, in document order, each the seven fields of its block |
| SearchPage.GetSort | index.js:65-76 | added, published and relevant map to "", "pub date" and "relevance", each in both directions; "unknown" exactly for every other name |
| SearchPage.SearchTerm | index.js:115 | the term starts with the base query, and is the base query alone exactly when the query is "" |
| SearchPage.SearchTermQuery | index.js:115 | the user's query can be read back from the term |
| SearchPage.SearchTermInjective | index.js:115 | distinct queries give distinct terms |
| SearchPage.Retstart | index.js:112 | the offset is 0 without a start parameter, and negative only for a parameter written with a minus sign |
| SearchPage.RetstartOfDecimal | index.js:112 | a whole number printed as JavaScript prints it reads back as the same offset |
| SearchPage.RetstartNotANumber | index.js:112 | a parameter that does not start with a sign or a digit gives offset 0 |
| SearchPage.RetstartFraction | index.js:112 | a parameter with a fraction that is not all zeros gives offset 0 |
| SearchPage.Paging | index.js:121-127 | the window starts at offset + 1; there is a next page exactly when offset + 10 < count; it starts at offset + 10, where the ten-result window ends; otherwise the window ends at the count |
| SearchPage.PagingCases | index.js:121-127 | below count - 10 the page has next offset offset + 10 and window offset + 1 to offset + 10; otherwise no next page and window offset + 1 to count |
| SearchPage.PagingExamples | index.js:121-127 | 25 results: window 1-10 with next offset 10, and window 21-25 at offset 20; no results: window 1-0 |
| SearchPage.PageWalk | index.js:121-122 | following the next links starts at the given offset |
| SearchPage.PageWalkCovers | index.js:121-127 | following the next links visits pages whose windows abut, and ends on a page with no next link whose window ends at the count |
| SearchPage.PageWalkFinds | index.js:121-127 | every result after the starting offset, up to the count, is shown on a page of that walk |
| SearchPage.ReadLink | index.js:122 | how a `/search/?query=q&start=n&sort=s` address is read: query and start parameter hold no `&` |
| SearchPage.ReadStartSort | index.js:122 | the `start=n&sort=s` part of an address: a start parameter without `&` |
| SearchPage.ReadStartSortOf | index.js:122 | `start=` + n + `&sort=` + s reads back as n and s when n has no `&` |
| SearchPage.ReadLinkOf | index.js:122 | an address assembled from a query, a start and a sort, the first two without `&`, reads back as those three |
| SearchPage.NextLink | index.js:122 | the next link is a `/search/?query=` address, and for a query without `&` it reads back as that query, the printed offset and the sort name |
| SearchPage.NextLinkAmpersand | index.js:122 | a query holding `&` does not read back from its own next link |
| SearchPage.NextLinkLeadsOn | index.js:112-127 | the next link of a query without `&` reads back as the same query and sort name, its start parameter gives the next offset through the offset rule, and that page begins right after the current window |
| SearchPage.HandleSearch | index.js:100-140 | no query gives 400 (missing query); else no sort gives 400 (missing sort); else an unknown sort gives 400 (unkown sort). Any other request gets the results page: the count of the esearch reply for the narrowed term and sort key, the paging window and next link, and one summary per article of the efetch reply for the search's handle at the offset |

## Left out

- HTTP and the network: `fetch` over `https` (index.js:16-31) is the function parameter `fetch` of `SearchPage.HandleSearch`. Its transport errors, which reject the promise, are not modelled.
- Express: routing, static files, body parsing, favicon and `res.render` with the pug templates. The handler returns the values it would render.
- Start-up and timing: the `quicklinks.json` file reads (index.js:92, 137), `Date.now()` and the elapsed time, `listen` and the shutdown handler.
- Upstream addresses: the eutils URLs and API key (index.js:10-12), and how the URL query strings are assembled. The model keeps only which parameters are sent (`Upstream`).
- Other input shapes: repeated or nested query parameters, which Express delivers as an array or an object. Such a value is truthy, so it takes the same branch at index.js:121 as a string. Where it is concatenated, into the search term at index.js:115 and into the next link at index.js:122, an array prints as its elements joined with commas and an object (`?query[a]=b`) prints as `[object Object]`. The model's parameters are strings only.
- Text encoding: strings are sequences of Unicode characters, not UTF-16 code units. No URL encoding is applied to the next link, and none is modelled.
- SearchPage.ReadLink: reads an address literally. The URL decoding a browser and Express apply (`+` as a space, `%` escapes, a `#` ending the address) is not modelled.
- Number precision: every number is an unbounded integer. JavaScript numbers are doubles, so whole numbers beyond 2^53 (a count, an offset, `retstart + 10`) lose precision there and not here.
- Numbers.NatToDecimal: whole numbers of 10^21 and above, which JavaScript prints in exponent form, are printed as plain digits.
- SearchReply.CountOf: a count element that does not hold a digit string gives 0 here. In JavaScript the count stays the captured string, and each arithmetic use converts it with Number. That conversion also reads surrounding whitespace (" 25", "25 "), a sign ("-5", "+25"), a fraction or a leading "." ("1.5", ".5"), an exponent ("1e3"), the prefixes 0x, 0b and 0o ("0x19", "0b11", "0o7") and "Infinity". Those are numbers there but 0 here. A "-5" count, for one, gives a negative count at index.js:90 and index.js:121-127. Text of only whitespace is 0 in both. Only the remaining text is NaN there, and every comparison with NaN is false.
- SearchPage.Retstart: leading whitespace, exponent notation (`1e3`) and `Infinity` are not modelled; `+`/`-`, digits and a fraction are. The parameter is read exactly, while `parseFloat` rounds it to a double. So "5.0000000000000000001" is the whole number 5 in JavaScript but has a fraction here and gives 0.
- Dates.DayText: a fraction, a sign, an exponent (`5e1`) or leading whitespace in a publication day is not modelled. The day is read as its leading digits. A day "5e1" is 50 for `parseFloat` at index.js:50, so JavaScript prints "50 " where the model prints "5 ". A day "5e-1" prints "0.5 " there and "5 " here. A day "Infinity" prints as "Infinity" in JavaScript but as "NaN" here.
- Dates.MonthText: a fraction, a sign, an exponent (`1e1`) or leading whitespace in a month is not modelled. The month is read as its leading digits. A month "1e1" is 10 for `parseFloat` at index.js:51, so JavaScript prints `months[9]`, "Oct", where the model prints "Jan". A month "Infinity" prints as "undefined" in JavaScript but as "Infinity" here.
- Summary.PublicationDateRoundTrip: the date round trips (and PubMedDateRoundTrip and the Ymd forms) are proved for a block of exactly three elements, day-month-year or year-month-day, each holding a markup-free token. Blocks with other elements between them (such as `<Season>` or `<MedlineDate>`) or with a unit missing are covered only by DatePart, DatePartFound and the field lemmas.
- Regex: only literals and `.` runs are modelled, the constructs index.js uses. Character classes, alternation and flags other than `g` are not.

=== FILE: dates.dfy ===
/**
 * The display dates of an article summary (index.js:48-56): optional day, month and
 * year tokens rendered as `day month year`, each segment left out when absent, a
 * numeric month looked up in the `months` table.
 */
module Dates {
  import opened Wrappers
  import opened Numbers

  /** The `months` table of index.js:14. */
  const Months: seq<string> :=
    ["Jan", "Feb", "Mar", "Apr", "May", "Jun", "Jul", "Aug", "Sep", "Oct", "Nov", "Dec"]

  /** What JavaScript prints for `months[k]` when k is not an index of the table. */
  const Undefined := "undefined"

  /** What JavaScript prints for a Number that is NaN. */
  const NaN := "NaN"

  /**
   * A publication day after `parseFloat` (index.js:50), printed back by string
   * concatenation: the value of its leading digits without leading zeros, "NaN" for a
   * token that does not start with a digit.
   */
  function DayText(raw: string): (r: string)
    ensures ParseLeading(raw).Some? ==> IsCanonical(r) && DigitsValue(r) == ParseLeading(raw).value
    ensures ParseLeading(raw).None? ==> r == NaN
  {
    match ParseLeading(raw)
    case Some(n) =>
      DecimalValue(n);
      NatToDecimal(n)
    case None => NaN
  }

  /**
   * A month token as index.js:51 and :56 print it: when `parseFloat` reads a number n
   * it is `months[n - 1]` (JavaScript's `undefined` outside 1..12), any other token is
   * kept as it is.
   */
  function MonthText(raw: string): (r: string)
    ensures ParseLeading(raw).Some? && 1 <= ParseLeading(raw).value <= 12 ==>
              r in Months && r == Months[ParseLeading(raw).value - 1]
    ensures ParseLeading(raw).Some? && !(1 <= ParseLeading(raw).value <= 12) ==> r == Undefined
    ensures ParseLeading(raw).None? ==> r == raw
  {
    match ParseLeading(raw)
    case Some(n) => if 1 <= n <= 12 then Months[n - 1] else Undefined
    case None => raw
  }

  /** A month already written as a name from the table passes through unchanged. */
  lemma MonthNamesKept(name: string)
    requires name in Months
    ensures MonthText(name) == name
  {
    assert !IsDigit(name[0]);
  }

  /** A month written as the number n and one written as the n-th name print the same. */
  lemma MonthNumberOrName(n: nat)
    requires 1 <= n <= 12
    ensures MonthText(NatToDecimal(n)) == MonthText(Months[n - 1]) == Months[n - 1]
  {
    DecimalValue(n);
    LeadingDigitsOfDigits(NatToDecimal(n));
    MonthNamesKept(Months[n - 1]);
  }

  /** The position of a name in the month table, counted from 1. */
  function MonthNumber(name: string): (r: Option<nat>)
    ensures r.Some? ==> 1 <= r.value <= 12 && Months[r.value - 1] == name
    ensures r.None? ==> name !in Months
  {
    if name in Months then
      var k :| 0 <= k < 12 && Months[k] == name; Some(k + 1)
    else None
  }

  /** The month table is one-to-one, so a rendered numeric month tells its number back. */
  lemma MonthTextNumber(raw: string)
    requires ParseLeading(raw).Some? && 1 <= ParseLeading(raw).value <= 12
    ensures MonthNumber(MonthText(raw)) == ParseLeading(raw)
  {
    var n := ParseLeading(raw).value;
    var r := MonthNumber(MonthText(raw));
    assert Months[r.value - 1] == Months[n - 1];
  }

  /**
   * One date role: `day + " "` if there is a day, then the month (through the table)
   * and `" "` if there is a month, then the year if there is one.
   */
  function FormatDate(day: Option<string>, month: Option<string>, year: Option<string>): string {
    (if day.Some? then day.value + " " else "") +
    (if month.Some? then MonthText(month.value) + " " else "") +
    year.GetOr("")
  }

  /** The date is empty exactly when no segment is present (or only an empty year). */
  lemma FormatDateEmpty(day: Option<string>, month: Option<string>, year: Option<string>)
    ensures FormatDate(day, month, year) == "" <==>
              day.None? && month.None? && year.GetOr("") == ""
  {
    var r := FormatDate(day, month, year);
    if day.Some? {
      assert r[|day.value|] == ' ';
    } else if month.Some? {
      assert r[|MonthText(month.value)|] == ' ';
    }
  }

  /** Without a year the date keeps the space written after its last segment. */
  lemma FormatDateTrailingSpace(day: Option<string>, month: Option<string>)
    requires day.Some? || month.Some?
    ensures var r := FormatDate(day, month, None); r != "" && r[|r| - 1] == ' '
  {
  }

  /** The day, then the month, then the year, in that order, whichever are present. */
  lemma FormatDateSegments(day: Option<string>, month: Option<string>, year: Option<string>)
    ensures day.Some? ==> day.value + " " <= FormatDate(day, month, year)
    ensures day.None? && month.Some? ==> MonthText(month.value) + " " <= FormatDate(day, month, year)
    ensures day.None? && month.None? ==> FormatDate(day, month, year) == year.GetOr("")
    ensures FormatDate(day, month, year) ==
              FormatDate(day, None, None) + FormatDate(None, month, None) + FormatDate(None, None, year)
  {
  }

  /** (5, 3, 2021) reads "5 Mar 2021". */
  lemma FormatDateFull()
    ensures FormatDate(Some(DayText("5")), Some("3"), Some("2021")) == "5 Mar 2021"
  {
    LeadingDigitsOfDigits("5");
    LeadingDigitsOfDigits("3");
    assert DigitsValue("5") == 5 && DigitsValue("3") == 3;
    assert NatToDecimal(5) == "5";
  }

  /** A publication day written "05" is printed "5". */
  lemma PubDayDropsZero()
    ensures FormatDate(Some(DayText("05")), Some("3"), Some("2021")) == "5 Mar 2021"
  {
    LeadingDigitsOfDigits("05");
    LeadingDigitsOfDigits("3");
    assert DigitsValue("05") == 5 && DigitsValue("3") == 3;
    assert NatToDecimal(5) == "5";
  }

  /** A day added to PubMed is not parsed, so it keeps its zero. */
  lemma PubMedDayKeepsZero()
    ensures FormatDate(Some("05"), Some("3"), Some("2021")) == "05 Mar 2021"
  {
    LeadingDigitsOfDigits("3");
    assert DigitsValue("3") == 3;
  }

  /** A day that does not start with a digit prints as "NaN", as parseFloat leaves it. */
  lemma DayNotANumber()
    ensures FormatDate(Some(DayText("x")), None, Some("2021")) == "NaN 2021"
  {
  }

  /** No day, month 12: "Dec 2020"; nothing at all: "". */
  lemma FormatDatePartial()
    ensures FormatDate(None, Some("12"), Some("2020")) == "Dec 2020"
    ensures FormatDate(None, Some("Dec"), Some("2020")) == "Dec 2020"
    ensures FormatDate(None, None, None) == ""
  {
    LeadingDigitsOfDigits("12");
    assert DigitsValue("12") == 12;
    assert !IsDigit("Dec"[0]);
  }
}

=== FILE: numbers.dfy ===
/**
 * Decimal digit strings and JavaScript's rendering of integer Numbers as text, as far
 * as index.js relies on them (a `<Day>` through `parseFloat`, a count, a page offset).
 */
module Numbers {
  import opened Wrappers

  predicate IsDigit(c: char) {
    '0' <= c <= '9'
  }

  /** A non-empty string of decimal digits. */
  predicate IsDigits(s: string) {
    s != "" && forall i :: 0 <= i < |s| ==> IsDigit(s[i])
  }

  /** No leading zero, except in "0" itself: how JavaScript prints a whole number. */
  predicate IsCanonical(s: string) {
    IsDigits(s) && (s[0] == '0' ==> s == "0")
  }

  function DigitValue(c: char): (d: nat)
    requires IsDigit(c)
    ensures d < 10
  {
    c as int - '0' as int
  }

  /** The value of a decimal digit string. */
  function DigitsValue(s: string): nat
    requires forall i :: 0 <= i < |s| ==> IsDigit(s[i])
  {
    if s == "" then 0 else 10 * DigitsValue(s[..|s| - 1]) + DigitValue(s[|s| - 1])
  }

  /** The longest prefix of s made of decimal digits. */
  function LeadingDigits(s: string): (r: string)
    ensures r <= s
    ensures forall i :: 0 <= i < |r| ==> IsDigit(r[i])
    ensures |r| < |s| ==> !IsDigit(s[|r|])
  {
    if s != "" && IsDigit(s[0]) then [s[0]] + LeadingDigits(s[1..]) else ""
  }

  /**
   * `parseFloat` on a token that starts with its digits: the value of the leading digit
   * run, and None (JavaScript's NaN) when the token does not start with a digit.
   */
  function ParseLeading(s: string): (r: Option<nat>)
    ensures r.None? <==> s == "" || !IsDigit(s[0])
  {
    var d := LeadingDigits(s);
    if d == "" then None else Some(DigitsValue(d))
  }

  /** A digit string is read in full. */
  lemma LeadingDigitsOfDigits(s: string)
    requires IsDigits(s)
    ensures LeadingDigits(s) == s
    ensures ParseLeading(s) == Some(DigitsValue(s))
  {
  }

  /** The leading digits of a digit string followed by a non-digit are that digit string. */
  lemma {:induction false} LeadingDigitsPrefix(d: string, rest: string)
    requires IsDigits(d) && rest != [] && !IsDigit(rest[0])
    ensures LeadingDigits(d + rest) == d
    decreases |d|
  {
    var s := d + rest;
    if |d| > 1 {
      assert s[1..] == d[1..] + rest;
      LeadingDigitsPrefix(d[1..], rest);
    } else {
      assert s[1..] == rest;
    }
  }

  /** `parseFloat` on a token such as "5th": the value of the digits it starts with. */
  lemma ParseLeadingToken(d: string, rest: string)
    requires IsDigits(d) && (rest == [] || !IsDigit(rest[0]))
    ensures ParseLeading(d + rest) == Some(DigitsValue(d))
  {
    if rest == [] {
      assert d + rest == d;
      LeadingDigitsOfDigits(d);
    } else {
      LeadingDigitsPrefix(d, rest);
    }
  }

  function DigitChar(d: nat): (c: char)
    requires d < 10
    ensures IsDigit(c) && DigitValue(c) == d
  {
    ['0', '1', '2', '3', '4', '5', '6', '7', '8', '9'][d]
  }

  /** `String(n)` for a whole number n (below 10^21, where JavaScript switches to exponent form). */
  function NatToDecimal(n: nat): (r: string)
    ensures IsCanonical(r)
  {
    if n < 10 then [DigitChar(n)] else NatToDecimal(n / 10) + [DigitChar(n % 10)]
  }

  /** `String(n)` for a whole number of either sign. */
  function IntToDecimal(n: int): (r: string)
    ensures n >= 0 ==> IsCanonical(r)
    ensures n < 0 ==> |r| > 1 && r[0] == '-' && IsCanonical(r[1..])
  {
    if n < 0 then "-" + NatToDecimal(-n) else NatToDecimal(n)
  }

  /** Printing then reading back gives the number. */
  lemma {:induction false} DecimalValue(n: nat)
    ensures DigitsValue(NatToDecimal(n)) == n
  {
    var r := NatToDecimal(n);
    if n >= 10 {
      DecimalValue(n / 10);
      assert r[..|r| - 1] == NatToDecimal(n / 10);
    }
  }

  lemma {:induction false} CanonicalPositive(s: string)
    requires IsCanonical(s) && s != "0"
    ensures DigitsValue(s) > 0
    decreases |s|
  {
    if |s| > 1 {
      var t := s[..|s| - 1];
      assert t[0] == s[0];
      CanonicalPositive(t);
    }
  }

  lemma DivMod10(a: nat, d: nat)
    requires d < 10
    ensures (10 * a + d) / 10 == a && (10 * a + d) % 10 == d
  {
  }

  /** Reading then printing a canonical digit string gives the string back. */
  lemma {:induction false} DecimalOfValue(s: string)
    requires IsCanonical(s)
    ensures NatToDecimal(DigitsValue(s)) == s
    decreases |s|
  {
    var n := DigitsValue(s);
    var last := s[|s| - 1];
    DigitCharOfValue(last);
    if |s| > 1 {
      var t := s[..|s| - 1];
      assert t[0] == s[0];
      CanonicalPositive(t);
      DecimalOfValue(t);
      var a := DigitsValue(t);
      assert n == 10 * a + DigitValue(last);
      DivMod10(a, DigitValue(last));
      assert NatToDecimal(n) == NatToDecimal(a) + [DigitChar(DigitValue(last))];
      assert s == t + [last];
    } else {
      assert s[..|s| - 1] == "";
      assert n == DigitValue(last);
      assert s == [last];
    }
  }

  lemma DigitCharOfValue(c: char)
    requires IsDigit(c)
    ensures DigitChar(DigitValue(c)) == c
  {
  }
}

=== FILE: regex.dfy ===
/**
 * The fragment of JavaScript regular expressions that index.js uses: a pattern is a
 * sequence of literal strings and `.` runs (`.*`, `.+`, `.*?`, `.+?`), matched the way
 * the JavaScript engine does it (leftmost start first, then backtracking order: a lazy
 * run tries its shortest length first, a greedy run its longest).
 *
 * MatchAt is the backtracking matcher; Fits is the declarative meaning of a match and
 * TriedFirst the order in which the engine tries candidate matches. MatchAt is proved
 * to return exactly the candidate tried first (MatchAtFirst, TriedFirstAntisymmetric).
 */
module Regex {
  import opened Wrappers

  /** The characters that `.` does not match when the `s` flag is off. */
  predicate IsLineTerminator(c: char) {
    c == '\n' || c == '\r' || c == '\U{2028}' || c == '\U{2029}'
  }

  /** `.` can match every character of s[p..q]. */
  predicate DotsOver(s: string, p: nat, q: nat)
    requires p <= q <= |s|
  {
    forall i :: p <= i < q ==> !IsLineTerminator(s[i])
  }

  datatype Piece =
    | Lit(text: string)           // a literal string
    | Dots(min: nat, lazy: bool)  // `.*` or `.+` (min 0 or 1), lazy when followed by `?`

  type Pattern = seq<Piece>

  /** The longest stretch `.` can match from position p. */
  function Run(s: string, p: nat): (n: nat)
    requires p <= |s|
    ensures p + n <= |s| && DotsOver(s, p, p + n)
    ensures p + n < |s| ==> IsLineTerminator(s[p + n])
    decreases |s| - p
  {
    if p == |s| || IsLineTerminator(s[p]) then 0 else 1 + Run(s, p + 1)
  }

  lemma RunCovers(s: string, p: nat, q: nat)
    requires p <= q <= |s|
    ensures DotsOver(s, p, q) <==> q <= p + Run(s, p)
  {
  }

  /** One piece matches exactly s[p..q]. */
  predicate PieceFits(s: string, piece: Piece, p: nat, q: nat) {
    p <= q <= |s| &&
    match piece
    case Lit(w) => q == p + |w| && s[p..q] == w
    case Dots(min, _) => p + min <= q && DotsOver(s, p, q)
  }

  /**
   * The pattern matches s from p when piece i ends at ends[i]: this is what a match
   * is, independently of how the engine finds it.
   */
  predicate Fits(s: string, pat: Pattern, p: nat, ends: seq<nat>)
    decreases pat
  {
    |ends| == |pat| &&
    (pat == [] || (PieceFits(s, pat[0], p, ends[0]) && Fits(s, pat[1..], ends[0], ends[1..])))
  }

  /**
   * e1 is tried no later than e2 by the backtracking engine: at the first piece where
   * they differ, a lazy run tries the shorter length first and a greedy run the longer.
   */
  predicate TriedFirst(pat: Pattern, e1: seq<nat>, e2: seq<nat>)
    requires |e1| == |pat| && |e2| == |pat|
    decreases pat
  {
    pat == [] ||
    if e1[0] == e2[0] then TriedFirst(pat[1..], e1[1..], e2[1..])
    else pat[0].Dots? && (if pat[0].lazy then e1[0] < e2[0] else e1[0] > e2[0])
  }

  /** The backtracking matcher anchored at p: the piece ends of the first match, if any. */
  function MatchAt(s: string, pat: Pattern, p: nat): (r: Option<seq<nat>>)
    requires p <= |s|
    ensures r.Some? ==> Fits(s, pat, p, r.value)
    decreases |pat|, 1, 0
  {
    if pat == [] then Some([])
    else match pat[0]
      case Lit(w) =>
        if p + |w| <= |s| && s[p..p + |w|] == w then
          match MatchAt(s, pat[1..], p + |w|)
          case Some(e) => Some([p + |w|] + e)
          case None => None
        else None
      case Dots(min, lazy) =>
        if lazy then TryShortest(s, pat, p, p + min) else TryLongest(s, pat, p, p + Run(s, p))
  }

  /** A lazy run at p: try the end positions q, q + 1, ..., p + Run(s, p) in turn. */
  function TryShortest(s: string, pat: Pattern, p: nat, q: nat): (r: Option<seq<nat>>)
    requires p <= |s| && pat != [] && pat[0].Dots? && p + pat[0].min <= q
    ensures r.Some? ==> Fits(s, pat, p, r.value) && q <= r.value[0]
    decreases |pat|, 0, p + Run(s, p) + 1 - q
  {
    if q > p + Run(s, p) then None
    else match MatchAt(s, pat[1..], q)
      case Some(e) => RunCovers(s, p, q); Some([q] + e)
      case None => TryShortest(s, pat, p, q + 1)
  }

  /** A greedy run at p: try the end positions q, q - 1, ..., p + min in turn. */
  function TryLongest(s: string, pat: Pattern, p: nat, q: int): (r: Option<seq<nat>>)
    requires p <= |s| && pat != [] && pat[0].Dots? && q <= p + Run(s, p)
    ensures r.Some? ==> Fits(s, pat, p, r.value) && r.value[0] <= q
    decreases |pat|, 0, q + 1 - (p + pat[0].min)
  {
    if q < p + pat[0].min then None
    else match MatchAt(s, pat[1..], q)
      case Some(e) => RunCovers(s, p, q); Some([q] + e)
      case None => TryLongest(s, pat, p, q - 1)
  }

  /** Completeness and priority: whenever some match exists at p, MatchAt finds one, and the one it finds is tried first. */
  lemma {:induction false} MatchAtFirst(s: string, pat: Pattern, p: nat, other: seq<nat>)
    requires p <= |s| && Fits(s, pat, p, other)
    ensures MatchAt(s, pat, p).Some? && TriedFirst(pat, MatchAt(s, pat, p).value, other)
    decreases |pat|, 1, 0
  {
    if pat != [] {
      if pat[0].Lit? {
        LitFirst(s, pat, p, other);
      } else {
        RunCovers(s, p, other[0]);
        if pat[0].lazy {
          TryShortestFirst(s, pat, p, p + pat[0].min, other);
        } else {
          TryLongestFirst(s, pat, p, p + Run(s, p), other);
        }
      }
    }
  }

  lemma {:induction false} LitFirst(s: string, pat: Pattern, p: nat, other: seq<nat>)
    requires p <= |s| && pat != [] && pat[0].Lit? && Fits(s, pat, p, other)
    ensures MatchAt(s, pat, p).Some? && TriedFirst(pat, MatchAt(s, pat, p).value, other)
    decreases |pat|, 0, 0
  {
    var w := pat[0].text;
    assert other[0] == p + |w| && s[p..p + |w|] == w;
    MatchAtFirst(s, pat[1..], p + |w|, other[1..]);
    var e := MatchAt(s, pat[1..], p + |w|).value;
    assert MatchAt(s, pat, p) == Some([p + |w|] + e);
    assert ([p + |w|] + e)[1..] == e;
  }

  lemma {:induction false} TryShortestFirst(s: string, pat: Pattern, p: nat, q: nat, other: seq<nat>)
    requires p <= |s| && pat != [] && pat[0].Dots? && pat[0].lazy && p + pat[0].min <= q
    requires Fits(s, pat, p, other) && q <= other[0]
    ensures TryShortest(s, pat, p, q).Some?
    ensures TriedFirst(pat, TryShortest(s, pat, p, q).value, other)
    decreases |pat|, 0, p + Run(s, p) + 1 - q
  {
    RunCovers(s, p, other[0]);
    if q == other[0] {
      MatchAtFirst(s, pat[1..], q, other[1..]);
    } else if MatchAt(s, pat[1..], q).None? {
      TryShortestFirst(s, pat, p, q + 1, other);
    }
  }

  lemma {:induction false} TryLongestFirst(s: string, pat: Pattern, p: nat, q: int, other: seq<nat>)
    requires p <= |s| && pat != [] && pat[0].Dots? && !pat[0].lazy && q <= p + Run(s, p)
    requires Fits(s, pat, p, other) && other[0] <= q
    ensures TryLongest(s, pat, p, q).Some?
    ensures TriedFirst(pat, TryLongest(s, pat, p, q).value, other)
    decreases |pat|, 0, q + 1 - (p + pat[0].min)
  {
    if q == other[0] {
      MatchAtFirst(s, pat[1..], q, other[1..]);
    } else if MatchAt(s, pat[1..], q).None? {
      TryLongestFirst(s, pat, p, q - 1, other);
    }
  }

  /** Two matches at the same place that are each tried no later than the other are the same match. */
  lemma {:induction false} TriedFirstAntisymmetric(s: string, pat: Pattern, p: nat, e1: seq<nat>, e2: seq<nat>)
    requires Fits(s, pat, p, e1) && Fits(s, pat, p, e2)
    requires TriedFirst(pat, e1, e2) && TriedFirst(pat, e2, e1)
    ensures e1 == e2
    decreases pat
  {
    if pat != [] {
      assert e1[0] == e2[0];
      TriedFirstAntisymmetric(s, pat[1..], e1[0], e1[1..], e2[1..]);
      assert e1 == [e1[0]] + e1[1..];
      assert e2 == [e2[0]] + e2[1..];
    }
  }

  /** The engine's match at p is tried no later than any other match at p. */
  lemma MatchAtTriedFirst(s: string, pat: Pattern, p: nat)
    requires p <= |s| && MatchAt(s, pat, p).Some?
    ensures forall o :: Fits(s, pat, p, o) ==> TriedFirst(pat, MatchAt(s, pat, p).value, o)
  {
    forall o | Fits(s, pat, p, o) ensures TriedFirst(pat, MatchAt(s, pat, p).value, o) {
      MatchAtFirst(s, pat, p, o);
    }
  }

  /** Conversely, a match tried no later than every other match at p is the one MatchAt returns. */
  lemma FirstIsMatchAt(s: string, pat: Pattern, p: nat, e: seq<nat>)
    requires p <= |s| && Fits(s, pat, p, e)
    requires forall o :: Fits(s, pat, p, o) ==> TriedFirst(pat, e, o)
    ensures MatchAt(s, pat, p) == Some(e)
  {
    MatchAtFirst(s, pat, p, e);
    var m := MatchAt(s, pat, p).value;
    assert Fits(s, pat, p, m);
    TriedFirstAntisymmetric(s, pat, p, m, e);
  }

  /** A match found by a search: where it starts and where each piece ends. */
  datatype Match = Match(start: nat, ends: seq<nat>)

  /** Where a match ends: the `lastIndex` a global search continues from. */
  function End(m: Match): nat {
    if |m.ends| == 0 then m.start else m.ends[|m.ends| - 1]
  }

  /** Where piece i of a match starts. */
  function PieceStart(m: Match, i: nat): nat
    requires i < |m.ends|
  {
    if i == 0 then m.start else m.ends[i - 1]
  }

  /** The pieces of a match follow each other inside s. */
  lemma {:induction false} FitsOrdered(s: string, pat: Pattern, p: nat, e: seq<nat>)
    requires Fits(s, pat, p, e)
    ensures forall i :: 0 <= i < |e| ==> p <= e[i] <= |s|
    ensures forall i, j :: 0 <= i <= j < |e| ==> e[i] <= e[j]
    ensures p <= End(Match(p, e))
    decreases pat
  {
    if pat != [] {
      FitsOrdered(s, pat[1..], e[0], e[1..]);
      assert forall i :: 0 < i < |e| ==> e[i] == e[1..][i - 1];
    }
  }

  /** Piece i of a match covers the text from where piece i - 1 ended to e[i]. */
  lemma {:induction false} FitsPiece(s: string, pat: Pattern, p: nat, e: seq<nat>, i: nat)
    requires Fits(s, pat, p, e) && i < |pat|
    ensures PieceFits(s, pat[i], PieceStart(Match(p, e), i), e[i])
    decreases i
  {
    if i > 0 {
      FitsPiece(s, pat[1..], e[0], e[1..], i - 1);
      assert pat[1..][i - 1] == pat[i] && e[1..][i - 1] == e[i];
      assert PieceStart(Match(e[0], e[1..]), i - 1) == PieceStart(Match(p, e), i);
    }
  }

  /** What a capture around piece i holds: the literal itself, or a run `.` matches. */
  lemma CaptureFits(s: string, pat: Pattern, p: nat, e: seq<nat>, i: nat)
    requires Fits(s, pat, p, e) && i < |pat|
    ensures var c := Capture(s, Match(p, e), i);
      && (pat[i].Lit? ==> c == pat[i].text)
      && (pat[i].Dots? ==> |c| >= pat[i].min && forall k :: 0 <= k < |c| ==> !IsLineTerminator(c[k]))
  {
    FitsPiece(s, pat, p, e, i);
    var a := PieceStart(Match(p, e), i);
    var c := Capture(s, Match(p, e), i);
    assert c == s[a..e[i]];
    if pat[i].Dots? {
      forall k | 0 <= k < |c| ensures !IsLineTerminator(c[k]) {
        assert c[k] == s[a + k];
      }
    }
  }

  /**
   * A literal, a non-empty run and a literal in a row: the text between the two literals
   * is captured, and the three stand together in s from where the first one starts to
   * where the second one ends.
   */
  lemma ElementFits(s: string, pat: Pattern, p: nat, e: seq<nat>, i: nat)
    requires Fits(s, pat, p, e) && i + 2 < |pat|
    requires pat[i].Lit? && pat[i + 1].Dots? && pat[i + 1].min == 1 && pat[i + 2].Lit?
    ensures var c := Capture(s, Match(p, e), i + 1);
            var whole := pat[i].text + c + pat[i + 2].text;
      && c != ""
      && OccursAt(s, PieceStart(Match(p, e), i), whole)
      && PieceStart(Match(p, e), i) + |whole| == e[i + 2]
  {
    FitsOrdered(s, pat, p, e);
    CaptureFits(s, pat, p, e, i);
    CaptureFits(s, pat, p, e, i + 1);
    CaptureFits(s, pat, p, e, i + 2);
    var a := PieceStart(Match(p, e), i);
    assert PieceStart(Match(p, e), i + 1) == e[i] && PieceStart(Match(p, e), i + 2) == e[i + 1];
    assert s[a..e[i + 2]] == s[a..e[i]] + s[e[i]..e[i + 1]] + s[e[i + 1]..e[i + 2]];
  }

  /** A pattern that starts with a non-empty literal: every match of it is non-empty. */
  predicate Anchored(pat: Pattern) {
    |pat| > 0 && pat[0].Lit? && pat[0].text != ""
  }

  lemma AnchoredAdvances(s: string, pat: Pattern, m: Match)
    requires Anchored(pat) && Fits(s, pat, m.start, m.ends)
    ensures m.start < End(m) <= |s|
  {
    FitsOrdered(s, pat, m.start, m.ends);
  }

  /** The text matched by piece i: a capture group around that piece (`m[k]`). */
  function Capture(s: string, m: Match, i: nat): string {
    if i < |m.ends| && PieceStart(m, i) <= m.ends[i] <= |s| then s[PieceStart(m, i)..m.ends[i]] else ""
  }

  /** The whole text of a match (`m[0]`). */
  function Matched(s: string, m: Match): string {
    if m.start <= End(m) <= |s| then s[m.start..End(m)] else ""
  }

  /** `exec` with `lastIndex` p: try MatchAt at p, p + 1, ..., |s|. */
  function SearchFrom(s: string, pat: Pattern, p: nat): (r: Option<Match>)
    requires p <= |s|
    ensures r.Some? ==> p <= r.value.start <= |s| && Fits(s, pat, r.value.start, r.value.ends)
    decreases |s| - p
  {
    match MatchAt(s, pat, p)
    case Some(e) => Some(Match(p, e))
    case None => if p == |s| then None else SearchFrom(s, pat, p + 1)
  }

  /**
   * Leftmost first: whatever match exists from p on, the search finds one that starts
   * earlier, or starts at the same place and is tried no later.
   */
  lemma {:induction false} SearchFromFirst(s: string, pat: Pattern, p: nat, q: nat, other: seq<nat>)
    requires p <= q <= |s| && Fits(s, pat, q, other)
    ensures SearchFrom(s, pat, p).Some?
    ensures SearchFrom(s, pat, p).value.start < q ||
            (SearchFrom(s, pat, p).value.start == q && TriedFirst(pat, SearchFrom(s, pat, p).value.ends, other))
    decreases q - p
  {
    if p == q {
      MatchAtFirst(s, pat, p, other);
    } else if MatchAt(s, pat, p).None? {
      SearchFromFirst(s, pat, p + 1, q, other);
    }
  }

  /** A search fails exactly when the pattern fits nowhere from p on. */
  lemma SearchFromNone(s: string, pat: Pattern, p: nat)
    requires p <= |s|
    ensures SearchFrom(s, pat, p).None? ==> forall q: nat, e: seq<nat> :: p <= q <= |s| ==> !Fits(s, pat, q, e)
    ensures SearchFrom(s, pat, p).Some? ==> exists q: nat, e: seq<nat> :: p <= q <= |s| && Fits(s, pat, q, e)
  {
    if SearchFrom(s, pat, p).None? {
      forall q: nat, e: seq<nat> | p <= q <= |s| ensures !Fits(s, pat, q, e) {
        if Fits(s, pat, q, e) {
          SearchFromFirst(s, pat, p, q, e);
        }
      }
    } else {
      var m := SearchFrom(s, pat, p).value;
      assert p <= m.start <= |s| && Fits(s, pat, m.start, m.ends);
    }
  }

  /** The global-flag iteration of `matchAll` from lastIndex p: every match, left to right. */
  function MatchAll(s: string, pat: Pattern, p: nat): seq<Match>
    requires p <= |s| && Anchored(pat)
    decreases |s| - p
  {
    match SearchFrom(s, pat, p)
    case None => []
    case Some(m) =>
      AnchoredAdvances(s, pat, m);
      [m] + MatchAll(s, pat, End(m))
  }

  /** Each match found fits, none is empty, and they come left to right without overlapping. */
  lemma {:induction false} MatchAllMatches(s: string, pat: Pattern, p: nat)
    requires p <= |s| && Anchored(pat)
    ensures forall i :: 0 <= i < |MatchAll(s, pat, p)| ==>
              Fits(s, pat, MatchAll(s, pat, p)[i].start, MatchAll(s, pat, p)[i].ends)
    ensures forall i :: 0 <= i < |MatchAll(s, pat, p)| ==>
              p <= MatchAll(s, pat, p)[i].start < End(MatchAll(s, pat, p)[i]) <= |s|
    ensures forall i :: 0 < i < |MatchAll(s, pat, p)| ==>
              End(MatchAll(s, pat, p)[i - 1]) <= MatchAll(s, pat, p)[i].start
    decreases |s| - p
  {
    var ms := MatchAll(s, pat, p);
    if SearchFrom(s, pat, p).Some? {
      var m := SearchFrom(s, pat, p).value;
      AnchoredAdvances(s, pat, m);
      var rest := MatchAll(s, pat, End(m));
      MatchAllMatches(s, pat, End(m));
      assert ms == [m] + rest;
      forall i | 0 <= i < |ms|
        ensures Fits(s, pat, ms[i].start, ms[i].ends) && p <= ms[i].start < End(ms[i]) <= |s|
      {
        if i > 0 {
          assert ms[i] == rest[i - 1];
        }
      }
      forall i | 0 < i < |ms| ensures End(ms[i - 1]) <= ms[i].start {
        assert ms[i] == rest[i - 1];
        if i > 1 {
          assert ms[i - 1] == rest[i - 2];
        }
      }
    }
  }

  /** When the search from p finds m, m heads the matches from p and the rest start at its end. */
  lemma MatchAllHead(s: string, pat: Pattern, p: nat, m: Match)
    requires p <= |s| && Anchored(pat) && SearchFrom(s, pat, p) == Some(m) && End(m) <= |s|
    ensures var ms := MatchAll(s, pat, p);
      ms != [] && ms[0] == m && ms[1..] == MatchAll(s, pat, End(m))
  {
    MatchAllStep(s, pat, p);
    var rest := MatchAll(s, pat, End(m));
    assert ([m] + rest)[1..] == rest;
  }

  /** One step of the global iteration: the next match, then the matches after it. */
  lemma MatchAllStep(s: string, pat: Pattern, p: nat)
    requires p <= |s| && Anchored(pat)
    ensures SearchFrom(s, pat, p).None? ==> MatchAll(s, pat, p) == []
    ensures SearchFrom(s, pat, p).Some? ==>
              var m := SearchFrom(s, pat, p).value;
              p <= m.start < End(m) <= |s| && MatchAll(s, pat, p) == [m] + MatchAll(s, pat, End(m))
  {
    if SearchFrom(s, pat, p).Some? {
      AnchoredAdvances(s, pat, SearchFrom(s, pat, p).value);
    }
  }

  /** The pattern fits at no position of s. */
  ghost predicate Nowhere(s: string, pat: Pattern) {
    forall q: nat, e: seq<nat> :: q <= |s| ==> !Fits(s, pat, q, e)
  }

  /** A global match list is empty exactly when the pattern fits nowhere. */
  lemma MatchAllNone(s: string, pat: Pattern)
    requires Anchored(pat)
    ensures MatchAll(s, pat, 0) == [] <==> Nowhere(s, pat)
  {
    MatchAllStep(s, pat, 0);
    SearchFromNone(s, pat, 0);
  }

  /** The iterator `matchAll` returns, run to the end: each step searches from the last match's end. */
  method MatchAllIter(s: string, pat: Pattern) returns (ms: seq<Match>)
    requires Anchored(pat)
    ensures ms == MatchAll(s, pat, 0)
  {
    ms := [];
    var pos := 0;
    while true
      invariant pos <= |s|
      invariant ms + MatchAll(s, pat, pos) == MatchAll(s, pat, 0)
      decreases |s| - pos
    {
      var found := SearchFrom(s, pat, pos);
      MatchAllStep(s, pat, pos);
      if found.None? {
        break;
      }
      var m := found.value;
      ms := ms + [m];
      pos := End(m);
    }
  }

  /** Nothing is skipped: every place where the pattern matches lies inside one of the matches found. */
  lemma {:induction false} MatchAllCovers(s: string, pat: Pattern, p: nat, q: nat, other: seq<nat>)
    requires p <= q <= |s| && Anchored(pat) && Fits(s, pat, q, other)
    ensures exists i :: 0 <= i < |MatchAll(s, pat, p)| &&
              MatchAll(s, pat, p)[i].start <= q < End(MatchAll(s, pat, p)[i])
    decreases |s| - p
  {
    SearchFromFirst(s, pat, p, q, other);
    var m := SearchFrom(s, pat, p).value;
    var ms := MatchAll(s, pat, p);
    AnchoredAdvances(s, pat, m);
    assert ms == [m] + MatchAll(s, pat, End(m));
    if q < End(m) {
      assert ms[0].start <= q < End(ms[0]);
    } else {
      MatchAllCovers(s, pat, End(m), q, other);
      var rest := MatchAll(s, pat, End(m));
      var i :| 0 <= i < |rest| && rest[i].start <= q < End(rest[i]);
      assert ms[i + 1] == rest[i];
    }
  }

  /** `replace` with a global regex: every match of MatchAll is replaced by rep. */
  function ReplaceAll(s: string, pat: Pattern, rep: string, p: nat): string
    requires p <= |s| && Anchored(pat)
    decreases |s| - p
  {
    match SearchFrom(s, pat, p)
    case None => s[p..]
    case Some(m) =>
      AnchoredAdvances(s, pat, m);
      s[p..m.start] + rep + ReplaceAll(s, pat, rep, End(m))
  }

  /** w occurs in t at position k. */
  predicate OccursAt(t: string, k: nat, w: string) {
    k + |w| <= |t| && t[k..k + |w|] == w
  }

  /** w occurs nowhere in t. */
  predicate Absent(t: string, w: string) {
    forall k: nat :: k <= |t| ==> !OccursAt(t, k, w)
  }

  /** An occurrence of a literal is found by a search started at or before it. */
  lemma LiteralFound(s: string, w: string, p: nat, q: nat)
    requires p <= q && OccursAt(s, q, w)
    ensures SearchFrom(s, [Lit(w)], p).Some? && SearchFrom(s, [Lit(w)], p).value.start <= q
  {
    assert Fits(s, [Lit(w)], q, [q + |w|]);
    SearchFromFirst(s, [Lit(w)], p, q, [q + |w|]);
  }

  lemma Disjoint(rep: string, w: string, a: nat, b: nat)
    requires a < |rep| && b < |w|
    requires forall c :: c in rep ==> c !in w
    ensures rep[a] != w[b]
  {
    assert rep[a] in rep && w[b] in w;
  }

  /** An occurrence of w in g + rep + t lies inside g or inside t when rep shares no character with w. */
  lemma OccursAcross(g: string, rep: string, t: string, w: string, k: nat)
    requires OccursAt(g + rep + t, k, w) && w != "" && rep != []
    requires forall c :: c in rep ==> c !in w
    ensures OccursAt(g, k, w) || (k >= |g| + |rep| && OccursAt(t, k - |g| - |rep|, w))
  {
    var r := g + rep + t;
    if k + |w| <= |g| {
      assert r[k..k + |w|] == g[k..k + |w|];
    } else if k < |g| + |rep| {
      var j := if k < |g| then |g| else k;
      Disjoint(rep, w, j - |g|, j - k);
      assert false;
    } else {
      var k' := k - |g| - |rep|;
      assert t[k'..k' + |w|] == r[k..k + |w|];
    }
  }

  /**
   * Replacing every occurrence of a literal w by a non-empty rep that shares no
   * character with w leaves no occurrence of w behind.
   */
  lemma {:induction false} ReplaceLiteralRemovesAll(s: string, w: string, rep: string, p: nat)
    requires w != "" && p <= |s| && rep != []
    requires forall c :: c in rep ==> c !in w
    ensures Absent(ReplaceAll(s, [Lit(w)], rep, p), w)
    decreases |s| - p
  {
    var pat := [Lit(w)];
    var r := ReplaceAll(s, pat, rep, p);
    match SearchFrom(s, pat, p)
    case None =>
      forall k: nat | k <= |r| ensures !OccursAt(r, k, w) {
        if OccursAt(r, k, w) {
          assert s[p + k..p + k + |w|] == r[k..k + |w|];
          LiteralFound(s, w, p, p + k);
        }
      }
    case Some(m) =>
      AnchoredAdvances(s, pat, m);
      var g := s[p..m.start];
      var t := ReplaceAll(s, pat, rep, End(m));
      ReplaceLiteralRemovesAll(s, w, rep, End(m));
      assert r == g + rep + t;
      forall k: nat | k <= |r| ensures !OccursAt(r, k, w) {
        if OccursAt(r, k, w) {
          OccursAcross(g, rep, t, w, k);
          if OccursAt(g, k, w) {
            assert s[p + k..p + k + |w|] == g[k..k + |w|];
            LiteralFound(s, w, p, p + k);
          }
        }
      }
  }

  /* ---------------------------------------------------------------------------------- */
  /* Finding a given match                                                               */
  /* ---------------------------------------------------------------------------------- */

  /** The pieces of a fit of a seven-piece pattern, each from the previous end to its own. */
  lemma SevenPieces(s: string, pat: Pattern, p: nat, e: seq<nat>)
    requires |pat| == 7 && Fits(s, pat, p, e)
    ensures |e| == 7
    ensures && PieceFits(s, pat[0], p, e[0]) && PieceFits(s, pat[1], e[0], e[1])
            && PieceFits(s, pat[2], e[1], e[2]) && PieceFits(s, pat[3], e[2], e[3])
            && PieceFits(s, pat[4], e[3], e[4]) && PieceFits(s, pat[5], e[4], e[5])
            && PieceFits(s, pat[6], e[5], e[6])
  {
    FitsPiece(s, pat, p, e, 0);
    FitsPiece(s, pat, p, e, 1);
    FitsPiece(s, pat, p, e, 2);
    FitsPiece(s, pat, p, e, 3);
    FitsPiece(s, pat, p, e, 4);
    FitsPiece(s, pat, p, e, 5);
    FitsPiece(s, pat, p, e, 6);
  }

  /** Seven pieces that fit one after another make a fit of a seven-piece pattern. */
  lemma FitsSeven(s: string, pat: Pattern, p: nat, e: seq<nat>)
    requires |pat| == 7 && |e| == 7
    requires && PieceFits(s, pat[0], p, e[0]) && PieceFits(s, pat[1], e[0], e[1])
             && PieceFits(s, pat[2], e[1], e[2]) && PieceFits(s, pat[3], e[2], e[3])
             && PieceFits(s, pat[4], e[3], e[4]) && PieceFits(s, pat[5], e[4], e[5])
             && PieceFits(s, pat[6], e[5], e[6])
    ensures Fits(s, pat, p, e)
  {
    var m := Match(p, e);
    assert PieceFits(s, pat[0], PieceStart(m, 0), e[0]);
    assert PieceFits(s, pat[1], PieceStart(m, 1), e[1]);
    assert PieceFits(s, pat[2], PieceStart(m, 2), e[2]);
    assert PieceFits(s, pat[3], PieceStart(m, 3), e[3]);
    assert PieceFits(s, pat[4], PieceStart(m, 4), e[4]);
    assert PieceFits(s, pat[5], PieceStart(m, 5), e[5]);
    assert PieceFits(s, pat[6], PieceStart(m, 6), e[6]);
    FitsFromPieces(s, pat, p, e);
  }

  /** A match is assembled piece by piece: each piece fits where the previous one ended. */
  lemma {:induction false} FitsFromPieces(s: string, pat: Pattern, p: nat, e: seq<nat>)
    requires |e| == |pat|
    requires forall i :: 0 <= i < |pat| ==> PieceFits(s, pat[i], PieceStart(Match(p, e), i), e[i])
    ensures Fits(s, pat, p, e)
    decreases pat
  {
    if pat != [] {
      assert PieceFits(s, pat[0], PieceStart(Match(p, e), 0), e[0]);
      forall i | 0 <= i < |pat[1..]|
        ensures PieceFits(s, pat[1..][i], PieceStart(Match(e[0], e[1..]), i), e[1..][i])
      {
        assert PieceStart(Match(e[0], e[1..]), i) == PieceStart(Match(p, e), i + 1);
        assert PieceFits(s, pat[i + 1], PieceStart(Match(p, e), i + 1), e[i + 1]);
      }
      FitsFromPieces(s, pat[1..], e[0], e[1..]);
    }
  }

  /**
   * e ends every lazy run no later, and every greedy run no earlier, than o does: the
   * engine then tries e first.
   */
  predicate Dominates(pat: Pattern, e: seq<nat>, o: seq<nat>)
    requires |e| == |pat| && |o| == |pat|
  {
    forall i :: 0 <= i < |pat| && pat[i].Dots? ==> if pat[i].lazy then e[i] <= o[i] else o[i] <= e[i]
  }

  lemma {:induction false} DominatesTriedFirst(s: string, pat: Pattern, p: nat, e: seq<nat>, o: seq<nat>)
    requires Fits(s, pat, p, e) && Fits(s, pat, p, o) && Dominates(pat, e, o)
    ensures TriedFirst(pat, e, o)
    decreases pat
  {
    if pat != [] && e[0] == o[0] {
      forall i | 0 <= i < |pat[1..]| && pat[1..][i].Dots?
        ensures if pat[1..][i].lazy then e[1..][i] <= o[1..][i] else o[1..][i] <= e[1..][i]
      {
        assert pat[1..][i] == pat[i + 1] && e[1..][i] == e[i + 1] && o[1..][i] == o[i + 1];
      }
      DominatesTriedFirst(s, pat[1..], e[0], e[1..], o[1..]);
    }
  }

  /** A match at p that dominates every other match at p is the one the engine returns. */
  lemma DominantIsMatchAt(s: string, pat: Pattern, p: nat, e: seq<nat>)
    requires p <= |s| && Fits(s, pat, p, e)
    requires forall o :: Fits(s, pat, p, o) ==> Dominates(pat, e, o)
    ensures MatchAt(s, pat, p) == Some(e)
    ensures SearchFrom(s, pat, p) == Some(Match(p, e))
  {
    forall o | Fits(s, pat, p, o) ensures TriedFirst(pat, e, o) {
      DominatesTriedFirst(s, pat, p, e, o);
    }
    FirstIsMatchAt(s, pat, p, e);
  }

  /** A search for a pattern that starts with a literal passes over places where the literal does not occur. */
  lemma {:induction false} SearchFromSkips(s: string, pat: Pattern, p: nat, q: nat)
    requires p <= q <= |s| && pat != [] && pat[0].Lit?
    requires forall k :: p <= k < q ==> !OccursAt(s, k, pat[0].text)
    ensures SearchFrom(s, pat, p) == SearchFrom(s, pat, q)
    decreases q - p
  {
    if p < q {
      var w := pat[0].text;
      assert !OccursAt(s, p, w);
      assert pat[0] == Lit(w);
      assert MatchAt(s, pat, p).None?;
      SearchFromSkips(s, pat, p + 1, q);
    }
  }

  /** A search fails when the leading literal of the pattern occurs nowhere from p on. */
  lemma SearchFromAbsent(s: string, pat: Pattern, p: nat)
    requires p <= |s| && Anchored(pat)
    requires forall k :: p <= k <= |s| ==> !OccursAt(s, k, pat[0].text)
    ensures SearchFrom(s, pat, p).None?
    ensures MatchAll(s, pat, p) == []
  {
    SearchFromSkips(s, pat, p, |s|);
    assert MatchAt(s, pat, |s|).None?;
    MatchAllStep(s, pat, p);
  }

  /** A global iteration with the same next match from p and from q goes on identically. */
  lemma MatchAllSkips(s: string, pat: Pattern, p: nat, q: nat)
    requires p <= q <= |s| && Anchored(pat)
    requires SearchFrom(s, pat, p) == SearchFrom(s, pat, q)
    ensures MatchAll(s, pat, p) == MatchAll(s, pat, q)
  {
    MatchAllStep(s, pat, p);
    MatchAllStep(s, pat, q);
  }

  /** An occurrence of u + v is an occurrence of u followed by one of v. */
  lemma OccursSplit(s: string, k: nat, u: string, v: string)
    requires OccursAt(s, k, u + v)
    ensures OccursAt(s, k, u) && OccursAt(s, k + |u|, v)
  {
    assert s[k..k + |u|] == (u + v)[..|u|];
    assert s[k + |u|..k + |u| + |v|] == (u + v)[|u|..];
  }

  /** `.` matches all of an occurrence of a text without line terminators. */
  lemma OccursDots(s: string, k: nat, u: string)
    requires OccursAt(s, k, u) && forall j :: 0 <= j < |u| ==> !IsLineTerminator(u[j])
    ensures DotsOver(s, k, k + |u|)
  {
    forall i | k <= i < k + |u| ensures !IsLineTerminator(s[i]) {
      assert s[i] == u[i - k];
    }
  }

  /** A match that ends a lazy run later than o, where they agree before, is not tried first. */
  lemma {:induction false} LaterNotTriedFirst(pat: Pattern, e: seq<nat>, o: seq<nat>, i: nat)
    requires |e| == |pat| && |o| == |pat| && i < |pat| && e[..i] == o[..i]
    requires pat[i].Dots? && pat[i].lazy && o[i] < e[i]
    ensures !TriedFirst(pat, e, o)
    decreases i
  {
    if i > 0 {
      assert e[0] == e[..i][0] == o[..i][0] == o[0];
      assert e[1..][..i - 1] == e[1..i] == o[1..i] == o[1..][..i - 1];
      LaterNotTriedFirst(pat[1..], e[1..], o[1..], i - 1);
    }
  }

  /** The match a search returns is the one the engine returns at its start. */
  lemma {:induction false} SearchFromMatchAt(s: string, pat: Pattern, p: nat)
    requires p <= |s| && SearchFrom(s, pat, p).Some?
    ensures MatchAt(s, pat, SearchFrom(s, pat, p).value.start) == Some(SearchFrom(s, pat, p).value.ends)
    decreases |s| - p
  {
    if MatchAt(s, pat, p).None? {
      SearchFromMatchAt(s, pat, p + 1);
    }
  }

  /** Each match of a global iteration is the one the engine returns at its start. */
  lemma {:induction false} MatchAllMatchAt(s: string, pat: Pattern, p: nat, i: nat)
    requires p <= |s| && Anchored(pat) && i < |MatchAll(s, pat, p)|
    ensures MatchAll(s, pat, p)[i].start <= |s|
    ensures MatchAt(s, pat, MatchAll(s, pat, p)[i].start) == Some(MatchAll(s, pat, p)[i].ends)
    decreases i
  {
    MatchAllStep(s, pat, p);
    var m := SearchFrom(s, pat, p).value;
    SearchFromMatchAt(s, pat, p);
    if i > 0 {
      MatchAllMatchAt(s, pat, End(m), i - 1);
    }
  }
}

=== FILE: scrape.dfy ===
/**
 * The text-scraping helpers of index.js built on the regex model: newline stripping,
 * the `<T>(.+?)</T>` extraction used for most fields, and `Array.join`.
 */
module Scrape {
  import opened Wrappers
  import opened Regex

  /** `data.split("\n").join("")`: every newline removed, everything else kept in order. */
  function StripNewlines(s: string): (r: string)
    ensures forall c :: c in r <==> c in s && c != '\n'
    ensures multiset(r) == multiset(s)['\n' := 0]
  {
    if s == [] then []
    else
      assert s == [s[0]] + s[1..];
      (if s[0] == '\n' then [] else [s[0]]) + StripNewlines(s[1..])
  }

  /** Text without newlines is left as it is. */
  lemma {:induction false} StripNewlinesKeeps(s: string)
    requires '\n' !in s
    ensures StripNewlines(s) == s
  {
    if s != [] {
      assert s[1..] == s[1..] && '\n' !in s[1..] by {
        forall c | c in s[1..] ensures c in s { }
      }
      StripNewlinesKeeps(s[1..]);
      assert s == [s[0]] + s[1..];
    }
  }

  /** Stripping works piece by piece, so it can be applied to a reply in any split. */
  lemma {:induction false} StripNewlinesAppend(a: string, b: string)
    ensures StripNewlines(a + b) == StripNewlines(a) + StripNewlines(b)
  {
    if a != [] {
      var c, t := a[0], a[1..];
      var head := if c == '\n' then [] else [c];
      assert a == [c] + t;
      assert a + b == [c] + (t + b);
      calc {
        StripNewlines(a + b);
        { StripNewlinesCons(c, t + b); }
        head + StripNewlines(t + b);
        { StripNewlinesAppend(t, b); }
        head + (StripNewlines(t) + StripNewlines(b));
        { Associative(head, StripNewlines(t), StripNewlines(b)); }
        (head + StripNewlines(t)) + StripNewlines(b);
        { StripNewlinesCons(c, t); }
        StripNewlines(a) + StripNewlines(b);
      }
    } else {
      assert a + b == b;
    }
  }

  /** Concatenation can be regrouped. */
  lemma Associative(x: string, y: string, z: string)
    ensures x + (y + z) == (x + y) + z
  {
  }

  /** Stripping a text that starts with c keeps c unless it is a newline. */
  lemma StripNewlinesCons(c: char, t: string)
    ensures StripNewlines([c] + t) == (if c == '\n' then [] else [c]) + StripNewlines(t)
  {
    assert ([c] + t)[0] == c && ([c] + t)[1..] == t;
  }

  /** The regex `open(.+?)close`. */
  function Between(open: string, close: string): Pattern {
    [Lit(open), Dots(1, true), Lit(close)]
  }

  /** open + v + close stands at position i of s, with v a non-empty text `.` can match. */
  predicate Encloses(s: string, i: nat, open: string, v: string, close: string) {
    OccursAt(s, i, open + v + close) && v != "" &&
    forall k :: 0 <= k < |v| ==> !IsLineTerminator(v[k])
  }

  /** v at i is the leftmost enclosure, and the shortest one at that position. */
  ghost predicate IsFirstEnclosure(s: string, open: string, close: string, i: nat, v: string) {
    Encloses(s, i, open, v, close) &&
    forall i': nat, v' :: Encloses(s, i', open, v', close) ==> i < i' || (i == i' && |v| <= |v'|)
  }

  /** `(m = s.match(/open(.+?)close/)) ? m[1] : none`: the first capture of the regex. */
  function FirstBetween(s: string, open: string, close: string): (r: Option<string>)
    ensures r.Some? ==> r.value != "" && forall k :: 0 <= k < |r.value| ==> !IsLineTerminator(r.value[k])
  {
    match SearchFrom(s, Between(open, close), 0)
    case None => None
    case Some(m) =>
      FitsBetween(s, open, close, m.start, m.ends);
      Some(Capture(s, m, 1))
  }

  lemma FitsBetween(s: string, open: string, close: string, i: nat, e: seq<nat>)
    requires Fits(s, Between(open, close), i, e)
    ensures e[0] == i + |open| <= e[1] && e[2] == e[1] + |close| <= |s|
    ensures Encloses(s, i, open, s[e[0]..e[1]], close)
  {
    var pat := Between(open, close);
    assert PieceFits(s, pat[0], i, e[0]);
    assert Fits(s, pat[1..], e[0], e[1..]);
    assert PieceFits(s, pat[1], e[0], e[1]);
    assert Fits(s, pat[2..], e[1], e[2..]);
    assert PieceFits(s, pat[2], e[1], e[2]);
    var v := s[e[0]..e[1]];
    assert s[i..e[2]] == s[i..e[0]] + v + s[e[1]..e[2]];
    forall k | 0 <= k < |v| ensures !IsLineTerminator(v[k]) {
      assert v[k] == s[e[0] + k];
    }
  }

  lemma EnclosesFits(s: string, open: string, close: string, i: nat, v: string)
    requires Encloses(s, i, open, v, close)
    ensures Fits(s, Between(open, close), i, [i + |open|, i + |open| + |v|, i + |open| + |v| + |close|])
  {
    var pat := Between(open, close);
    var a, b, c := i + |open|, i + |open| + |v|, i + |open| + |v| + |close|;
    OccursSplit(s, i, open + v, close);
    OccursSplit(s, i, open, v);
    assert s[i..a] == open && s[a..b] == v && s[b..c] == close;
    assert DotsOver(s, a, b) by {
      forall k | a <= k < b ensures !IsLineTerminator(s[k]) {
        assert s[k] == v[k - a];
      }
    }
    assert Fits(s, pat[2..], b, [c]);
    assert Fits(s, pat[1..], a, [b, c]);
  }

  /** A result of FirstBetween is the first enclosure in s: leftmost, then shortest. */
  lemma FirstBetweenSome(s: string, open: string, close: string)
    requires FirstBetween(s, open, close).Some?
    ensures exists i: nat :: IsFirstEnclosure(s, open, close, i, FirstBetween(s, open, close).value)
  {
    var pat := Between(open, close);
    var m := SearchFrom(s, pat, 0).value;
    var e := m.ends;
    FitsBetween(s, open, close, m.start, e);
    var v := s[e[0]..e[1]];
    assert FirstBetween(s, open, close).value == v;
    forall i': nat, v' | Encloses(s, i', open, v', close)
      ensures m.start < i' || (m.start == i' && |v| <= |v'|)
    {
      var o := [i' + |open|, i' + |open| + |v'|, i' + |open| + |v'| + |close|];
      EnclosesFits(s, open, close, i', v');
      SearchFromFirst(s, pat, 0, i', o);
      if m.start == i' {
        assert TriedFirst(pat[1..], e[1..], o[1..]);
      }
    }
    assert IsFirstEnclosure(s, open, close, m.start, v);
  }

  /** FirstBetween finds nothing exactly when nothing is enclosed by open and close. */
  lemma FirstBetweenNone(s: string, open: string, close: string)
    ensures FirstBetween(s, open, close).None? <==>
              forall i: nat, v :: !Encloses(s, i, open, v, close)
  {
    if FirstBetween(s, open, close).Some? {
      FirstBetweenSome(s, open, close);
    } else {
      forall i: nat, v | Encloses(s, i, open, v, close) ensures false {
        EnclosesFits(s, open, close, i, v);
        SearchFromFirst(s, Between(open, close), 0, i, [i + |open|, i + |open| + |v|, i + |open| + |v| + |close|]);
      }
    }
  }

  lemma EnclosedText(s: string, i: nat, open: string, v: string, close: string)
    requires Encloses(s, i, open, v, close)
    ensures v == s[i + |open|..i + |open| + |v|]
  {
    var w := s[i..i + |open + v + close|];
    assert w == open + v + close;
    assert w[|open|..|open| + |v|] == v;
    forall k | 0 <= k < |v| ensures s[i + |open| + k] == v[k] {
      assert s[i + |open| + k] == w[|open| + k];
    }
  }

  /** The text of an element without markup, all of which `.` matches. */
  predicate Token(t: string) {
    t != "" && forall k :: 0 <= k < |t| ==> t[k] != '<' && !IsLineTerminator(t[k])
  }

  /** `open + v + close` stands at j, and v runs to the first close after the opening tag. */
  predicate ShortestAt(s: string, j: nat, open: string, v: string, close: string) {
    OccursAt(s, j, open + v + close) &&
    forall x :: j + |open| < x < j + |open| + |v| ==> !OccursAt(s, x, close)
  }

  /** `open(.+?)close` also fits with its group ended at an earlier occurrence of close. */
  lemma BetweenMoved(s: string, open: string, close: string, q: nat, e: seq<nat>, x: nat)
    requires Fits(s, Between(open, close), q, e)
    requires e[0] < x < e[1] && OccursAt(s, x, close)
    ensures Fits(s, Between(open, close), q, [e[0], x, x + |close|])
  {
    var pat := Between(open, close);
    FitsBetween(s, open, close, q, e);
    assert PieceFits(s, pat[0], q, e[0]);
    assert DotsOver(s, e[0], x) by {
      assert DotsOver(s, e[0], e[1]);
    }
    assert Fits(s, pat[2..], x, [x + |close|]);
    assert Fits(s, pat[1..], e[0], [x, x + |close|]);
  }

  /** The match the engine returns at q holds no close inside its group. */
  lemma BetweenCloseAt(s: string, open: string, close: string, q: nat, e: seq<nat>, x: int)
    requires q <= |s| && MatchAt(s, Between(open, close), q) == Some(e)
    requires e[0] < x < e[1]
    ensures !OccursAt(s, x, close)
  {
    if x >= 0 && OccursAt(s, x, close) {
      var o := [e[0], x, x + |close|];
      BetweenMoved(s, open, close, q, e, x);
      LaterNotTriedFirst(Between(open, close), e, o, 1);
      MatchAtFirst(s, Between(open, close), q, o);
    }
  }

  /** The lazy group of the match at q runs to the first close: the element is the shortest one there. */
  lemma BetweenShortest(s: string, open: string, close: string, q: nat, e: seq<nat>)
    requires q <= |s| && MatchAt(s, Between(open, close), q) == Some(e)
    ensures e[0] == q + |open| <= e[1] <= |s|
    ensures ShortestAt(s, q, open, s[e[0]..e[1]], close)
  {
    FitsBetween(s, open, close, q, e);
    forall x | e[0] < x < e[1] ensures !OccursAt(s, x, close) {
      BetweenCloseAt(s, open, close, q, e, x);
    }
  }

  /** Each match of the global `open(.+?)close` is open, the shortest enclosed body there, and close. */
  lemma BetweenBlock(s: string, open: string, close: string, p: nat, i: nat) returns (body: string)
    requires open != "" && p <= |s| && i < |MatchAll(s, Between(open, close), p)|
    ensures var m := MatchAll(s, Between(open, close), p)[i];
      && body != "" && Matched(s, m) == open + body + close
      && Encloses(s, m.start, open, body, close) && ShortestAt(s, m.start, open, body, close)
  {
    var pat := Between(open, close);
    MatchAllMatches(s, pat, p);
    MatchAllMatchAt(s, pat, p, i);
    var m := MatchAll(s, pat, p)[i];
    BetweenShortest(s, open, close, m.start, m.ends);
    FitsBetween(s, open, close, m.start, m.ends);
    body := s[m.ends[0]..m.ends[1]];
    assert End(m) == m.start + |open + body + close|;
  }

  /** The converse of FirstBetweenSome: the first enclosure is what FirstBetween returns. */
  lemma FirstEnclosureFound(s: string, open: string, close: string, i: nat, v: string)
    requires IsFirstEnclosure(s, open, close, i, v)
    ensures FirstBetween(s, open, close) == Some(v)
  {
    FirstBetweenNone(s, open, close);
    FirstBetweenSome(s, open, close);
    var v' := FirstBetween(s, open, close).value;
    var i' :| IsFirstEnclosure(s, open, close, i', v');
    assert i == i' && |v| == |v'|;
    EnclosedText(s, i, open, v, close);
    EnclosedText(s, i, open, v', close);
  }

  lemma CharAt(s: string, i: nat, w: string, k: nat)
    requires OccursAt(s, i, w) && k < |w|
    ensures s[i + k] == w[k]
  {
    assert s[i..i + |w|][k] == s[i + k];
  }

  /** The global search for `open.+?close` misses no enclosure: each lies inside a match. */
  lemma BetweenCovered(s: string, open: string, close: string, q: nat, v: string)
    requires open != "" && Encloses(s, q, open, v, close)
    ensures exists i :: 0 <= i < |MatchAll(s, Between(open, close), 0)| &&
              MatchAll(s, Between(open, close), 0)[i].start <= q < End(MatchAll(s, Between(open, close), 0)[i])
  {
    EnclosesFits(s, open, close, q, v);
    MatchAllCovers(s, Between(open, close), 0, q, [q + |open|, q + |open| + |v|, q + |open| + |v| + |close|]);
  }

  /** A text whose character r places after i differs from w[r] does not hold w at i. */
  lemma NotOccursAtChar(s: string, i: nat, w: string, r: nat)
    requires r < |w| && (i + r < |s| ==> s[i + r] != w[r])
    ensures !OccursAt(s, i, w)
  {
    if i + |w| <= |s| {
      assert s[i..i + |w|][r] == s[i + r];
    }
  }

  /** A text that does not start with the first two characters of w does not start with w. */
  lemma NotOccursAt(s: string, i: nat, w: string)
    requires 2 <= |w| && i + 1 < |s| && (s[i] != w[0] || s[i + 1] != w[1])
    ensures !OccursAt(s, i, w)
  {
  }

  /** A text whose character at i is not the first of w does not have w at i. */
  lemma NotOccursAtFirst(s: string, i: nat, w: string)
    requires w != "" && (i < |s| ==> s[i] != w[0])
    ensures !OccursAt(s, i, w)
  {
    if i + |w| <= |s| {
      assert s[i..i + |w|][0] == s[i];
    }
  }

  /** An occurrence in a suffix of s is an occurrence in that suffix taken alone. */
  lemma OccursInSuffix(s: string, j: nat, w: string, k: nat)
    requires j <= k && j <= |s|
    ensures OccursAt(s, k, w) ==> OccursAt(s[j..], k - j, w)
  {
    if OccursAt(s, k, w) {
      assert s[j..][k - j..k - j + |w|] == s[k..k + |w|];
    }
  }

  /** `(m = s.match(/open(.+?)close/)) ? m[1] : ""`. */
  function FieldText(s: string, open: string, close: string): (r: string)
    ensures r == "" <==> FirstBetween(s, open, close).None?
    ensures forall k :: 0 <= k < |r| ==> !IsLineTerminator(r[k])
  {
    FirstBetween(s, open, close).GetOr("")
  }

  /** A field is "" exactly when nothing is enclosed, and otherwise the first enclosure. */
  lemma FieldTextSpec(s: string, open: string, close: string)
    ensures FieldText(s, open, close) == "" <==> forall i: nat, v :: !Encloses(s, i, open, v, close)
    ensures FieldText(s, open, close) != "" ==>
              exists i: nat :: IsFirstEnclosure(s, open, close, i, FieldText(s, open, close))
  {
    FirstBetweenNone(s, open, close);
    if FirstBetween(s, open, close).Some? {
      FirstBetweenSome(s, open, close);
    }
  }

  /**
   * Extraction round trip: when open first appears in front of v, v is not empty, `.`
   * matches all of it and it holds no character that starts close, FirstBetween
   * returns exactly v.
   */
  lemma FirstBetweenFinds(pre: string, open: string, v: string, close: string, post: string)
    requires forall i: nat :: i < |pre| ==> !OccursAt(pre + open + v + close + post, i, open)
    requires v != "" && close != "" && close[0] !in v
    requires forall k :: 0 <= k < |v| ==> !IsLineTerminator(v[k])
    ensures FirstBetween(pre + open + v + close + post, open, close) == Some(v)
  {
    var s := pre + open + v + close + post;
    var i := |pre|;
    assert s[i..i + |open + v + close|] == open + v + close;
    assert Encloses(s, i, open, v, close);
    forall i': nat, v' | Encloses(s, i', open, v', close) ensures i < i' || (i == i' && |v| <= |v'|) {
      OccursSplit(s, i', open + v', close);
      OccursSplit(s, i', open, v');
      if i == i' && |v'| < |v| {
        CharAt(s, i, open + v + close, |open| + |v'|);
        CharAt(s, i, open + v' + close, |open| + |v'|);
        assert false;
      }
    }
    FirstEnclosureFound(s, open, close, i, v);
  }

  /** `xs.join(sep)`. */
  function Join(xs: seq<string>, sep: string): (r: string)
    ensures xs == [] ==> r == ""
    ensures |xs| == 1 ==> r == xs[0]
    ensures xs != [] ==> xs[0] <= r
  {
    if xs == [] then ""
    else if |xs| == 1 then xs[0]
    else xs[0] + sep + Join(xs[1..], sep)
  }

  /** Joining one more element appends the separator and that element. */
  lemma {:induction false} JoinAppend(xs: seq<string>, y: string, sep: string)
    requires xs != []
    ensures Join(xs + [y], sep) == Join(xs, sep) + sep + y
  {
    if |xs| == 1 {
      assert xs + [y] == [xs[0], y];
    } else {
      assert (xs + [y])[1..] == xs[1..] + [y];
      JoinAppend(xs[1..], y, sep);
    }
  }
}

=== FILE: search_page.dfy ===
/**
 * The `/search/` page of index.js (lines 100-140): request validation, the sort key,
 * the page offset, the search term sent to PubMed, the paging window and the link to the
 * next page, and the handler that ties them to the two upstream replies.
 */
module SearchPage {
  import opened Wrappers
  import opened Numbers
  import opened SearchReply
  import opened Summary

  /** index.js:8: every search is narrowed to digital health. */
  const BaseQuery := "\"digital health\"[Text Word] OR eHealth OR mhealth"

  const MissingQuery := "Bad request (missing query)"
  const MissingSort := "Bad request (missing sort)"
  /** The message as index.js:110 spells it. */
  const UnknownSort := "Bad request (unkown sort)"

  /** What getSort answers for a name it does not know. */
  const Unknown := "unknown"

  /* ---------------------------------------------------------------------------------- */
  /* Sort order                                                                          */
  /* ---------------------------------------------------------------------------------- */

  /**
   * index.js:65-76: the PubMed sort key of a sort name. Each of the three names has its
   * own key, and every other name is refused with "unknown".
   */
  function GetSort(sort: string): (key: string)
    ensures key == "" <==> sort == "added"
    ensures key == "pub date" <==> sort == "published"
    ensures key == "relevance" <==> sort == "relevant"
    ensures key == Unknown <==> sort != "added" && sort != "published" && sort != "relevant"
  {
    match sort
    case "added" => ""
    case "published" => "pub date"
    case "relevant" => "relevance"
    case _ => Unknown
  }

  /* ---------------------------------------------------------------------------------- */
  /* The search term                                                                     */
  /* ---------------------------------------------------------------------------------- */

  /** index.js:115: the base query, narrowed by the user's query when there is one. */
  function SearchTerm(query: string): (term: string)
    ensures BaseQuery <= term
    ensures term == BaseQuery <==> query == ""
  {
    if query == "" then BaseQuery else BaseQuery + " AND (" + query + ")"
  }

  /** The user's query inside a term: what follows the base query, unwrapped. */
  function QueryOfTerm(term: string): (query: Option<string>)
  {
    var n := |BaseQuery| + |" AND ("|;
    if term == BaseQuery then Some("")
    else if |term| > n && term[..n] == BaseQuery + " AND (" && term[|term| - 1] == ')'
    then Some(term[n..|term| - 1])
    else None
  }

  /** The query can be read back from the term, so distinct queries ask PubMed distinct terms. */
  lemma SearchTermQuery(query: string)
    ensures QueryOfTerm(SearchTerm(query)) == Some(query)
  {
    if query != "" {
      var term := SearchTerm(query);
      var n := |BaseQuery| + |" AND ("|;
      assert term[..n] == BaseQuery + " AND (";
      assert term[n..|term| - 1] == query;
    }
  }

  lemma SearchTermInjective(a: string, b: string)
    requires SearchTerm(a) == SearchTerm(b)
    ensures a == b
  {
    SearchTermQuery(a);
    SearchTermQuery(b);
  }

  /* ---------------------------------------------------------------------------------- */
  /* The page offset                                                                     */
  /* ---------------------------------------------------------------------------------- */

  /**
   * After the whole digits of a number: true when `parseFloat` still reads a whole
   * number, that is, there is no fraction or the fraction is all zeros.
   */
  predicate WholeTail(rest: string) {
    rest == "" || rest[0] != '.' ||
    forall i :: 0 <= i < |LeadingDigits(rest[1..])| ==> LeadingDigits(rest[1..])[i] == '0'
  }

  /**
   * index.js:112: the `start` parameter read with `parseFloat`, kept when it is a whole
   * number and 0 when it is absent, empty, not a number or has a fraction.
   */
  function Retstart(start: Option<string>): (r: int)
    ensures start.None? ==> r == 0
    ensures r < 0 ==> start.Some? && start.value != "" && start.value[0] == '-'
  {
    match start
    case None => 0
    case Some(t) =>
      if t == "" then 0
      else
        var body := if t[0] == '-' || t[0] == '+' then t[1..] else t;
        var d := LeadingDigits(body);
        if d == "" || !WholeTail(body[|d|..]) then 0
        else if t[0] == '-' then -(DigitsValue(d) as int)
        else DigitsValue(d)
  }

  /** A number printed as JavaScript prints it reads back as the same offset. */
  lemma RetstartOfDecimal(n: int)
    ensures Retstart(Some(IntToDecimal(n))) == n
  {
    var t := IntToDecimal(n);
    if n >= 0 {
      LeadingDigitsOfDigits(t);
      DecimalValue(n);
      assert t[|t|..] == "";
    } else {
      var body := NatToDecimal(-n);
      assert t[1..] == body;
      LeadingDigitsOfDigits(body);
      DecimalValue(-n);
      assert body[|body|..] == "";
    }
  }

  /** A parameter that does not start with a digit (after its sign) falls back to 0. */
  lemma RetstartNotANumber(t: string)
    requires t != "" && t[0] != '-' && t[0] != '+' && !IsDigit(t[0])
    ensures Retstart(Some(t)) == 0
  {
  }

  /** A parameter with a fraction that is not all zeros falls back to 0. */
  lemma RetstartFraction(whole: string, fraction: string, k: nat)
    requires IsDigits(whole) && IsDigits(fraction) && k < |fraction| && fraction[k] != '0'
    ensures Retstart(Some(whole + "." + fraction)) == 0
  {
    var t := whole + "." + fraction;
    assert t[0] == whole[0];
    assert LeadingDigits(t) == whole by {
      assert ("." + fraction)[0] == '.';
      assert t == whole + ("." + fraction);
      LeadingDigitsPrefix(whole, "." + fraction);
    }
    var rest := t[|whole|..];
    assert rest == "." + fraction;
    assert rest[1..] == fraction;
    LeadingDigitsOfDigits(fraction);
  }

  /* ---------------------------------------------------------------------------------- */
  /* Paging                                                                              */
  /* ---------------------------------------------------------------------------------- */

  /** The 1-based numbers of the first and last result shown. */
  datatype Window = Window(first: int, last: int)

  /** The offset of the next page, if there is one, and the window of this one. */
  datatype Page = Page(next: Option<int>, window: Window)

  /**
   * index.js:121-127: pages of ten. There is a next page exactly when results remain
   * beyond this page's ten; it starts where this window ends, and the last window ends at
   * the count.
   */
  function Paging(retstart: int, count: nat): (page: Page)
    ensures page.window.first == retstart + 1
    ensures page.next.Some? <==> retstart + 10 < count
    ensures page.next.Some? <==> page.window.last < count
    ensures page.next.Some? ==> page.next.value == page.window.last && page.window.last - page.window.first == 9
    ensures page.next.None? ==> page.window.last == count
  {
    if retstart < count - 10 then Page(Some(retstart + 10), Window(retstart + 1, retstart + 10))
    else Page(None, Window(retstart + 1, count))
  }

  /** The two outcomes of the paging test at index.js:121. */
  lemma PagingCases(retstart: int, count: nat)
    ensures retstart < count - 10 ==> Paging(retstart, count) == Page(Some(retstart + 10), Window(retstart + 1, retstart + 10))
    ensures retstart >= count - 10 ==> Paging(retstart, count) == Page(None, Window(retstart + 1, count))
  {
  }

  /** Twenty-five results: pages 1-10 (next at 10) and 21-25 (last); no results: the empty window 1-0. */
  lemma PagingExamples()
    ensures Paging(0, 25) == Page(Some(10), Window(1, 10))
    ensures Paging(20, 25) == Page(None, Window(21, 25))
    ensures Paging(0, 0) == Page(None, Window(1, 0))
  {
  }

  /** The offsets of the pages reached by following the next links from retstart. */
  function PageWalk(retstart: int, count: nat): (starts: seq<int>)
    ensures starts != [] && starts[0] == retstart
    decreases count - retstart
  {
    if retstart < count - 10 then [retstart] + PageWalk(retstart + 10, count) else [retstart]
  }

  /**
   * Following the next links from any offset visits pages whose windows abut, each link
   * leads to the following page, and the walk ends on a page that shows the last result.
   */
  lemma {:induction false} PageWalkCovers(retstart: int, count: nat)
    ensures var starts := PageWalk(retstart, count);
      && Paging(starts[|starts| - 1], count).next.None?
      && Paging(starts[|starts| - 1], count).window.last == count
      && forall i :: 0 <= i < |starts| - 1 ==>
           Paging(starts[i], count).next == Some(starts[i + 1]) &&
           Paging(starts[i + 1], count).window.first == Paging(starts[i], count).window.last + 1
    decreases count - retstart
  {
    var starts := PageWalk(retstart, count);
    if retstart < count - 10 {
      var rest := PageWalk(retstart + 10, count);
      PageWalkCovers(retstart + 10, count);
      assert starts == [retstart] + rest;
      forall i | 0 <= i < |starts| - 1
        ensures Paging(starts[i], count).next == Some(starts[i + 1])
        ensures Paging(starts[i + 1], count).window.first == Paging(starts[i], count).window.last + 1
      {
        if i > 0 {
          assert starts[i] == rest[i - 1] && starts[i + 1] == rest[i];
        }
      }
    }
  }

  /** Result number k is shown on the page at offset start. */
  predicate Shows(start: int, count: nat, k: int) {
    Paging(start, count).window.first <= k <= Paging(start, count).window.last
  }

  /** Every result after the starting offset, up to the count, is shown on some page of the walk. */
  lemma {:induction false} PageWalkFinds(retstart: int, count: nat, k: int)
    requires retstart < k <= count
    ensures exists i :: 0 <= i < |PageWalk(retstart, count)| && Shows(PageWalk(retstart, count)[i], count, k)
    decreases count - retstart
  {
    var starts := PageWalk(retstart, count);
    if retstart < count - 10 && k > retstart + 10 {
      var rest := PageWalk(retstart + 10, count);
      PageWalkFinds(retstart + 10, count, k);
      assert starts == [retstart] + rest;
      var i :| 0 <= i < |rest| && Shows(rest[i], count, k);
      assert starts[i + 1] == rest[i];
    } else {
      assert Shows(starts[0], count, k);
    }
  }

  /** The text of s up to its first c, or all of s when c does not occur. */
  function Before(s: string, c: char): (r: string)
    ensures r <= s && c !in r
    ensures |r| < |s| ==> s[|r|] == c
  {
    if s == [] || s[0] == c then [] else [s[0]] + Before(s[1..], c)
  }

  /** The text before the first c of `a + [c] + b` is a, when a holds no c. */
  lemma {:induction false} BeforeSplit(a: string, c: char, b: string)
    requires c !in a
    ensures Before(a + [c] + b, c) == a
  {
    if a != [] {
      assert (a + [c] + b)[1..] == a[1..] + [c] + b;
      BeforeSplit(a[1..], c, b);
    }
  }

  /** The three parameters of a `/search/` link, as text. */
  datatype LinkParams = LinkParams(query: string, start: string, sort: string)

  const SearchPath := "/search/?query="

  /**
   * How a `/search/?query=q&start=n&sort=s` address is read back: the query runs to the
   * first `&`, the start parameter to the next `&`, and the sort name to the end.
   */
  function ReadLink(link: string): (r: Option<LinkParams>)
    ensures r.Some? ==> '&' !in r.value.query && '&' !in r.value.start
  {
    if !(SearchPath <= link) then None
    else
      var rest := link[|SearchPath|..];
      var query := Before(rest, '&');
      if |query| == |rest| then None
      else
        match ReadStartSort(rest[|query| + 1..])
        case None => None
        case Some((start, sort)) => Some(LinkParams(query, start, sort))
  }

  /** The `start=n&sort=s` part of a link: the start parameter and the sort name. */
  function ReadStartSort(params: string): (r: Option<(string, string)>)
    ensures r.Some? ==> '&' !in r.value.0
  {
    if !("start=" <= params) then None
    else
      var afterName := params[|"start="|..];
      var start := Before(afterName, '&');
      if |start| == |afterName| then None
      else
        var afterStart := afterName[|start| + 1..];
        if !("sort=" <= afterStart) then None
        else Some((start, afterStart[|"sort="|..]))
  }

  /** The start and sort parts read back as written, when the start holds no `&`. */
  lemma ReadStartSortOf(start: string, sort: string)
    requires '&' !in start
    ensures ReadStartSort("start=" + start + "&sort=" + sort) == Some((start, sort))
  {
    var afterStart := "sort=" + sort;
    assert ("start=" + start + "&sort=" + sort)[|"start="|..] == start + ['&'] + afterStart;
    BeforeSplit(start, '&', afterStart);
    assert (start + ['&'] + afterStart)[|start| + 1..] == afterStart;
  }

  /** A link assembled from a query and a start parameter without `&` reads back as its parts. */
  lemma ReadLinkOf(query: string, start: string, sort: string)
    requires '&' !in start
    ensures '&' !in query ==>
              ReadLink(SearchPath + query + "&start=" + start + "&sort=" + sort) == Some(LinkParams(query, start, sort))
  {
    if '&' !in query {
      var link := SearchPath + query + "&start=" + start + "&sort=" + sort;
      var params := "start=" + start + "&sort=" + sort;
      assert link == SearchPath + (query + ['&'] + params);
      assert link[|SearchPath|..] == query + ['&'] + params;
      BeforeSplit(query, '&', params);
      assert (query + ['&'] + params)[|query| + 1..] == params;
      ReadStartSortOf(start, sort);
    }
  }

  /** JavaScript prints a whole number with digits and a minus sign only. */
  lemma DecimalHasNoAmpersand(n: int)
    ensures '&' !in IntToDecimal(n)
  {
  }

  /**
   * index.js:122: the link to the next page, with the query and sort name as given. A
   * query without `&` reads back from it, followed by the offset and the sort name.
   */
  function NextLink(query: string, start: int, sort: string): (link: string)
    ensures SearchPath <= link
    ensures '&' !in query ==> ReadLink(link) == Some(LinkParams(query, IntToDecimal(start), sort))
  {
    DecimalHasNoAmpersand(start);
    ReadLinkOf(query, IntToDecimal(start), sort);
    SearchPath + query + "&start=" + IntToDecimal(start) + "&sort=" + sort
  }

  /**
   * The query is put into the link as it is: a query holding `&` does not read back
   * from its own next link.
   */
  lemma NextLinkAmpersand(query: string, start: int, sort: string)
    requires '&' in query
    ensures ReadLink(NextLink(query, start, sort)) != Some(LinkParams(query, IntToDecimal(start), sort))
  {
  }


  /* ---------------------------------------------------------------------------------- */
  /* The handler                                                                         */
  /* ---------------------------------------------------------------------------------- */

  /** The parameters of a request; None where the parameter is absent. */
  datatype Request = Request(query: Option<string>, sort: Option<string>, start: Option<string>)

  /** The two PubMed requests the page makes. */
  datatype Upstream =
    | ESearch(sortKey: string, term: string)                // the search, kept on the server
    | EFetch(queryKey: string, webEnv: string, retstart: int)  // ten records from retstart

  datatype Response =
    | BadRequest(message: string)  // status 400
    | Results(query: string, sort: string, results: seq<seq<Field>>, window: Window,
              count: nat, next: Option<string>)

  /** Whether a request passes the checks of index.js:104-110. */
  predicate Accepted(req: Request) {
    req.query.Some? && req.sort.Some? && GetSort(req.sort.value) != Unknown
  }

  /**
   * index.js:100-140. The query is checked first, then the presence of the sort, then
   * its name. An accepted request searches PubMed for the narrowed term with the chosen
   * key, pages the count it reports and fetches the ten records at the offset through
   * the search's handle; `fetch` stands for the two PubMed calls.
   */
  method HandleSearch(req: Request, fetch: Upstream -> string) returns (resp: Response)
    ensures req.query.None? ==> resp == BadRequest(MissingQuery)
    ensures req.query.Some? && req.sort.None? ==> resp == BadRequest(MissingSort)
    ensures req.query.Some? && req.sort.Some? && GetSort(req.sort.value) == Unknown ==>
              resp == BadRequest(UnknownSort)
    ensures resp.Results? <==> Accepted(req)
    ensures Accepted(req) ==>
      var handle := ProcessSearch(fetch(ESearch(GetSort(req.sort.value), SearchTerm(req.query.value))));
      var retstart := Retstart(req.start);
      var page := Paging(retstart, handle.count);
      var articles := Articles(fetch(EFetch(handle.queryKey, handle.webEnv, retstart)));
      && resp.query == req.query.value && resp.sort == req.sort.value
      && resp.count == handle.count && resp.window == page.window
      && (page.next.None? ==> resp.next.None?)
      && (page.next.Some? ==> resp.next == Some(NextLink(req.query.value, page.next.value, req.sort.value)))
      && |resp.results| == |articles|
      && forall i :: 0 <= i < |articles| ==> resp.results[i] == Summarize(articles[i])
  {
    if req.query.None? {
      return BadRequest(MissingQuery);
    }
    if req.sort.None? {
      return BadRequest(MissingSort);
    }
    var query := req.query.value;
    var sortKey := GetSort(req.sort.value);
    if sortKey == Unknown {
      return BadRequest(UnknownSort);
    }
    var retstart := Retstart(req.start);
    var handle := ProcessSearch(fetch(ESearch(sortKey, SearchTerm(query))));
    ghost var page := Paging(retstart, handle.count);
    PagingCases(retstart, handle.count);
    var next: Option<string>;
    var window: Window;
    if retstart < handle.count - 10 {
      next := Some(NextLink(query, retstart + 10, req.sort.value));
      window := Window(retstart + 1, retstart + 10);
      assert page.next == Some(retstart + 10) && page.window == window;
    } else {
      next := None;
      window := Window(retstart + 1, handle.count);
      assert page.next.None? && page.window == window;
    }
    var summaries := ProcessSummary(fetch(EFetch(handle.queryKey, handle.webEnv, retstart)));
    resp := Results(query, req.sort.value, summaries, window, handle.count, next);
  }

  /**
   * A next link read back gives the same query and sort name, and a start parameter
   * that reads as the next offset, whose page begins right after the current window.
   */
  lemma NextLinkLeadsOn(query: string, retstart: int, count: nat, sort: string)
    requires '&' !in query && Paging(retstart, count).next.Some?
    ensures var n := Paging(retstart, count).next.value;
            var params := ReadLink(NextLink(query, n, sort));
      && params.Some? && params.value.query == query && params.value.sort == sort
      && Retstart(Some(params.value.start)) == n
      && Paging(n, count).window.first == Paging(retstart, count).window.last + 1
  {
    RetstartOfDecimal(Paging(retstart, count).next.value);
  }
}

=== FILE: search_reply.dfy ===
/**
 * `processSearch` (index.js:33-39): the count and the history tokens of an esearch
 * reply, and the home page's rounded count (index.js:89-90).
 */
module SearchReply {
  import opened Wrappers
  import opened Regex
  import opened Scrape
  import opened Numbers

  /** `[count, queryKey, webEnv]`. */
  datatype SearchHandle = SearchHandle(count: nat, queryKey: string, webEnv: string)

  /**
   * The count as the handlers use it: the captured text read as a number, 0 when there
   * is no `<Count>` element (index.js:35).
   */
  function CountOf(text: Option<string>): (n: nat)
    ensures text.None? ==> n == 0
    ensures text.Some? && IsDigits(text.value) ==> n == DigitsValue(text.value)
  {
    match text
    case None => 0
    case Some(t) => if IsDigits(t) then DigitsValue(t) else 0
  }

  /** index.js:33-39: newlines removed, then each field taken from its own first element. */
  function ProcessSearch(data: string): SearchHandle {
    var text := StripNewlines(data);
    SearchHandle(
      CountOf(FirstBetween(text, "<Count>", "</Count>")),
      FieldText(text, "<QueryKey>", "</QueryKey>"),
      FieldText(text, "<WebEnv>", "</WebEnv>"))
  }

  /** The three fields, each read from the reply with its newlines removed. */
  lemma ProcessSearchFields(data: string)
    ensures ProcessSearch(data).count == CountOf(FirstBetween(StripNewlines(data), "<Count>", "</Count>"))
    ensures ProcessSearch(data).queryKey == FieldText(StripNewlines(data), "<QueryKey>", "</QueryKey>")
    ensures ProcessSearch(data).webEnv == FieldText(StripNewlines(data), "<WebEnv>", "</WebEnv>")
  {
  }

  /** Without a `<Count>` element the count falls back to 0. */
  lemma ProcessSearchNoCount(data: string)
    requires forall i: nat, v :: !Encloses(StripNewlines(data), i, "<Count>", v, "</Count>")
    ensures ProcessSearch(data).count == 0
  {
    FirstBetweenNone(StripNewlines(data), "<Count>", "</Count>");
  }

  /**
   * The query key is "" exactly when the reply has no `<QueryKey>` element, and
   * otherwise the content of the first one.
   */
  lemma ProcessSearchQueryKey(data: string)
    ensures ProcessSearch(data).queryKey == "" <==>
              forall i: nat, v :: !Encloses(StripNewlines(data), i, "<QueryKey>", v, "</QueryKey>")
    ensures ProcessSearch(data).queryKey != "" ==>
              exists i: nat :: IsFirstEnclosure(StripNewlines(data), "<QueryKey>", "</QueryKey>", i, ProcessSearch(data).queryKey)
  {
    ProcessSearchFields(data);
    FieldTextSpec(StripNewlines(data), "<QueryKey>", "</QueryKey>");
  }

  /** The same for the web environment and `<WebEnv>`. */
  lemma ProcessSearchWebEnv(data: string)
    ensures ProcessSearch(data).webEnv == "" <==>
              forall i: nat, v :: !Encloses(StripNewlines(data), i, "<WebEnv>", v, "</WebEnv>")
    ensures ProcessSearch(data).webEnv != "" ==>
              exists i: nat :: IsFirstEnclosure(StripNewlines(data), "<WebEnv>", "</WebEnv>", i, ProcessSearch(data).webEnv)
  {
    ProcessSearchFields(data);
    FieldTextSpec(StripNewlines(data), "<WebEnv>", "</WebEnv>");
  }

  /** The count is the value of the first `<Count>` element when that holds digits. */
  lemma ProcessSearchCount(data: string, i: nat, v: string)
    requires IsFirstEnclosure(StripNewlines(data), "<Count>", "</Count>", i, v) && IsDigits(v)
    ensures ProcessSearch(data).count == DigitsValue(v)
  {
    FirstEnclosureFound(StripNewlines(data), "<Count>", "</Count>", i, v);
  }

  /** An esearch reply with history: the count, then the query key, then the web environment. */
  function SearchReplyText(count: nat, queryKey: string, webEnv: string): string {
    Head + NatToDecimal(count) + CountToKey + queryKey + KeyToEnv + webEnv + Tail
  }

  lemma DigitsAreTokens(c: string)
    requires IsDigits(c)
    ensures Token(c)
  {
    forall k | 0 <= k < |c| ensures c[k] != '<' && !IsLineTerminator(c[k]) { assert IsDigit(c[k]); }
  }

  lemma TokenHasNoNewline(t: string)
    requires Token(t)
    ensures '\n' !in t
  {
    forall k | 0 <= k < |t| ensures t[k] != '\n' { assert !IsLineTerminator(t[k]); }
  }

  lemma ReplyCount(c: string, rest: string)
    requires Token(c)
    ensures FirstBetween("<eSearchResult>" + "<Count>" + c + "</Count>" + rest, "<Count>", "</Count>") == Some(c)
  {
    var pre := "<eSearchResult>";
    var s := pre + "<Count>" + c + "</Count>" + rest;
    forall i: nat | i < |pre| ensures !OccursAt(s, i, "<Count>") {
      if OccursAt(s, i, "<Count>") {
        CharAt(s, i, "<Count>", 0);
        CharAt(s, i, "<Count>", 1);
      }
    }
    FirstBetweenFinds(pre, "<Count>", c, "</Count>", rest);
  }

  /** The literal parts of a reply, between the count, query key and web environment. */
  const Head := "<eSearchResult><Count>"
  const CountToKey := "</Count><QueryKey>"
  const KeyToEnv := "</QueryKey><WebEnv>"
  const Tail := "</WebEnv></eSearchResult>"

  /** No `<QueryKey>` starts before the one after the count. */
  lemma NoQueryKeyBefore(c: string, rest: string)
    requires Token(c)
    ensures var s := Head + c + CountToKey + rest;
      forall i: nat :: i < |Head + c + "</Count>"| ==> !OccursAt(s, i, "<QueryKey>")
  {
    var s := Head + c + CountToKey + rest;
    var b1, b2 := |Head|, |Head| + |c|;
    forall i: nat | i < |Head + c + "</Count>"| ensures !OccursAt(s, i, "<QueryKey>") {
      if i < b1 {
        assert s[i] == Head[i] && (i + 1 < b1 ==> s[i + 1] == Head[i + 1]);
      } else if i < b2 {
        assert s[i] == c[i - b1];
      } else {
        assert s[i] == CountToKey[i - b2] && s[i + 1] == CountToKey[i + 1 - b2];
      }
      NotOccursAt(s, i, "<QueryKey>");
    }
  }

  /** No `<WebEnv>` starts before the one after the query key. */
  lemma NoWebEnvBefore(c: string, k: string, rest: string)
    requires Token(c) && Token(k)
    ensures var s := Head + c + CountToKey + k + KeyToEnv + rest;
      forall i: nat :: i < |Head + c + CountToKey + k + "</QueryKey>"| ==> !OccursAt(s, i, "<WebEnv>")
  {
    NoWebEnvInCount(c, k, rest);
    NoWebEnvInKey(c, k, rest);
  }

  /** ... not in the part up to the query key, ... */
  lemma NoWebEnvInCount(c: string, k: string, rest: string)
    requires Token(c) && Token(k)
    ensures var s := Head + c + CountToKey + k + KeyToEnv + rest;
      forall i: nat :: i < |Head + c + CountToKey| ==> !OccursAt(s, i, "<WebEnv>")
  {
    var s := Head + c + CountToKey + k + KeyToEnv + rest;
    var b1, b2, b3 := |Head|, |Head| + |c|, |Head| + |c| + |CountToKey|;
    forall i: nat | i < b3 ensures !OccursAt(s, i, "<WebEnv>") {
      if i < b1 {
        assert s[i] == Head[i] && (i + 1 < b1 ==> s[i + 1] == Head[i + 1]);
      } else if i < b2 {
        assert s[i] == c[i - b1];
      } else {
        assert s[i] == CountToKey[i - b2] && (i + 1 < b3 ==> s[i + 1] == CountToKey[i + 1 - b2]);
      }
      NotOccursAt(s, i, "<WebEnv>");
    }
  }

  /** ... nor in the query key and its closing tag. */
  lemma NoWebEnvInKey(c: string, k: string, rest: string)
    requires Token(k)
    ensures var s := Head + c + CountToKey + k + KeyToEnv + rest;
      forall i: nat :: |Head + c + CountToKey| <= i < |Head + c + CountToKey + k + "</QueryKey>"| ==>
        !OccursAt(s, i, "<WebEnv>")
  {
    var s := Head + c + CountToKey + k + KeyToEnv + rest;
    var b3, b4 := |Head| + |c| + |CountToKey|, |Head| + |c| + |CountToKey| + |k|;
    forall i: nat | b3 <= i < b4 + |"</QueryKey>"| ensures !OccursAt(s, i, "<WebEnv>") {
      if i < b4 {
        assert s[i] == k[i - b3];
      } else {
        assert s[i] == KeyToEnv[i - b4] && s[i + 1] == KeyToEnv[i + 1 - b4];
      }
      NotOccursAt(s, i, "<WebEnv>");
    }
  }

  lemma ReplyHasNoNewline(count: nat, queryKey: string, webEnv: string)
    requires Token(queryKey) && Token(webEnv)
    ensures '\n' !in SearchReplyText(count, queryKey, webEnv)
  {
    var c := NatToDecimal(count);
    DigitsAreTokens(c);
    TokenHasNoNewline(c);
    TokenHasNoNewline(queryKey);
    TokenHasNoNewline(webEnv);
    assert '\n' !in Head && '\n' !in CountToKey && '\n' !in KeyToEnv && '\n' !in Tail;
  }

  lemma ReplyCountField(count: nat, queryKey: string, webEnv: string)
    ensures FirstBetween(SearchReplyText(count, queryKey, webEnv), "<Count>", "</Count>") == Some(NatToDecimal(count))
  {
    var c := NatToDecimal(count);
    DigitsAreTokens(c);
    TagSplits();
    RegroupCount("<eSearchResult>", "<Count>", c, "</Count>", "<QueryKey>", queryKey, KeyToEnv, webEnv, Tail);
    ReplyCount(c, "<QueryKey>" + queryKey + KeyToEnv + webEnv + Tail);
  }

  /** A field is read from the first element of its kind, whatever text stands around it. */
  lemma FieldIn(s: string, pre: string, open: string, v: string, close: string, post: string)
    requires s == pre + open + v + close + post
    requires forall i: nat :: i < |pre| ==> !OccursAt(s, i, open)
    requires v != "" && close != "" && close[0] !in v
    requires forall k :: 0 <= k < |v| ==> !IsLineTerminator(v[k])
    ensures FirstBetween(s, open, close) == Some(v)
  {
    FirstBetweenFinds(pre, open, v, close, post);
  }

  /** How the literal parts of a reply split at the tags. */
  lemma TagSplits()
    ensures Head == "<eSearchResult>" + "<Count>"
    ensures CountToKey == "</Count>" + "<QueryKey>"
    ensures KeyToEnv == "</QueryKey>" + "<WebEnv>"
    ensures Tail == "</WebEnv>" + "</eSearchResult>"
  {
  }

  lemma RegroupCount(h1: string, h2: string, c: string, t1: string, t2: string, k: string, e: string, w: string, t: string)
    ensures (h1 + h2) + c + (t1 + t2) + k + e + w + t == h1 + h2 + c + t1 + (t2 + k + e + w + t)
  {
  }

  /** Concatenations regrouped around the element a field is read from. */
  lemma RegroupKey(a: string, b1: string, b2: string, k: string, e1: string, e2: string, w: string, t: string)
    ensures a + (b1 + b2) + (k + (e1 + e2) + w + t) == a + b1 + b2 + k + e1 + (e2 + w + t)
  {
  }

  lemma RegroupEnv(a: string, e1: string, e2: string, w: string, t1: string, t2: string)
    ensures a + (e1 + e2) + (w + (t1 + t2)) == a + e1 + e2 + w + t1 + t2
  {
  }

  lemma ReplyQueryKeyField(count: nat, queryKey: string, webEnv: string)
    requires Token(queryKey)
    ensures FirstBetween(SearchReplyText(count, queryKey, webEnv), "<QueryKey>", "</QueryKey>") == Some(queryKey)
  {
    var c := NatToDecimal(count);
    DigitsAreTokens(c);
    var rest := queryKey + KeyToEnv + webEnv + Tail;
    var s := Head + c + CountToKey + rest;
    NoQueryKeyBefore(c, rest);
    var pre := Head + c + "</Count>";
    var post := "<WebEnv>" + webEnv + Tail;
    TagSplits();
    RegroupKey(Head + c, "</Count>", "<QueryKey>", queryKey, "</QueryKey>", "<WebEnv>", webEnv, Tail);
    assert SearchReplyText(count, queryKey, webEnv) == s;
    FieldIn(s, pre, "<QueryKey>", queryKey, "</QueryKey>", post);
  }

  lemma ReplyWebEnvField(count: nat, queryKey: string, webEnv: string)
    requires Token(queryKey) && Token(webEnv)
    ensures FirstBetween(SearchReplyText(count, queryKey, webEnv), "<WebEnv>", "</WebEnv>") == Some(webEnv)
  {
    var c := NatToDecimal(count);
    DigitsAreTokens(c);
    var rest := webEnv + Tail;
    var s := Head + c + CountToKey + queryKey + KeyToEnv + rest;
    NoWebEnvBefore(c, queryKey, rest);
    var pre := Head + c + CountToKey + queryKey + "</QueryKey>";
    var post := "</eSearchResult>";
    TagSplits();
    RegroupEnv(Head + c + CountToKey + queryKey, "</QueryKey>", "<WebEnv>", webEnv, "</WebEnv>", post);
    assert SearchReplyText(count, queryKey, webEnv) == s;
    FieldIn(s, pre, "<WebEnv>", webEnv, "</WebEnv>", post);
  }

  /** Round trip: processSearch gives back the count and the tokens a reply was built from. */
  lemma ProcessSearchRoundTrip(count: nat, queryKey: string, webEnv: string)
    requires Token(queryKey) && Token(webEnv)
    ensures ProcessSearch(SearchReplyText(count, queryKey, webEnv)) == SearchHandle(count, queryKey, webEnv)
  {
    var s := SearchReplyText(count, queryKey, webEnv);
    ReplyHasNoNewline(count, queryKey, webEnv);
    StripNewlinesKeeps(s);
    ProcessSearchFields(s);
    ReplyCountField(count, queryKey, webEnv);
    ReplyQueryKeyField(count, queryKey, webEnv);
    ReplyWebEnvField(count, queryKey, webEnv);
    DigitsAreTokens(NatToDecimal(count));
    DecimalValue(count);
  }

  /** index.js:90: the count rounded down to a whole thousand. */
  function RoundDownToThousand(count: nat): (r: nat)
    ensures r % 1000 == 0 && r <= count && count - r < 1000
  {
    count - count % 1000
  }

  /** The count shown on the home page (index.js:88-90), given the esearch reply for the base query. */
  function HomeCount(reply: string): (r: nat)
    ensures r % 1000 == 0 && r <= ProcessSearch(reply).count < r + 1000
  {
    RoundDownToThousand(ProcessSearch(reply).count)
  }
}

=== FILE: summary.dfy ===
/**
 * `processSummary` (index.js:41-63): an efetch reply is cut into its
 * `<PubmedArticle>` blocks and each block becomes a summary of seven named fields.
 */
module Summary {
  import opened Wrappers
  import opened Regex
  import opened Scrape
  import opened Numbers
  import opened Dates

  /** One `{name, value}` pair of a summary. */
  datatype Field = Field(name: string, value: string)

  /** The field names, in the order index.js:60 pushes them. */
  const FieldNames: seq<string> :=
    ["Title", "Authors", "Journal", "Publication Date", "Date Added to PubMed", "Abstract", "Link"]

  /** Every link is a DOI resolver address. */
  const DoiPrefix := "http://doi.org/"

  const ArticleOpen := "<PubmedArticle>"
  const ArticleClose := "</PubmedArticle>"

  /** `a(.+?)b.*?c(.+?)d`: two elements, the second one searched for after the first. */
  function PairPattern(a: string, b: string, c: string, d: string): Pattern {
    [Lit(a), Dots(1, true), Lit(b), Dots(0, true), Lit(c), Dots(1, true), Lit(d)]
  }

  /** `<LastName>(.+?)</LastName>.*?<Initials>(.+?)</Initials>` (index.js:46): groups at pieces 1 and 5. */
  const AuthorPattern: Pattern := PairPattern("<LastName>", "</LastName>", "<Initials>", "</Initials>")

  /**
   * `open.*?<unit>(.+?)</unit>.*?close` (index.js:48-50, 53-55): the group is piece 3.
   */
  function DatePattern(open: string, unit: string, close: string): (pat: Pattern)
    ensures Anchored(pat) <==> open != ""
  {
    [Lit(open), Dots(0, true), Lit("<" + unit + ">"), Dots(1, true), Lit("</" + unit + ">"),
     Dots(0, true), Lit(close)]
  }

  /** The publication date lies between `<PubDate>` and `</PubDate>`. */
  const PubOpen := "<PubDate>"
  const PubClose := "</PubDate>"

  /** The date the article was added to PubMed lies in its `pubmed` history entry. */
  const PubMedOpen := "PubMedPubDate PubStatus=\"pubmed\">"
  const PubMedClose := "</PubMedPubDate>"

  /** `a.*g.+c`: an opening tag a ... g, the element text, then the closing tag c; both runs greedy. */
  function GreedyElement(a: string, g: string, c: string): Pattern {
    [Lit(a), Dots(0, false), Lit(g), Dots(1, false), Lit(c)]
  }

  /** `a.*?g`: an opening tag, its attributes taken lazily. */
  function LazyTag(a: string, g: string): Pattern {
    [Lit(a), Dots(0, true), Lit(g)]
  }

  /** `(<AbstractText.*>.+</AbstractText>)` (index.js:58). */
  const AbstractPattern: Pattern := GreedyElement("<AbstractText", ">", "</AbstractText>")

  /** `/<AbstractText.*?>/g`, removed from the abstract. */
  const AbstractOpenTag: Pattern := LazyTag("<AbstractText", ">")

  /** `</AbstractText>`, each one replaced by a space. */
  const AbstractClose := "</AbstractText>"

  const DoiOpen := "<ArticleId IdType=\"doi\">"
  const DoiClose := "</ArticleId>"

  /* ---------------------------------------------------------------------------------- */
  /* The article blocks                                                                  */
  /* ---------------------------------------------------------------------------------- */

  /**
   * The matches of the global regex `<PubmedArticle>.+?</PubmedArticle>` (index.js:43)
   * over the reply with its newlines removed; the whole match is the block.
   */
  function ArticleMatches(data: string): seq<Match> {
    MatchAll(StripNewlines(data), Between(ArticleOpen, ArticleClose), 0)
  }

  /** The text of each article block, in document order (`article[0]`). */
  function Articles(data: string): (blocks: seq<string>)
    ensures |blocks| == |ArticleMatches(data)|
  {
    var text := StripNewlines(data);
    var ms := ArticleMatches(data);
    seq(|ms|, i requires 0 <= i < |ms| => Matched(text, ms[i]))
  }

  /**
   * Each block is an opening tag, a non-empty body that holds no line terminator, and
   * a closing tag, and it stands in the reply at the place its match starts. The body
   * runs to the first closing tag after the opening one, so one block never spans two
   * articles.
   */
  lemma ArticleShape(data: string, i: nat)
    requires i < |Articles(data)|
    ensures var m := ArticleMatches(data)[i];
      exists body :: body != "" && Articles(data)[i] == ArticleOpen + body + ArticleClose &&
        Encloses(StripNewlines(data), m.start, ArticleOpen, body, ArticleClose) &&
        ShortestAt(StripNewlines(data), m.start, ArticleOpen, body, ArticleClose)
  {
    var text := StripNewlines(data);
    var body := BetweenBlock(text, ArticleOpen, ArticleClose, 0, i);
    assert Articles(data)[i] == Matched(text, ArticleMatches(data)[i]);
  }

  /** Blocks come in document order and do not overlap. */
  lemma ArticlesOrdered(data: string, i: nat, j: nat)
    requires i < j < |ArticleMatches(data)|
    ensures End(ArticleMatches(data)[i]) <= ArticleMatches(data)[j].start
    decreases j - i
  {
    MatchAllMatches(StripNewlines(data), Between(ArticleOpen, ArticleClose), 0);
    if i + 1 < j {
      ArticlesOrdered(data, i + 1, j);
    }
  }

  /** No block is skipped: any enclosed article lies inside one of the blocks found. */
  lemma ArticlesCover(data: string, q: nat, body: string)
    requires Encloses(StripNewlines(data), q, ArticleOpen, body, ArticleClose)
    ensures exists i :: 0 <= i < |ArticleMatches(data)| &&
              ArticleMatches(data)[i].start <= q < End(ArticleMatches(data)[i])
  {
    var ms := MatchAll(StripNewlines(data), Between(ArticleOpen, ArticleClose), 0);
    assert ms == ArticleMatches(data);
    BetweenCovered(StripNewlines(data), ArticleOpen, ArticleClose, q, body);
    var i :| 0 <= i < |ms| && ms[i].start <= q < End(ms[i]);
  }

  /** There are no blocks exactly when the reply holds no enclosed article. */
  lemma NoArticles(data: string)
    ensures Articles(data) == [] <==>
              forall q: nat, body :: !Encloses(StripNewlines(data), q, ArticleOpen, body, ArticleClose)
  {
    if Articles(data) != [] {
      ArticleShape(data, 0);
    } else {
      forall q: nat, body | Encloses(StripNewlines(data), q, ArticleOpen, body, ArticleClose)
        ensures false
      {
        ArticlesCover(data, q, body);
      }
    }
  }

  /* ---------------------------------------------------------------------------------- */
  /* The fields of one block                                                             */
  /* ---------------------------------------------------------------------------------- */

  /** `n[1] + ", " + n[2]` for each author match, in document order. */
  function AuthorNames(article: string): (names: seq<string>)
    ensures |names| == |MatchAll(article, AuthorPattern, 0)|
  {
    var ms := MatchAll(article, AuthorPattern, 0);
    seq(|ms|, i requires 0 <= i < |ms| => Capture(article, ms[i], 1) + ", " + Capture(article, ms[i], 5))
  }

  /** The authors line: the names joined with "; ". */
  function AuthorsText(article: string): string {
    Join(AuthorNames(article), "; ")
  }

  /** A date token: the group of the first match of a date pattern. */
  function DatePart(article: string, pat: Pattern): (r: Option<string>)
    requires |pat| == 7 && pat[3].Dots? && pat[3].min == 1
    ensures r.Some? ==> r.value != ""
  {
    match SearchFrom(article, pat, 0)
    case None => None
    case Some(m) =>
      CaptureFits(article, pat, m.start, m.ends, 3);
      Some(Capture(article, m, 3))
  }

  /** The publication day goes through `parseFloat` (index.js:50). */
  function PubDay(article: string): Option<string> {
    match DatePart(article, DatePattern(PubOpen, "Day", PubClose))
    case None => None
    case Some(d) => Some(DayText(d))
  }

  /** index.js:48-51. */
  function PublicationDate(article: string): string {
    FormatDate(PubDay(article),
               DatePart(article, DatePattern(PubOpen, "Month", PubClose)),
               DatePart(article, DatePattern(PubOpen, "Year", PubClose)))
  }

  /** index.js:53-56: the same rule, but the day is taken as written. */
  function PubMedDate(article: string): string {
    FormatDate(DatePart(article, DatePattern(PubMedOpen, "Day", PubMedClose)),
               DatePart(article, DatePattern(PubMedOpen, "Month", PubMedClose)),
               DatePart(article, DatePattern(PubMedOpen, "Year", PubMedClose)))
  }

  /** index.js:58: the abstract elements with their opening tags removed and each closing tag turned into a space. */
  function AbstractText(article: string): string {
    match SearchFrom(article, AbstractPattern, 0)
    case None => ""
    case Some(m) =>
      var whole := Matched(article, m);
      var bare := ReplaceAll(whole, AbstractOpenTag, "", 0);
      ReplaceAll(bare, [Lit(AbstractClose)], " ", 0)
  }

  /** How the value of one field is read from a block. */
  datatype Extractor =
    | Element(open: string, close: string)  // the first `open(.+?)close`, or ""
    | AuthorList                            // the author names joined with "; "
    | PublishedOn                           // the publication date
    | AddedOn                               // the date the article was added to PubMed
    | AbstractBlocks                        // the abstract, tags removed
    | DoiLink                               // the DOI resolver address

  /** The extractor of each field, in the order of FieldNames (index.js:45-60). */
  const Extractors: seq<Extractor> :=
    [Element("<ArticleTitle>", "</ArticleTitle>"), AuthorList, Element("<Title>", "</Title>"),
     PublishedOn, AddedOn, AbstractBlocks, DoiLink]

  function Extract(e: Extractor, article: string): string {
    match e
    case Element(open, close) => FieldText(article, open, close)
    case AuthorList => AuthorsText(article)
    case PublishedOn => PublicationDate(article)
    case AddedOn => PubMedDate(article)
    case AbstractBlocks => AbstractText(article)
    case DoiLink => DoiPrefix + FieldText(article, DoiOpen, DoiClose)
  }

  /** index.js:45-60: the seven fields of one block, each name with its value. */
  function Summarize(article: string): (fields: seq<Field>)
    ensures |fields| == |FieldNames|
    ensures forall i :: 0 <= i < |fields| ==> fields[i].name == FieldNames[i]
    ensures DoiPrefix <= fields[6].value
  {
    seq(|FieldNames|, i requires 0 <= i < |FieldNames| => Field(FieldNames[i], Extract(Extractors[i], article)))
  }

  /* ---------------------------------------------------------------------------------- */
  /* What each field holds                                                               */
  /* ---------------------------------------------------------------------------------- */

  /** The title is "" exactly when the block has no `<ArticleTitle>` element, else the first one's text. */
  lemma TitleField(article: string)
    ensures Summarize(article)[0].value == "" <==>
              forall i: nat, v :: !Encloses(article, i, "<ArticleTitle>", v, "</ArticleTitle>")
    ensures Summarize(article)[0].value != "" ==>
              exists i: nat :: IsFirstEnclosure(article, "<ArticleTitle>", "</ArticleTitle>", i, Summarize(article)[0].value)
  {
    assert Summarize(article)[0].value == FieldText(article, "<ArticleTitle>", "</ArticleTitle>");
    FieldTextSpec(article, "<ArticleTitle>", "</ArticleTitle>");
  }

  /** The journal is "" exactly when the block has no `<Title>` element, else the first one's text. */
  lemma JournalField(article: string)
    ensures Summarize(article)[2].value == "" <==>
              forall i: nat, v :: !Encloses(article, i, "<Title>", v, "</Title>")
    ensures Summarize(article)[2].value != "" ==>
              exists i: nat :: IsFirstEnclosure(article, "<Title>", "</Title>", i, Summarize(article)[2].value)
  {
    assert Summarize(article)[2].value == FieldText(article, "<Title>", "</Title>");
    FieldTextSpec(article, "<Title>", "</Title>");
  }

  /**
   * The link is the bare resolver address exactly when the block has no DOI, and
   * otherwise the address followed by the first DOI.
   */
  lemma LinkField(article: string)
    ensures Summarize(article)[6].value == DoiPrefix <==>
              forall i: nat, v :: !Encloses(article, i, DoiOpen, v, DoiClose)
    ensures Summarize(article)[6].value != DoiPrefix ==>
              exists i: nat :: IsFirstEnclosure(article, DoiOpen, DoiClose, i, Summarize(article)[6].value[|DoiPrefix|..])
  {
    var doi := FieldText(article, DoiOpen, DoiClose);
    assert Summarize(article)[6].value == DoiPrefix + doi;
    assert (DoiPrefix + doi)[|DoiPrefix|..] == doi;
    FieldTextSpec(article, DoiOpen, DoiClose);
  }

  /** `.` matches every character of t. */
  predicate NoBreak(t: string) {
    forall k :: 0 <= k < |t| ==> !IsLineTerminator(t[k])
  }

  /** A run of the pair pattern can stop at any earlier place and still be matched by `.`. */
  lemma PairPieces(s: string, pat: Pattern, q: nat, e: seq<nat>)
    requires |pat| == 7 && Fits(s, pat, q, e)
    ensures forall i :: 0 <= i < 7 ==> PieceFits(s, pat[i], PieceStart(Match(q, e), i), e[i])
    ensures q <= e[0] <= e[1] <= e[2] <= e[3] <= e[4] <= e[5] <= e[6] <= |s|
  {
    forall i | 0 <= i < 7 ensures PieceFits(s, pat[i], PieceStart(Match(q, e), i), e[i]) {
      FitsPiece(s, pat, q, e, i);
    }
    FitsOrdered(s, pat, q, e);
  }

  /** The pair pattern also fits with its first group ended at an earlier occurrence of b. */
  lemma PairFirstMoved(s: string, q: nat, a: string, b: string, c: string, d: string, e: seq<nat>, x: nat)
    requires Fits(s, PairPattern(a, b, c, d), q, e) && NoBreak(b)
    requires e[0] < x < e[1] && OccursAt(s, x, b)
    ensures Fits(s, PairPattern(a, b, c, d), q, [e[0], x, x + |b|, e[3], e[4], e[5], e[6]])
  {
    var pat := PairPattern(a, b, c, d);
    SevenPieces(s, pat, q, e);
    var o := [e[0], x, x + |b|, e[3], e[4], e[5], e[6]];
    forall k | x + |b| <= k < e[3] ensures !IsLineTerminator(s[k]) {
      if e[1] <= k < e[2] {
        CharAt(s, e[1], b, k - e[1]);
      }
    }
    FitsSeven(s, pat, q, o);
  }

  /** No b starts strictly inside the first group. */
  lemma PairFirstCloseAt(s: string, q: nat, a: string, b: string, c: string, d: string, e: seq<nat>, x: int)
    requires q <= |s| && MatchAt(s, PairPattern(a, b, c, d), q) == Some(e) && NoBreak(b)
    requires e[0] < x < e[1]
    ensures !OccursAt(s, x, b)
  {
    var pat := PairPattern(a, b, c, d);
    if OccursAt(s, x, b) {
      PairFirstMoved(s, q, a, b, c, d, e, x);
      var o := [e[0], x, x + |b|, e[3], e[4], e[5], e[6]];
      LaterNotTriedFirst(pat, e, o, 1);
      MatchAtFirst(s, pat, q, o);
    }
  }

  /** The first group of the pair pattern runs to the first b after the opening a. */
  lemma PairFirstClose(s: string, q: nat, a: string, b: string, c: string, d: string, e: seq<nat>)
    requires q <= |s| && MatchAt(s, PairPattern(a, b, c, d), q) == Some(e) && NoBreak(b)
    ensures forall x :: e[0] < x < e[1] ==> !OccursAt(s, x, b)
  {
    forall x | e[0] < x < e[1] ensures !OccursAt(s, x, b) {
      PairFirstCloseAt(s, q, a, b, c, d, e, x);
    }
  }

  /** The pair pattern also fits with its second element moved to a complete c + v + d inside the middle run. */
  lemma PairSecondMoved(s: string, q: nat, a: string, b: string, c: string, d: string, e: seq<nat>, x: nat, v: string)
    requires Fits(s, PairPattern(a, b, c, d), q, e)
    requires e[2] <= x < e[3] && Encloses(s, x, c, v, d)
    ensures Fits(s, PairPattern(a, b, c, d), q, e[..3] + [x, x + |c|, x + |c| + |v|, x + |c| + |v| + |d|])
  {
    var pat := PairPattern(a, b, c, d);
    SevenPieces(s, pat, q, e);
    OccursSplit(s, x, c + v, d);
    OccursSplit(s, x, c, v);
    var x1 := x + |c|;
    var x2 := x1 + |v|;
    var x3 := x2 + |d|;
    OccursDots(s, x1, v);
    var o := [e[0], e[1], e[2], x, x1, x2, x3];
    assert o == e[..3] + [x, x + |c|, x + |c| + |v|, x + |c| + |v| + |d|];
    FitsSeven(s, pat, q, o);
  }

  /** No complete c(.+?)d element starts in the run between the two groups. */
  lemma PairFirstSecondAt(s: string, q: nat, a: string, b: string, c: string, d: string, e: seq<nat>, x: nat, v: string)
    requires q <= |s| && MatchAt(s, PairPattern(a, b, c, d), q) == Some(e)
    requires e[2] <= x < e[3]
    ensures !Encloses(s, x, c, v, d)
  {
    var pat := PairPattern(a, b, c, d);
    if Encloses(s, x, c, v, d) {
      PairSecondMoved(s, q, a, b, c, d, e, x, v);
      var o := e[..3] + [x, x + |c|, x + |c| + |v|, x + |c| + |v| + |d|];
      assert e[..3] == o[..3];
      LaterNotTriedFirst(pat, e, o, 3);
      MatchAtFirst(s, pat, q, o);
    }
  }

  /** The second element is the first complete `c(.+?)d` after the first element. */
  lemma PairFirstSecond(s: string, q: nat, a: string, b: string, c: string, d: string, e: seq<nat>)
    requires q <= |s| && MatchAt(s, PairPattern(a, b, c, d), q) == Some(e)
    ensures forall x, v :: e[2] <= x < e[3] ==> !Encloses(s, x, c, v, d)
  {
    forall x, v | e[2] <= x < e[3] ensures !Encloses(s, x, c, v, d) {
      PairFirstSecondAt(s, q, a, b, c, d, e, x, v);
    }
  }

  /** No d starts strictly inside the second group. */
  lemma PairSecondCloseAt(s: string, q: nat, a: string, b: string, c: string, d: string, e: seq<nat>, x: int)
    requires q <= |s| && MatchAt(s, PairPattern(a, b, c, d), q) == Some(e)
    requires e[4] < x < e[5]
    ensures !OccursAt(s, x, d)
  {
    var pat := PairPattern(a, b, c, d);
    PairPieces(s, pat, q, e);
    if OccursAt(s, x, d) {
      var o := e[..5] + [x, x + |d|];
      var m := Match(q, o);
      assert PieceFits(s, pat[0], PieceStart(m, 0), o[0]);
      assert PieceFits(s, pat[1], PieceStart(m, 1), o[1]);
      assert PieceFits(s, pat[2], PieceStart(m, 2), o[2]);
      assert PieceFits(s, pat[3], PieceStart(m, 3), o[3]);
      assert PieceFits(s, pat[4], PieceStart(m, 4), o[4]);
      assert PieceFits(s, pat[5], PieceStart(m, 5), o[5]);
      assert PieceFits(s, pat[6], PieceStart(m, 6), o[6]);
      FitsFromPieces(s, pat, q, o);
      assert e[..5] == o[..5];
      LaterNotTriedFirst(pat, e, o, 5);
      MatchAtFirst(s, pat, q, o);
    }
  }

  /** The second group of the pair pattern runs to the first d after c. */
  lemma PairSecondClose(s: string, q: nat, a: string, b: string, c: string, d: string, e: seq<nat>)
    requires q <= |s| && MatchAt(s, PairPattern(a, b, c, d), q) == Some(e)
    ensures forall x :: e[4] < x < e[5] ==> !OccursAt(s, x, d)
  {
    forall x | e[4] < x < e[5] ensures !OccursAt(s, x, d) {
      PairSecondCloseAt(s, q, a, b, c, d, e, x);
    }
  }

  /** The names and initials of an author match, and where their elements stand in the block. */
  lemma AuthorMatch(article: string, q: nat, e: seq<nat>)
    requires Fits(article, AuthorPattern, q, e)
    ensures var last := Capture(article, Match(q, e), 1);
            var initials := Capture(article, Match(q, e), 5);
      && last != "" && initials != ""
      && OccursAt(article, q, "<LastName>" + last + "</LastName>")
      && OccursAt(article, e[3], "<Initials>" + initials + "</Initials>")
      && q + |"<LastName>" + last + "</LastName>"| <= e[3]
  {
    ElementFits(article, AuthorPattern, q, e, 0);
    ElementFits(article, AuthorPattern, q, e, 4);
    FitsOrdered(article, AuthorPattern, q, e);
    assert PieceStart(Match(q, e), 4) == e[3];
  }

  /** No complete `open(.+?)close` element starts at a position in [from, to). */
  ghost predicate NoElementIn(s: string, from: nat, to: nat, open: string, close: string) {
    forall x: nat, v :: from <= x < to ==> !Encloses(s, x, open, v, close)
  }

  lemma ClosingTagsUnbroken()
    ensures NoBreak("</LastName>") && NoBreak("</Initials>")
  {
  }

  /**
   * A match of the pair pattern: x runs to the first b after a, the second element is
   * the first complete c(.+?)d after it, and y runs to the first d after c.
   */
  lemma PairMatchShape(s: string, q: nat, a: string, b: string, c: string, d: string, e: seq<nat>)
    requires q <= |s| && MatchAt(s, PairPattern(a, b, c, d), q) == Some(e) && NoBreak(b)
    ensures var x := Capture(s, Match(q, e), 1);
            var y := Capture(s, Match(q, e), 5);
      && x != "" && y != ""
      && ShortestAt(s, q, a, x, b)
      && |e| == 7 && q + |a + x + b| <= e[3]
      && NoElementIn(s, q + |a + x + b|, e[3], c, d)
      && ShortestAt(s, e[3], c, y, d)
  {
    var pat := PairPattern(a, b, c, d);
    PairPieces(s, pat, q, e);
    ElementFits(s, pat, q, e, 0);
    ElementFits(s, pat, q, e, 4);
    PairFirstClose(s, q, a, b, c, d, e);
    PairFirstSecond(s, q, a, b, c, d, e);
    PairSecondClose(s, q, a, b, c, d, e);
    var x, y := Capture(s, Match(q, e), 1), Capture(s, Match(q, e), 5);
    assert q + |a| == e[0] && e[0] + |x| == e[1] && e[1] + |b| == e[2];
    assert PieceStart(Match(q, e), 4) == e[3];
    assert e[3] + |c| == e[4] && e[4] + |y| == e[5];
  }

  /**
   * Each author entry is `last, initials` for the i-th `<LastName>` element the global
   * search meets, last running to the first `</LastName>`, and for the first complete
   * `<Initials>` element after it, initials running to the first `</Initials>`. The
   * entries come in document order and do not overlap.
   */
  lemma AuthorNameShape(article: string, i: nat)
    requires i < |AuthorNames(article)|
    ensures var ms := MatchAll(article, AuthorPattern, 0);
            var last := Capture(article, ms[i], 1);
            var initials := Capture(article, ms[i], 5);
            var afterLast := ms[i].start + |"<LastName>" + last + "</LastName>"|;
      && AuthorNames(article)[i] == last + ", " + initials && last != "" && initials != ""
      && ShortestAt(article, ms[i].start, "<LastName>", last, "</LastName>")
      && |ms[i].ends| == 7 && afterLast <= ms[i].ends[3]
      && NoElementIn(article, afterLast, ms[i].ends[3], "<Initials>", "</Initials>")
      && ShortestAt(article, ms[i].ends[3], "<Initials>", initials, "</Initials>")
      && (0 < i ==> End(ms[i - 1]) <= ms[i].start)
  {
    var ms := MatchAll(article, AuthorPattern, 0);
    MatchAllMatches(article, AuthorPattern, 0);
    MatchAllMatchAt(article, AuthorPattern, 0, i);
    ClosingTagsUnbroken();
    PairMatchShape(article, ms[i].start, "<LastName>", "</LastName>", "<Initials>", "</Initials>", ms[i].ends);
    assert AuthorNames(article)[i] == Capture(article, ms[i], 1) + ", " + Capture(article, ms[i], 5);
  }

  /** Each author entry holds at least its ", " separator, so the line is "" only without entries. */
  lemma AuthorsTextEmpty(article: string)
    ensures AuthorsText(article) == "" <==> MatchAll(article, AuthorPattern, 0) == []
  {
    var names := AuthorNames(article);
    if names != [] {
      var m := MatchAll(article, AuthorPattern, 0)[0];
      assert names[0] == Capture(article, m, 1) + ", " + Capture(article, m, 5);
      assert |names[0]| >= 2;
    }
  }

  /** The authors line is "" exactly when no author entry matches anywhere in the block. */
  lemma AuthorsField(article: string)
    ensures Summarize(article)[1].value == "" <==>
              Nowhere(article, AuthorPattern)
  {
    assert Summarize(article)[1].value == AuthorsText(article);
    AuthorsTextEmpty(article);
    MatchAllNone(article, AuthorPattern);
  }

  /** A date token is missing exactly when its pattern matches nowhere in the block. */
  lemma DatePartFound(article: string, pat: Pattern)
    requires |pat| == 7 && pat[3].Dots? && pat[3].min == 1
    ensures DatePart(article, pat).None? <==> Nowhere(article, pat)
  {
    SearchFromNone(article, pat, 0);
  }

  /** The publication date is "" exactly when the block has none of its day, month and year. */
  lemma PublicationDateField(article: string)
    ensures Summarize(article)[3].value == "" <==>
              && DatePart(article, DatePattern(PubOpen, "Day", PubClose)).None?
              && DatePart(article, DatePattern(PubOpen, "Month", PubClose)).None?
              && DatePart(article, DatePattern(PubOpen, "Year", PubClose)).None?
  {
    assert Summarize(article)[3].value == PublicationDate(article);
    var day := PubDay(article);
    var month := DatePart(article, DatePattern(PubOpen, "Month", PubClose));
    var year := DatePart(article, DatePattern(PubOpen, "Year", PubClose));
    FormatDateEmpty(day, month, year);
    if day.Some? {
      assert day.value != "";
    }
  }

  /** The same for the date the article was added to PubMed. */
  lemma PubMedDateField(article: string)
    ensures Summarize(article)[4].value == "" <==>
              && DatePart(article, DatePattern(PubMedOpen, "Day", PubMedClose)).None?
              && DatePart(article, DatePattern(PubMedOpen, "Month", PubMedClose)).None?
              && DatePart(article, DatePattern(PubMedOpen, "Year", PubMedClose)).None?
  {
    assert Summarize(article)[4].value == PubMedDate(article);
    FormatDateEmpty(DatePart(article, DatePattern(PubMedOpen, "Day", PubMedClose)),
                    DatePart(article, DatePattern(PubMedOpen, "Month", PubMedClose)),
                    DatePart(article, DatePattern(PubMedOpen, "Year", PubMedClose)));
  }

  /** A space is not a character of the closing tag. */
  lemma SpaceNotInClose()
    ensures forall c :: c in " " ==> c !in AbstractClose
  {
    forall c | c in " " ensures c !in AbstractClose {
      assert c == ' ';
      assert forall k :: 0 <= k < |AbstractClose| ==> AbstractClose[k] != ' ';
    }
  }

  /** The abstract holds no closing `</AbstractText>` tag: each one became a space. */
  lemma AbstractHasNoClose(article: string)
    ensures Absent(AbstractText(article), AbstractClose)
  {
    match SearchFrom(article, AbstractPattern, 0)
    case None =>
    case Some(m) =>
      var bare := ReplaceAll(Matched(article, m), AbstractOpenTag, "", 0);
      SpaceNotInClose();
      ReplaceLiteralRemovesAll(bare, AbstractClose, " ", 0);
  }

  /** The abstract is "" when the block has no abstract element. */
  lemma AbstractMissing(article: string)
    requires Nowhere(article, AbstractPattern)
    ensures AbstractText(article) == ""
  {
    SearchFromNone(article, AbstractPattern, 0);
  }

  /**
   * The abstract field holds no closing tag, and is "" when the block has no
   * abstract element.
   */
  lemma AbstractField(article: string)
    ensures Absent(Summarize(article)[5].value, AbstractClose)
    ensures Nowhere(article, AbstractPattern) ==>
              Summarize(article)[5].value == ""
  {
    assert Summarize(article)[5].value == AbstractText(article);
    AbstractHasNoClose(article);
    if Nowhere(article, AbstractPattern) {
      AbstractMissing(article);
    }
  }

  /* ---------------------------------------------------------------------------------- */
  /* Blocks built from known values                                                      */
  /* ---------------------------------------------------------------------------------- */

  /** No character of an occurrence of a token is a `<`. */
  lemma TokenNoTag(s: string, k: nat, t: string, i: nat)
    requires OccursAt(s, k, t) && Token(t) && k <= i < k + |t|
    ensures s[i] != '<'
  {
    CharAt(s, k, t, i - k);
  }

  /** The piece ends of `a(.+?)b.*?c(.+?)d` over the text `a + x + b + c + y + d` at q. */
  function PairEnds(q: nat, a: string, x: string, b: string, c: string, y: string, d: string): seq<nat> {
    [q + |a|, q + |a| + |x|, q + |a + x + b|, q + |a + x + b|, q + |a + x + b + c|,
     q + |a + x + b + c| + |y|, q + |a + x + b + c + y + d|]
  }

  /** Any other match of the pair pattern at q ends each lazy run no earlier. */
  lemma PairDominates(s: string, q: nat, a: string, x: string, b: string, c: string, y: string, d: string, o: seq<nat>)
    requires b != "" && d != "" && b[0] == '<' && d[0] == '<' && Token(x) && Token(y)
    requires OccursAt(s, q + |a|, x) && OccursAt(s, q + |a + x + b + c|, y)
    requires Fits(s, PairPattern(a, b, c, d), q, o)
    ensures Dominates(PairPattern(a, b, c, d), PairEnds(q, a, x, b, c, y, d), o)
  {
    var pat := PairPattern(a, b, c, d);
    var e := PairEnds(q, a, x, b, c, y, d);
    SevenPieces(s, pat, q, o);
    assert s[o[1]] == b[0] by { CharAt(s, o[1], b, 0); }
    if o[1] < e[1] {
      TokenNoTag(s, q + |a|, x, o[1]);
    }
    assert s[o[5]] == d[0] by { CharAt(s, o[5], d, 0); }
    if o[5] < e[5] {
      TokenNoTag(s, q + |a + x + b + c|, y, o[5]);
    }
  }

  /** The pair pattern fits `a + x + b + c + y + d` where it stands, x and y taken by its runs. */
  lemma PairFits(s: string, q: nat, a: string, x: string, b: string, c: string, y: string, d: string)
    requires Token(x) && Token(y) && OccursAt(s, q, a + x + b + c + y + d)
    ensures OccursAt(s, q + |a|, x) && OccursAt(s, q + |a + x + b + c|, y)
    ensures Fits(s, PairPattern(a, b, c, d), q, PairEnds(q, a, x, b, c, y, d))
  {
    var pat := PairPattern(a, b, c, d);
    var e := PairEnds(q, a, x, b, c, y, d);
    var m := Match(q, e);
    OccursSplit(s, q, a + x + b + c + y, d);
    OccursSplit(s, q, a + x + b + c, y);
    OccursSplit(s, q, a + x + b, c);
    OccursSplit(s, q, a + x, b);
    OccursSplit(s, q, a, x);
    OccursDots(s, e[0], x);
    OccursDots(s, e[4], y);
    assert PieceFits(s, pat[0], PieceStart(m, 0), e[0]);
    assert PieceFits(s, pat[1], PieceStart(m, 1), e[1]);
    assert PieceFits(s, pat[2], PieceStart(m, 2), e[2]);
    assert PieceFits(s, pat[3], PieceStart(m, 3), e[3]);
    assert PieceFits(s, pat[4], PieceStart(m, 4), e[4]);
    assert PieceFits(s, pat[5], PieceStart(m, 5), e[5]);
    assert PieceFits(s, pat[6], PieceStart(m, 6), e[6]);
    FitsFromPieces(s, pat, q, e);
  }

  /**
   * Where `a + x + b + c + y + d` stands at q, with x and y tokens and b and d tags, the
   * search from q matches exactly that text and captures x and y.
   */
  lemma PairMatch(s: string, q: nat, a: string, x: string, b: string, c: string, y: string, d: string)
    requires a != "" && b != "" && d != "" && b[0] == '<' && d[0] == '<' && Token(x) && Token(y)
    requires OccursAt(s, q, a + x + b + c + y + d)
    ensures var m := Match(q, PairEnds(q, a, x, b, c, y, d));
      && SearchFrom(s, PairPattern(a, b, c, d), q) == Some(m)
      && Capture(s, m, 1) == x && Capture(s, m, 5) == y
      && End(m) == q + |a + x + b + c + y + d|
  {
    var pat := PairPattern(a, b, c, d);
    var e := PairEnds(q, a, x, b, c, y, d);
    PairFits(s, q, a, x, b, c, y, d);
    forall o | Fits(s, pat, q, o) ensures Dominates(pat, e, o) {
      PairDominates(s, q, a, x, b, c, y, d, o);
    }
    DominantIsMatchAt(s, pat, q, e);
  }

  /** An author as the `<LastName>` and `<Initials>` elements of a block give it. */
  datatype Author = Author(last: string, initials: string)

  /** `last, initials`, as index.js:46 writes an author. */
  function AuthorName(au: Author): string {
    au.last + ", " + au.initials
  }

  /** The elements of a list of authors, each `a + last + b + c + initials + d`, in order. */
  function PairsXml(a: string, b: string, c: string, d: string, aus: seq<Author>): string {
    if aus == [] then "" else a + aus[0].last + b + c + aus[0].initials + d + PairsXml(a, b, c, d, aus[1..])
  }

  /** The `<LastName>` and `<Initials>` elements of a list of authors. */
  function AuthorsXml(aus: seq<Author>): string {
    PairsXml("<LastName>", "</LastName>", "<Initials>", "</Initials>", aus)
  }

  predicate AllTokens(aus: seq<Author>) {
    forall i :: 0 <= i < |aus| ==> Token(aus[i].last) && Token(aus[i].initials)
  }

  /** The opening text a occurs nowhere in s from k0 on. */
  predicate NoTagFrom(s: string, k0: nat, a: string) {
    forall k :: k0 <= k <= |s| ==> !OccursAt(s, k, a)
  }

  /** Match i captures the last name and the initials of author i, for every author. */
  predicate CapturesAll(s: string, ms: seq<Match>, aus: seq<Author>) {
    |ms| == |aus| &&
    forall i :: 0 <= i < |aus| ==> Capture(s, ms[i], 1) == aus[i].last && Capture(s, ms[i], 5) == aus[i].initials
  }

  lemma CapturesCons(s: string, ms: seq<Match>, tail: seq<Match>, aus: seq<Author>)
    requires ms != [] && aus != [] && ms[1..] == tail && CapturesAll(s, tail, aus[1..])
    requires Capture(s, ms[0], 1) == aus[0].last && Capture(s, ms[0], 5) == aus[0].initials
    ensures CapturesAll(s, ms, aus)
  {
    forall i | 0 < i < |aus|
      ensures Capture(s, ms[i], 1) == aus[i].last && Capture(s, ms[i], 5) == aus[i].initials
    {
      assert ms[i] == ms[1..][i - 1] && aus[i] == aus[1..][i - 1];
    }
  }

  lemma AllTokensTail(aus: seq<Author>)
    requires aus != [] && AllTokens(aus)
    ensures AllTokens(aus[1..])
  {
    forall i | 0 <= i < |aus[1..]| ensures Token(aus[1..][i].last) && Token(aus[1..][i].initials) {
      assert aus[1..][i] == aus[i + 1];
    }
  }

  /**
   * From where the elements of a list of authors begin, with no further opening tag a
   * after them, the pair pattern matches once per author, capturing its two values.
   */
  lemma {:induction false} PairsFrom(s: string, p: nat, a: string, b: string, c: string, d: string, aus: seq<Author>)
    requires a != "" && b != "" && d != "" && b[0] == '<' && d[0] == '<'
    requires AllTokens(aus) && OccursAt(s, p, PairsXml(a, b, c, d, aus))
    requires NoTagFrom(s, p + |PairsXml(a, b, c, d, aus)|, a)
    ensures CapturesAll(s, MatchAll(s, PairPattern(a, b, c, d), p), aus)
    decreases |aus|
  {
    var pat := PairPattern(a, b, c, d);
    if aus == [] {
      SearchFromAbsent(s, pat, p);
    } else {
      var next := PairsHead(s, p, a, b, c, d, aus);
      var ms, tail := MatchAll(s, pat, p), MatchAll(s, pat, next);
      AllTokensTail(aus);
      PairsFrom(s, next, a, b, c, d, aus[1..]);
      CapturesCons(s, ms, tail, aus);
    }
  }

  /** The first author of the list gives the first match, and the search goes on after its elements. */
  lemma PairsHead(s: string, p: nat, a: string, b: string, c: string, d: string, aus: seq<Author>) returns (next: nat)
    requires a != "" && b != "" && d != "" && b[0] == '<' && d[0] == '<'
    requires aus != [] && Token(aus[0].last) && Token(aus[0].initials) && OccursAt(s, p, PairsXml(a, b, c, d, aus))
    ensures var ms := MatchAll(s, PairPattern(a, b, c, d), p);
      && OccursAt(s, next, PairsXml(a, b, c, d, aus[1..]))
      && next + |PairsXml(a, b, c, d, aus[1..])| == p + |PairsXml(a, b, c, d, aus)|
      && ms != [] && ms[1..] == MatchAll(s, PairPattern(a, b, c, d), next)
      && Capture(s, ms[0], 1) == aus[0].last && Capture(s, ms[0], 5) == aus[0].initials
  {
    var au := aus[0];
    next := p + |a + au.last + b + c + au.initials + d|;
    PairsSplit(s, p, a, b, c, d, aus);
    PairMatch(s, p, a, au.last, b, c, au.initials, d);
    var m := Match(p, PairEnds(p, a, au.last, b, c, au.initials, d));
    assert End(m) == next;
    MatchAllHead(s, PairPattern(a, b, c, d), p, m);
  }

  /** The first author's elements stand at p, and the other authors' elements right after them. */
  lemma PairsSplit(s: string, p: nat, a: string, b: string, c: string, d: string, aus: seq<Author>)
    requires aus != [] && OccursAt(s, p, PairsXml(a, b, c, d, aus))
    ensures var one := a + aus[0].last + b + c + aus[0].initials + d;
      && OccursAt(s, p, one) && OccursAt(s, p + |one|, PairsXml(a, b, c, d, aus[1..]))
      && p + |one| + |PairsXml(a, b, c, d, aus[1..])| == p + |PairsXml(a, b, c, d, aus)|
  {
    var one := a + aus[0].last + b + c + aus[0].initials + d;
    assert PairsXml(a, b, c, d, aus) == one + PairsXml(a, b, c, d, aus[1..]);
    OccursSplit(s, p, one, PairsXml(a, b, c, d, aus[1..]));
  }

  /** The values the pair pattern captures in a block built from a list of authors. */
  lemma PairsRoundTrip(pre: string, a: string, b: string, c: string, d: string, aus: seq<Author>, post: string)
    requires a != "" && b != "" && d != "" && b[0] == '<' && d[0] == '<' && AllTokens(aus)
    requires forall k :: 0 <= k < |pre| ==> !OccursAt(pre + PairsXml(a, b, c, d, aus) + post, k, a)
    requires Absent(post, a)
    ensures var s := pre + PairsXml(a, b, c, d, aus) + post;
      CapturesAll(s, MatchAll(s, PairPattern(a, b, c, d), 0), aus)
  {
    var xml := PairsXml(a, b, c, d, aus);
    var s := pre + xml + post;
    var stop := |pre| + |xml|;
    var pat := PairPattern(a, b, c, d);
    assert s[|pre|..stop] == xml;
    forall k | stop <= k <= |s| ensures !OccursAt(s, k, a) {
      if k + |a| <= |s| {
        assert s[k..k + |a|] == post[k - stop..k - stop + |a|];
      }
      assert !OccursAt(post, k - stop, a);
    }
    SearchFromSkips(s, pat, 0, |pre|);
    MatchAllSkips(s, pat, 0, |pre|);
    PairsFrom(s, |pre|, a, b, c, d, aus);
  }

  /**
   * Author round trip: a block whose authors are written as `<LastName>` and
   * `<Initials>` elements holding tokens, with no other `<LastName>` before or after
   * them, gives the authors line `last, initials` for each, joined with "; ".
   */
  lemma AuthorsRoundTrip(pre: string, aus: seq<Author>, post: string)
    requires AllTokens(aus)
    requires forall k :: 0 <= k < |pre| ==> !OccursAt(pre + AuthorsXml(aus) + post, k, "<LastName>")
    requires Absent(post, "<LastName>")
    ensures AuthorsText(pre + AuthorsXml(aus) + post) ==
              Join(seq(|aus|, i requires 0 <= i < |aus| => AuthorName(aus[i])), "; ")
  {
    var s := pre + AuthorsXml(aus) + post;
    assert AuthorsXml(aus) == PairsXml("<LastName>", "</LastName>", "<Initials>", "</Initials>", aus);
    PairsRoundTrip(pre, "<LastName>", "</LastName>", "<Initials>", "</Initials>", aus, post);
    NamesOfCaptures(s, aus);
  }

  /** When the author matches capture the given authors, the names are theirs, in order. */
  lemma NamesOfCaptures(s: string, aus: seq<Author>)
    requires CapturesAll(s, MatchAll(s, AuthorPattern, 0), aus)
    ensures AuthorNames(s) == seq(|aus|, i requires 0 <= i < |aus| => AuthorName(aus[i]))
  {
    var ms := MatchAll(s, AuthorPattern, 0);
    var names := seq(|aus|, i requires 0 <= i < |aus| => AuthorName(aus[i]));
    forall i | 0 <= i < |aus| ensures AuthorNames(s)[i] == names[i] {
      assert AuthorNames(s)[i] == Capture(s, ms[i], 1) + ", " + Capture(s, ms[i], 5);
    }
  }

  /**
   * What the abstract patterns need of their tags: both tags open with `<`, no other
   * character of the closing tag is a `<`, and the closing tag differs from the
   * opening one in its second character.
   */
  predicate TagParts(a: string, g: string, c: string) {
    2 <= |a| && |g| == 1 && 2 <= |c| && a[0] == '<' && c[0] == '<' && c[1] != a[1] &&
    forall j :: 0 < j < |c| ==> c[j] != '<'
  }

  lemma AbstractTagParts()
    ensures TagParts("<AbstractText", ">", AbstractClose)
  {
  }

  /** The piece ends of `a.*g.+c` over the text a + g + t + c at q. */
  function ElementEnds(q: nat, a: string, g: string, t: string, c: string): seq<nat> {
    [q + |a|, q + |a|, q + |a + g|, q + |a + g + t|, q + |a + g + t + c|]
  }

  /** Where the pieces of a fit of `a.*g.+c` at q stand. */
  lemma GreedyElementPieces(s: string, q: nat, a: string, g: string, c: string, o: seq<nat>)
    requires Fits(s, GreedyElement(a, g, c), q, o)
    ensures |o| == 5 && o[0] == q + |a| && o[0] <= o[1] && o[2] == o[1] + |g| && o[2] < o[3]
    ensures o[4] == o[3] + |c| && OccursAt(s, o[1], g) && OccursAt(s, o[3], c)
  {
    var pat := GreedyElement(a, g, c);
    FitsPiece(s, pat, q, o, 0);
    FitsPiece(s, pat, q, o, 1);
    FitsPiece(s, pat, q, o, 2);
    FitsPiece(s, pat, q, o, 3);
    FitsPiece(s, pat, q, o, 4);
  }

  /** The only way `a.*g.+c` fits at q is over the element a + g + t + c. */
  lemma ElementOnlyFit(s: string, q: nat, a: string, g: string, t: string, c: string, o: seq<nat>)
    requires TagParts(a, g, c) && Token(t) && g[0] !in t
    requires OccursAt(s, q + |a + g|, t)
    requires forall k :: q + |a + g + t| < k <= |s| ==> !OccursAt(s, k, c)
    requires Fits(s, GreedyElement(a, g, c), q, o)
    ensures o == ElementEnds(q, a, g, t, c)
  {
    var z, y := q + |a| + |g|, q + |a| + |g| + |t|;
    GreedyElementPieces(s, q, a, g, c, o);
    forall i | z <= i < y ensures s[i] != '<' && s[i] != g[0] {
      TokenNoTag(s, z, t, i);
      CharAt(s, z, t, i - z);
      assert t[i - z] in t;
    }
    var o1, o3 := o[1], o[3];
    CharAt(s, o3, c, 0);
    assert !(z <= o3 < y);
    assert !(y < o3 <= |s|);
    CharAt(s, o1, g, 0);
    assert !(z <= o1 < y);
  }

  /** `a.*g.+c` fits the element a + g + t + c at q, the first run empty. */
  lemma GreedyElementFits(s: string, q: nat, a: string, g: string, t: string, c: string)
    requires Token(t) && OccursAt(s, q, a + g + t + c)
    ensures Fits(s, GreedyElement(a, g, c), q, ElementEnds(q, a, g, t, c))
    ensures OccursAt(s, q + |a + g|, t)
  {
    var pat, e := GreedyElement(a, g, c), ElementEnds(q, a, g, t, c);
    OccursSplit(s, q, a + g + t, c);
    OccursSplit(s, q, a + g, t);
    OccursSplit(s, q, a, g);
    OccursDots(s, q + |a + g|, t);
    var m := Match(q, e);
    assert PieceFits(s, pat[0], PieceStart(m, 0), e[0]);
    assert PieceFits(s, pat[1], PieceStart(m, 1), e[1]);
    assert PieceFits(s, pat[2], PieceStart(m, 2), e[2]);
    assert PieceFits(s, pat[3], PieceStart(m, 3), e[3]);
    assert PieceFits(s, pat[4], PieceStart(m, 4), e[4]);
    FitsFromPieces(s, pat, q, e);
  }

  /**
   * `a.*g.+c` matches the element a + g + t + c at q when t holds no markup and no g,
   * and no closing tag c follows it.
   */
  lemma ElementMatchAt(s: string, q: nat, a: string, g: string, t: string, c: string)
    requires TagParts(a, g, c) && Token(t) && g[0] !in t
    requires OccursAt(s, q, a + g + t + c)
    requires forall k :: q + |a + g + t| < k <= |s| ==> !OccursAt(s, k, c)
    ensures SearchFrom(s, GreedyElement(a, g, c), q) == Some(Match(q, ElementEnds(q, a, g, t, c)))
  {
    var pat, e := GreedyElement(a, g, c), ElementEnds(q, a, g, t, c);
    GreedyElementFits(s, q, a, g, t, c);
    forall o | Fits(s, pat, q, o) ensures Dominates(pat, e, o) {
      ElementOnlyFit(s, q, a, g, t, c, o);
    }
    DominantIsMatchAt(s, pat, q, e);
  }

  /** Removing the opening tag from a + g + t + c leaves t and the closing tag. */
  lemma OpenTagRemoved(a: string, g: string, t: string, c: string)
    requires TagParts(a, g, c) && Token(t)
    ensures ReplaceAll(a + g + t + c, LazyTag(a, g), "", 0) == t + c
  {
    var w := a + g + t + c;
    var pat, e := LazyTag(a, g), [|a|, |a|, |a + g|];
    var m := Match(0, e);
    assert w[..|a|] == a && w[|a|..|a + g|] == g;
    assert PieceFits(w, pat[0], PieceStart(m, 0), e[0]);
    assert PieceFits(w, pat[1], PieceStart(m, 1), e[1]);
    assert PieceFits(w, pat[2], PieceStart(m, 2), e[2]);
    FitsFromPieces(w, pat, 0, e);
    forall o | Fits(w, pat, 0, o) ensures Dominates(pat, e, o) {
      FitsPiece(w, pat, 0, o, 0);
      FitsOrdered(w, pat, 0, o);
    }
    DominantIsMatchAt(w, pat, 0, e);
    var z := |a + g|;
    assert w[z..] == t + c;
    assert OccursAt(w, z, t) && OccursAt(w, z + |t|, c);
    forall k: nat | z <= k <= |w| ensures !OccursAt(w, k, pat[0].text) {
      if k < z + |t| {
        TokenNoTag(w, z, t, k);
      } else if k == z + |t| {
        CharAt(w, z + |t|, c, 1);
      } else if k < |w| {
        CharAt(w, z + |t|, c, k - (z + |t|));
      }
      if k == z + |t| {
        NotOccursAtChar(w, k, a, 1);
      } else {
        NotOccursAtFirst(w, k, a);
      }
    }
    SearchFromAbsent(w, pat, z);
  }

  /** The closing tag after t becomes one space. */
  lemma CloseTagSpaced(t: string, c: string)
    requires Token(t) && c != "" && c[0] == '<'
    ensures ReplaceAll(t + c, [Lit(c)], " ", 0) == t + " "
  {
    var u := t + c;
    var pat := [Lit(c)];
    assert OccursAt(u, 0, t);
    forall k: nat | k < |t| ensures !OccursAt(u, k, pat[0].text) {
      TokenNoTag(u, 0, t, k);
      NotOccursAtFirst(u, k, c);
    }
    SearchFromSkips(u, pat, 0, |t|);
    assert u[|t|..] == c;
    var e := [|t| + |c|];
    assert PieceFits(u, pat[0], PieceStart(Match(|t|, e), 0), e[0]);
    FitsFromPieces(u, pat, |t|, e);
    forall o | Fits(u, pat, |t|, o) ensures Dominates(pat, e, o) {
    }
    DominantIsMatchAt(u, pat, |t|, e);
    SearchFromAbsent(u, pat, |u|);
    assert u[..|t|] == t;
  }

  /** A closing tag c at y followed by a text without c is the last c in s. */
  lemma NoLaterClose(s: string, y: nat, c: string, post: string)
    requires c != "" && forall j :: 0 < j < |c| ==> c[j] != c[0]
    requires OccursAt(s, y, c) && s[y + |c|..] == post && Absent(post, c)
    ensures forall k :: y < k <= |s| ==> !OccursAt(s, k, c)
  {
    forall k: nat | y < k <= |s| ensures !OccursAt(s, k, c) {
      if k < y + |c| {
        CharAt(s, y, c, k - y);
        NotOccursAtFirst(s, k, c);
      } else {
        OccursInSuffix(s, y + |c|, c, k);
      }
    }
  }

  /** The first search for `a.*g.+c` in pre + a + g + t + c + post matches exactly a + g + t + c. */
  lemma ElementFound(pre: string, a: string, g: string, t: string, c: string, post: string)
    requires TagParts(a, g, c) && Token(t) && g[0] !in t
    requires forall k :: 0 <= k < |pre| ==> !OccursAt(pre + a + g + t + c + post, k, a)
    requires Absent(post, c)
    ensures var s := pre + a + g + t + c + post;
      && SearchFrom(s, GreedyElement(a, g, c), 0).Some?
      && Matched(s, SearchFrom(s, GreedyElement(a, g, c), 0).value) == a + g + t + c
  {
    var w := a + g + t + c;
    var s := pre + a + g + t + c + post;
    assert s == pre + w + post;
    var q, y := |pre|, |pre| + |a + g + t|;
    assert s[q..q + |w|] == w;
    assert s[q + |w|..] == post;
    assert OccursAt(s, y, c) by {
      OccursSplit(s, q, a + g + t, c);
    }
    NoLaterClose(s, y, c, post);
    ElementMatchAt(s, q, a, g, t, c);
    SearchFromSkips(s, GreedyElement(a, g, c), 0, q);
  }

  /**
   * Abstract round trip: a block with one `<AbstractText>` element whose text t holds
   * no markup gives the abstract t followed by the space its closing tag became.
   */
  lemma AbstractRoundTrip(pre: string, t: string, post: string)
    requires Token(t) && '>' !in t
    requires forall k :: 0 <= k < |pre| ==>
               !OccursAt(pre + "<AbstractText>" + t + AbstractClose + post, k, "<AbstractText")
    requires Absent(post, AbstractClose)
    ensures AbstractText(pre + "<AbstractText>" + t + AbstractClose + post) == t + " "
  {
    var a, g := "<AbstractText", ">";
    assert "<AbstractText>" == a + g;
    var s := pre + a + g + t + AbstractClose + post;
    assert s == pre + "<AbstractText>" + t + AbstractClose + post;
    AbstractTagParts();
    ElementFound(pre, a, g, t, AbstractClose, post);
    OpenTagRemoved(a, g, t, AbstractClose);
    CloseTagSpaced(t, AbstractClose);
  }

  /* ---------------------------------------------------------------------------------- */
  /* Dates built from known values                                                       */
  /* ---------------------------------------------------------------------------------- */

  /** w occurs at no position in [from, to). */
  predicate AbsentIn(s: string, from: nat, to: nat, w: string) {
    forall k :: from <= k < to ==> !OccursAt(s, k, w)
  }

  /** A tag such as `<Day>` or `</PubDate>`: a `<`, then at least two characters `.` matches, none a `<`. */
  predicate TagLike(tag: string) {
    3 <= |tag| && tag[0] == '<' && NoBreak(tag) && forall i :: 1 <= i < |tag| ==> tag[i] != '<'
  }

  /** Two tags that differ in their second or third character. */
  predicate TagsDiffer(tag: string, w: string)
    requires TagLike(tag) && TagLike(w)
  {
    tag[1] != w[1] || tag[2] != w[2]
  }

  /** The tag w starts nowhere inside an occurrence of a different tag. */
  lemma TagFree(s: string, j: nat, tag: string, w: string)
    requires TagLike(tag) && TagLike(w) && TagsDiffer(tag, w) && OccursAt(s, j, tag)
    ensures AbsentIn(s, j, j + |tag|, w)
  {
    forall k | j <= k < j + |tag| ensures !OccursAt(s, k, w) {
      CharAt(s, j, tag, k - j);
      if k == j {
        CharAt(s, j, tag, 1);
        CharAt(s, j, tag, 2);
        if tag[1] != w[1] {
          NotOccursAtChar(s, k, w, 1);
        } else {
          NotOccursAtChar(s, k, w, 2);
        }
      } else {
        NotOccursAtFirst(s, k, w);
      }
    }
  }

  /** A tag starts nowhere inside an occurrence of a token. */
  lemma TokenFree(s: string, j: nat, t: string, w: string)
    requires Token(t) && TagLike(w) && OccursAt(s, j, t)
    ensures AbsentIn(s, j, j + |t|, w)
  {
    forall k | j <= k < j + |t| ensures !OccursAt(s, k, w) {
      TokenNoTag(s, j, t, k);
      NotOccursAtFirst(s, k, w);
    }
  }

  /** `<n>t</n>`: an element holding the token t. */
  function ElementXml(n: string, t: string): string {
    "<" + n + ">" + t + "</" + n + ">"
  }

  /** A tag w different from the tags o and c starts nowhere inside o + t + c, t a token. */
  lemma PartsFree(s: string, j: nat, o: string, t: string, c: string, w: string)
    requires TagLike(o) && TagLike(c) && Token(t) && TagLike(w)
    requires TagsDiffer(o, w) && TagsDiffer(c, w)
    requires OccursAt(s, j, o + t + c)
    ensures AbsentIn(s, j, j + |o + t + c|, w)
  {
    OccursSplit(s, j, o + t, c);
    OccursSplit(s, j, o, t);
    TagFree(s, j, o, w);
    TokenFree(s, j + |o|, t, w);
    TagFree(s, j + |o + t|, c, w);
  }

  /** A tag w different from both tags of an element starts nowhere inside the element. */
  lemma ElementFree(s: string, j: nat, n: string, t: string, w: string)
    requires TagLike("<" + n + ">") && TagLike("</" + n + ">") && Token(t) && TagLike(w)
    requires TagsDiffer("<" + n + ">", w) && TagsDiffer("</" + n + ">", w)
    requires OccursAt(s, j, ElementXml(n, t))
    ensures AbsentIn(s, j, j + |ElementXml(n, t)|, w)
  {
    var o, c := "<" + n + ">", "</" + n + ">";
    assert ElementXml(n, t) == o + t + c;
    PartsFree(s, j, o, t, c, w);
  }

  /** The piece ends of `open.*?u(.+?)cu.*?close` over `open + x + u + v + cu + y + close` at q. */
  function DateEnds(q: nat, open: string, x: string, u: string, v: string, cu: string, y: string, close: string): seq<nat> {
    [q + |open|, q + |open + x|, q + |open + x + u|, q + |open + x + u + v|, q + |open + x + u + v + cu|,
     q + |open + x + u + v + cu + y|, q + |open + x + u + v + cu + y + close|]
  }

  /** Each of seven texts written one after the other occurs where DateEnds places it. */
  lemma DateSplit(s: string, q: nat, open: string, x: string, u: string, v: string, cu: string, y: string, close: string)
    requires OccursAt(s, q, open + x + u + v + cu + y + close)
    ensures var e := DateEnds(q, open, x, u, v, cu, y, close);
      && OccursAt(s, q, open) && OccursAt(s, e[0], x) && OccursAt(s, e[1], u) && OccursAt(s, e[2], v)
      && OccursAt(s, e[3], cu) && OccursAt(s, e[4], y) && OccursAt(s, e[5], close)
  {
    OccursSplit(s, q, open + x + u + v + cu + y, close);
    OccursSplit(s, q, open + x + u + v + cu, y);
    OccursSplit(s, q, open + x + u + v, cu);
    OccursSplit(s, q, open + x + u, v);
    OccursSplit(s, q, open + x, u);
    OccursSplit(s, q, open, x);
  }

  /** A date pattern fits `open + x + <unit> + v + </unit> + y + close` where it stands, v taken by its group. */
  lemma DateFits(s: string, q: nat, open: string, unit: string, x: string, v: string, y: string, close: string)
    requires Token(v) && NoBreak(x) && NoBreak(y)
    requires OccursAt(s, q, open + x + ("<" + unit + ">") + v + ("</" + unit + ">") + y + close)
    ensures var e := DateEnds(q, open, x, "<" + unit + ">", v, "</" + unit + ">", y, close);
      && OccursAt(s, e[2], v)
      && Fits(s, DatePattern(open, unit, close), q, e)
  {
    var u, cu := "<" + unit + ">", "</" + unit + ">";
    var pat := DatePattern(open, unit, close);
    var e := DateEnds(q, open, x, u, v, cu, y, close);
    var m := Match(q, e);
    DateSplit(s, q, open, x, u, v, cu, y, close);
    OccursDots(s, e[0], x);
    OccursDots(s, e[2], v);
    OccursDots(s, e[4], y);
    assert PieceFits(s, pat[0], PieceStart(m, 0), e[0]);
    assert PieceFits(s, pat[1], PieceStart(m, 1), e[1]);
    assert PieceFits(s, pat[2], PieceStart(m, 2), e[2]);
    assert PieceFits(s, pat[3], PieceStart(m, 3), e[3]);
    assert PieceFits(s, pat[4], PieceStart(m, 4), e[4]);
    assert PieceFits(s, pat[5], PieceStart(m, 5), e[5]);
    assert PieceFits(s, pat[6], PieceStart(m, 6), e[6]);
    FitsFromPieces(s, pat, q, e);
  }

  /**
   * Any other match of the date pattern at q ends each lazy run no earlier, when no unit
   * tag starts inside x and no closing text starts inside y.
   */
  lemma DateDominates(s: string, q: nat, open: string, unit: string, x: string, v: string, y: string, close: string, o: seq<nat>)
    requires Token(v) && TagLike("</" + unit + ">")
    requires var e := DateEnds(q, open, x, "<" + unit + ">", v, "</" + unit + ">", y, close);
      && OccursAt(s, e[2], v) && AbsentIn(s, e[0], e[1], "<" + unit + ">") && AbsentIn(s, e[4], e[5], close)
    requires Fits(s, DatePattern(open, unit, close), q, o)
    ensures Dominates(DatePattern(open, unit, close), DateEnds(q, open, x, "<" + unit + ">", v, "</" + unit + ">", y, close), o)
  {
    var u, cu := "<" + unit + ">", "</" + unit + ">";
    var pat := DatePattern(open, unit, close);
    var e := DateEnds(q, open, x, u, v, cu, y, close);
    FitsPiece(s, pat, q, o, 0);
    FitsPiece(s, pat, q, o, 1);
    FitsPiece(s, pat, q, o, 2);
    FitsPiece(s, pat, q, o, 3);
    FitsPiece(s, pat, q, o, 4);
    FitsPiece(s, pat, q, o, 5);
    FitsPiece(s, pat, q, o, 6);
    assert OccursAt(s, o[1], u);
    assert e[1] <= o[1];
    assert s[o[3]] == '<' by { CharAt(s, o[3], cu, 0); }
    if o[3] < e[3] {
      TokenNoTag(s, e[2], v, o[3]);
    }
    assert OccursAt(s, o[5], close);
    assert e[5] <= o[5];
  }

  /**
   * Where `open + x + <unit> + v + </unit> + y + close` stands at q with no opening text
   * before it, the date token of that unit is v.
   */
  lemma DatePartOf(s: string, q: nat, open: string, unit: string, x: string, v: string, y: string, close: string)
    requires open != "" && Token(v) && NoBreak(x) && NoBreak(y) && TagLike("</" + unit + ">")
    requires OccursAt(s, q, open + x + ("<" + unit + ">") + v + ("</" + unit + ">") + y + close)
    requires forall k :: 0 <= k < q ==> !OccursAt(s, k, open)
    requires var e := DateEnds(q, open, x, "<" + unit + ">", v, "</" + unit + ">", y, close);
      AbsentIn(s, e[0], e[1], "<" + unit + ">") && AbsentIn(s, e[4], e[5], close)
    ensures DatePart(s, DatePattern(open, unit, close)) == Some(v)
  {
    var pat := DatePattern(open, unit, close);
    var e := DateEnds(q, open, x, "<" + unit + ">", v, "</" + unit + ">", y, close);
    DateFits(s, q, open, unit, x, v, y, close);
    forall o | Fits(s, pat, q, o) ensures Dominates(pat, e, o) {
      DateDominates(s, q, open, unit, x, v, y, close, o);
    }
    DominantIsMatchAt(s, pat, q, e);
    SearchFromSkips(s, pat, 0, q);
    assert SearchFrom(s, pat, 0) == Some(Match(q, e));
    assert Capture(s, Match(q, e), 3) == v;
  }

  /** open, then elements n1, n2 and n3 holding t1, t2 and t3, then close. */
  function UnitsXml(open: string, n1: string, t1: string, n2: string, t2: string, n3: string, t3: string, close: string): string {
    open + ElementXml(n1, t1) + ElementXml(n2, t2) + ElementXml(n3, t3) + close
  }

  /** open, then the day, month and year elements holding d, m and y, then close. */
  function DateXml(open: string, d: string, m: string, y: string, close: string): string {
    UnitsXml(open, "Day", d, "Month", m, "Year", y, close)
  }

  /** The same elements in the order PubMed writes them: year, month, day. */
  function YmdXml(open: string, y: string, m: string, d: string, close: string): string {
    UnitsXml(open, "Year", y, "Month", m, "Day", d, close)
  }

  /**
   * The tags of three elements and a closing text, such that no opening tag of a later
   * element starts inside an earlier one and close starts inside none of them.
   */
  predicate UnitTags(n1: string, n2: string, n3: string, close: string) {
    && TagLike("<" + n1 + ">") && TagLike("</" + n1 + ">")
    && TagLike("<" + n2 + ">") && TagLike("</" + n2 + ">")
    && TagLike("<" + n3 + ">") && TagLike("</" + n3 + ">")
    && TagLike(close)
    && TagsDiffer("<" + n1 + ">", "<" + n2 + ">") && TagsDiffer("</" + n1 + ">", "<" + n2 + ">")
    && TagsDiffer("<" + n1 + ">", "<" + n3 + ">") && TagsDiffer("</" + n1 + ">", "<" + n3 + ">")
    && TagsDiffer("<" + n2 + ">", "<" + n3 + ">") && TagsDiffer("</" + n2 + ">", "<" + n3 + ">")
    && TagsDiffer("<" + n2 + ">", close) && TagsDiffer("</" + n2 + ">", close)
    && TagsDiffer("<" + n3 + ">", close) && TagsDiffer("</" + n3 + ">", close)
  }

  /** Both date blocks of a summary: day, month, year, then a closing text none of their tags starts. */
  lemma DateClosesApart()
    ensures UnitTags("Day", "Month", "Year", PubClose) && UnitTags("Day", "Month", "Year", PubMedClose)
  {
  }

  /** The same in PubMed's order. */
  lemma YmdClosesApart()
    ensures UnitTags("Year", "Month", "Day", PubClose) && UnitTags("Year", "Month", "Day", PubMedClose)
  {
  }

  /** An element holding a token is matched by `.` throughout. */
  lemma ElementNoBreak(n: string, t: string)
    requires TagLike("<" + n + ">") && TagLike("</" + n + ">") && Token(t)
    ensures NoBreak(ElementXml(n, t))
  {
    var o, c := "<" + n + ">", "</" + n + ">";
    assert ElementXml(n, t) == o + t + c;
  }

  lemma AbsentInJoin(s: string, a: nat, b: nat, c: nat, w: string)
    requires AbsentIn(s, a, b, w) && AbsentIn(s, b, c, w)
    ensures AbsentIn(s, a, c, w)
  {
  }

  /** Where the block stands at |pre|, each of its elements stands at its own offset. */
  lemma UnitsAt(pre: string, open: string, n1: string, t1: string, n2: string, t2: string, n3: string, t3: string, close: string, post: string)
    ensures var s := pre + UnitsXml(open, n1, t1, n2, t2, n3, t3, close) + post;
      var e1, e2, e3 := ElementXml(n1, t1), ElementXml(n2, t2), ElementXml(n3, t3);
      var q := |pre| + |open|;
      && OccursAt(s, |pre|, UnitsXml(open, n1, t1, n2, t2, n3, t3, close))
      && OccursAt(s, q, e1) && OccursAt(s, q + |e1|, e2) && OccursAt(s, q + |e1| + |e2|, e3)
  {
    var xml := UnitsXml(open, n1, t1, n2, t2, n3, t3, close);
    var s := pre + xml + post;
    var e1, e2, e3 := ElementXml(n1, t1), ElementXml(n2, t2), ElementXml(n3, t3);
    assert s[|pre|..|pre| + |xml|] == xml;
    OccursSplit(s, |pre|, open + e1 + e2 + e3, close);
    OccursSplit(s, |pre|, open + e1 + e2, e3);
    OccursSplit(s, |pre|, open + e1, e2);
    OccursSplit(s, |pre|, open, e1);
  }

  /** The token of the first element is what its date pattern captures. */
  lemma FirstUnitOf(pre: string, open: string, n1: string, t1: string, n2: string, t2: string, n3: string, t3: string, close: string, post: string)
    requires open != "" && UnitTags(n1, n2, n3, close) && Token(t1) && Token(t2) && Token(t3)
    requires forall k :: 0 <= k < |pre| ==> !OccursAt(pre + UnitsXml(open, n1, t1, n2, t2, n3, t3, close) + post, k, open)
    ensures DatePart(pre + UnitsXml(open, n1, t1, n2, t2, n3, t3, close) + post, DatePattern(open, n1, close)) == Some(t1)
  {
    var s := pre + UnitsXml(open, n1, t1, n2, t2, n3, t3, close) + post;
    var e2, e3 := ElementXml(n2, t2), ElementXml(n3, t3);
    LaterUnitsFree(pre, open, n1, t1, n2, t2, n3, t3, close, post);
    assert UnitsXml(open, n1, t1, n2, t2, n3, t3, close) ==
      open + "" + ("<" + n1 + ">") + t1 + ("</" + n1 + ">") + (e2 + e3) + close;
    DatePartOf(s, |pre|, open, n1, "", t1, e2 + e3, close);
  }

  /** After the first element the block holds no closing text before its end, and `.` matches it all. */
  lemma LaterUnitsFree(pre: string, open: string, n1: string, t1: string, n2: string, t2: string, n3: string, t3: string, close: string, post: string)
    requires UnitTags(n1, n2, n3, close) && Token(t2) && Token(t3)
    ensures var s := pre + UnitsXml(open, n1, t1, n2, t2, n3, t3, close) + post;
      var q := |pre| + |open| + |ElementXml(n1, t1)|;
      var rest := ElementXml(n2, t2) + ElementXml(n3, t3);
      && OccursAt(s, |pre|, UnitsXml(open, n1, t1, n2, t2, n3, t3, close))
      && AbsentIn(s, q, q + |rest|, close) && NoBreak(rest)
  {
    var s := pre + UnitsXml(open, n1, t1, n2, t2, n3, t3, close) + post;
    var e1, e2, e3 := ElementXml(n1, t1), ElementXml(n2, t2), ElementXml(n3, t3);
    var q := |pre| + |open|;
    UnitsAt(pre, open, n1, t1, n2, t2, n3, t3, close, post);
    ElementFree(s, q + |e1|, n2, t2, close);
    ElementFree(s, q + |e1| + |e2|, n3, t3, close);
    AbsentInJoin(s, q + |e1|, q + |e1| + |e2|, q + |e1| + |e2| + |e3|, close);
    ElementNoBreak(n2, t2);
    ElementNoBreak(n3, t3);
  }

  /**
   * The first element holds no opening tag of the second, the third holds no closing
   * text, and `.` matches both.
   */
  lemma OuterUnitsFree(pre: string, open: string, n1: string, t1: string, n2: string, t2: string, n3: string, t3: string, close: string, post: string)
    requires UnitTags(n1, n2, n3, close) && Token(t1) && Token(t3)
    ensures var s := pre + UnitsXml(open, n1, t1, n2, t2, n3, t3, close) + post;
      var e1, e2, e3 := ElementXml(n1, t1), ElementXml(n2, t2), ElementXml(n3, t3);
      var q := |pre| + |open|;
      && OccursAt(s, |pre|, UnitsXml(open, n1, t1, n2, t2, n3, t3, close))
      && AbsentIn(s, q, q + |e1|, "<" + n2 + ">") && NoBreak(e1)
      && AbsentIn(s, q + |e1| + |e2|, q + |e1| + |e2| + |e3|, close) && NoBreak(e3)
  {
    var s := pre + UnitsXml(open, n1, t1, n2, t2, n3, t3, close) + post;
    var e1, e2 := ElementXml(n1, t1), ElementXml(n2, t2);
    var q := |pre| + |open|;
    UnitsAt(pre, open, n1, t1, n2, t2, n3, t3, close, post);
    ElementFree(s, q, n1, t1, "<" + n2 + ">");
    ElementFree(s, q + |e1| + |e2|, n3, t3, close);
    ElementNoBreak(n1, t1);
    ElementNoBreak(n3, t3);
  }

  /** The first two elements hold no opening tag of the third, and `.` matches them. */
  lemma EarlierUnitsFree(pre: string, open: string, n1: string, t1: string, n2: string, t2: string, n3: string, t3: string, close: string, post: string)
    requires UnitTags(n1, n2, n3, close) && Token(t1) && Token(t2)
    ensures var s := pre + UnitsXml(open, n1, t1, n2, t2, n3, t3, close) + post;
      var e1, e2 := ElementXml(n1, t1), ElementXml(n2, t2);
      var q := |pre| + |open|;
      && OccursAt(s, |pre|, UnitsXml(open, n1, t1, n2, t2, n3, t3, close))
      && AbsentIn(s, q, q + |e1 + e2|, "<" + n3 + ">") && NoBreak(e1 + e2)
  {
    var s := pre + UnitsXml(open, n1, t1, n2, t2, n3, t3, close) + post;
    var e1, e2 := ElementXml(n1, t1), ElementXml(n2, t2);
    var q := |pre| + |open|;
    UnitsAt(pre, open, n1, t1, n2, t2, n3, t3, close, post);
    ElementFree(s, q, n1, t1, "<" + n3 + ">");
    ElementFree(s, q + |e1|, n2, t2, "<" + n3 + ">");
    AbsentInJoin(s, q, q + |e1|, q + |e1| + |e2|, "<" + n3 + ">");
    ElementNoBreak(n1, t1);
    ElementNoBreak(n2, t2);
  }

  /** The token of the second element is what its date pattern captures. */
  lemma SecondUnitOf(pre: string, open: string, n1: string, t1: string, n2: string, t2: string, n3: string, t3: string, close: string, post: string)
    requires open != "" && UnitTags(n1, n2, n3, close) && Token(t1) && Token(t2) && Token(t3)
    requires forall k :: 0 <= k < |pre| ==> !OccursAt(pre + UnitsXml(open, n1, t1, n2, t2, n3, t3, close) + post, k, open)
    ensures DatePart(pre + UnitsXml(open, n1, t1, n2, t2, n3, t3, close) + post, DatePattern(open, n2, close)) == Some(t2)
  {
    var s := pre + UnitsXml(open, n1, t1, n2, t2, n3, t3, close) + post;
    var e1, e3 := ElementXml(n1, t1), ElementXml(n3, t3);
    OuterUnitsFree(pre, open, n1, t1, n2, t2, n3, t3, close, post);
    assert UnitsXml(open, n1, t1, n2, t2, n3, t3, close) ==
      open + e1 + ("<" + n2 + ">") + t2 + ("</" + n2 + ">") + e3 + close;
    DatePartOf(s, |pre|, open, n2, e1, t2, e3, close);
  }

  /** The token of the third element is what its date pattern captures. */
  lemma ThirdUnitOf(pre: string, open: string, n1: string, t1: string, n2: string, t2: string, n3: string, t3: string, close: string, post: string)
    requires open != "" && UnitTags(n1, n2, n3, close) && Token(t1) && Token(t2) && Token(t3)
    requires forall k :: 0 <= k < |pre| ==> !OccursAt(pre + UnitsXml(open, n1, t1, n2, t2, n3, t3, close) + post, k, open)
    ensures DatePart(pre + UnitsXml(open, n1, t1, n2, t2, n3, t3, close) + post, DatePattern(open, n3, close)) == Some(t3)
  {
    var s := pre + UnitsXml(open, n1, t1, n2, t2, n3, t3, close) + post;
    var e1, e2 := ElementXml(n1, t1), ElementXml(n2, t2);
    EarlierUnitsFree(pre, open, n1, t1, n2, t2, n3, t3, close, post);
    assert UnitsXml(open, n1, t1, n2, t2, n3, t3, close) ==
      open + (e1 + e2) + ("<" + n3 + ">") + t3 + ("</" + n3 + ">") + "" + close;
    DatePartOf(s, |pre|, open, n3, e1 + e2, t3, "", close);
  }

  /**
   * Publication date round trip: a block whose `<PubDate>` holds day, month and year
   * elements with tokens d, m and y, and no `<PubDate>` before it, gives the date of
   * the parsed day, the month through the table, and the year.
   */
  lemma PublicationDateRoundTrip(pre: string, d: string, m: string, y: string, post: string)
    requires Token(d) && Token(m) && Token(y)
    requires forall k :: 0 <= k < |pre| ==> !OccursAt(pre + DateXml(PubOpen, d, m, y, PubClose) + post, k, PubOpen)
    ensures PublicationDate(pre + DateXml(PubOpen, d, m, y, PubClose) + post) ==
              FormatDate(Some(DayText(d)), Some(m), Some(y))
  {
    assert DateXml(PubOpen, d, m, y, PubClose) == UnitsXml(PubOpen, "Day", d, "Month", m, "Year", y, PubClose);
    DateClosesApart();
    FirstUnitOf(pre, PubOpen, "Day", d, "Month", m, "Year", y, PubClose, post);
    SecondUnitOf(pre, PubOpen, "Day", d, "Month", m, "Year", y, PubClose, post);
    ThirdUnitOf(pre, PubOpen, "Day", d, "Month", m, "Year", y, PubClose, post);
  }

  /** The same for the `pubmed` history entry, whose day is kept as written. */
  lemma PubMedDateRoundTrip(pre: string, d: string, m: string, y: string, post: string)
    requires Token(d) && Token(m) && Token(y)
    requires forall k :: 0 <= k < |pre| ==> !OccursAt(pre + DateXml(PubMedOpen, d, m, y, PubMedClose) + post, k, PubMedOpen)
    ensures PubMedDate(pre + DateXml(PubMedOpen, d, m, y, PubMedClose) + post) ==
              FormatDate(Some(d), Some(m), Some(y))
  {
    assert DateXml(PubMedOpen, d, m, y, PubMedClose) == UnitsXml(PubMedOpen, "Day", d, "Month", m, "Year", y, PubMedClose);
    DateClosesApart();
    FirstUnitOf(pre, PubMedOpen, "Day", d, "Month", m, "Year", y, PubMedClose, post);
    SecondUnitOf(pre, PubMedOpen, "Day", d, "Month", m, "Year", y, PubMedClose, post);
    ThirdUnitOf(pre, PubMedOpen, "Day", d, "Month", m, "Year", y, PubMedClose, post);
  }

  /** The publication date round trip for a `<PubDate>` written year, month, day. */
  lemma PublicationDateRoundTripYmd(pre: string, y: string, m: string, d: string, post: string)
    requires Token(d) && Token(m) && Token(y)
    requires forall k :: 0 <= k < |pre| ==> !OccursAt(pre + YmdXml(PubOpen, y, m, d, PubClose) + post, k, PubOpen)
    ensures PublicationDate(pre + YmdXml(PubOpen, y, m, d, PubClose) + post) ==
              FormatDate(Some(DayText(d)), Some(m), Some(y))
  {
    assert YmdXml(PubOpen, y, m, d, PubClose) == UnitsXml(PubOpen, "Year", y, "Month", m, "Day", d, PubClose);
    YmdClosesApart();
    FirstUnitOf(pre, PubOpen, "Year", y, "Month", m, "Day", d, PubClose, post);
    SecondUnitOf(pre, PubOpen, "Year", y, "Month", m, "Day", d, PubClose, post);
    ThirdUnitOf(pre, PubOpen, "Year", y, "Month", m, "Day", d, PubClose, post);
  }

  /** The date added to PubMed for a `pubmed` history entry written year, month, day. */
  lemma PubMedDateRoundTripYmd(pre: string, y: string, m: string, d: string, post: string)
    requires Token(d) && Token(m) && Token(y)
    requires forall k :: 0 <= k < |pre| ==> !OccursAt(pre + YmdXml(PubMedOpen, y, m, d, PubMedClose) + post, k, PubMedOpen)
    ensures PubMedDate(pre + YmdXml(PubMedOpen, y, m, d, PubMedClose) + post) ==
              FormatDate(Some(d), Some(m), Some(y))
  {
    assert YmdXml(PubMedOpen, y, m, d, PubMedClose) == UnitsXml(PubMedOpen, "Year", y, "Month", m, "Day", d, PubMedClose);
    YmdClosesApart();
    FirstUnitOf(pre, PubMedOpen, "Year", y, "Month", m, "Day", d, PubMedClose, post);
    SecondUnitOf(pre, PubMedOpen, "Year", y, "Month", m, "Day", d, PubMedClose, post);
    ThirdUnitOf(pre, PubMedOpen, "Year", y, "Month", m, "Day", d, PubMedClose, post);
  }

  /* ---------------------------------------------------------------------------------- */
  /* processSummary                                                                      */
  /* ---------------------------------------------------------------------------------- */

  /** index.js:41-63: one summary per article block, pushed in document order. */
  method ProcessSummary(data: string) returns (summaries: seq<seq<Field>>)
    ensures |summaries| == |Articles(data)|
    ensures forall i :: 0 <= i < |summaries| ==> summaries[i] == Summarize(Articles(data)[i])
  {
    var text := StripNewlines(data);
    var articles := MatchAllIter(text, Between(ArticleOpen, ArticleClose));
    ghost var blocks := Articles(data);
    summaries := [];
    for i := 0 to |articles|
      invariant |summaries| == i
      invariant forall j :: 0 <= j < i ==> summaries[j] == Summarize(blocks[j])
    {
      var article := Matched(text, articles[i]);
      assert article == blocks[i];
      summaries := summaries + [Summarize(article)];
    }
  }
}

=== FILE: wrappers.dfy ===
/** The Option datatype shared by the other modules. */
module Wrappers {

  datatype Option<+T> = None | Some(value: T) {

    /** The value in Some, or `default` for None (JavaScript's `match ? m[1] : default`). */
    function GetOr(default: T): T {
      match this
      case Some(v) => v
      case None => default
    }
  }
}
